=== FILE: README.md ===
# dkm_analysis: a Dafny model of the pcap comparison pipeline

`dkm_analysis` compares two packet captures, typically one taken with DKM
and one without. For each `.pcapng` file it asks tshark for the TCP frames
and turns them into three per-interval series:

- packets per second;
- mean round-trip time;
- throughput in bits per second.

It then reduces each series to per-file figures and compares the two files:
the ratio of averages, and which file finished faster and by how much. It
draws the series on a time axis normalised to 0-100 % of each file's
duration.

This project models that pipeline in Dafny 4.11 and proves what it
computes:

| module | file | models |
|---|---|---|
| `Wrappers`, `Floats`, `Sequences`, `Sorting`, `Statistics`, `Text`, `Paths` | `wrappers.dfy` … `paths.dfy` | the Python and numpy primitives the program leans on: division giving NaN/inf, sums, a stable sort by key, mean/min/max/median, `str.strip`/`split`/`replace`/`lower`, `os.path.basename`/`join` |
| `Metrics` | `metrics.dfy` | the `(times, values)` pairs the extractors return and the per-file `results` dictionary |
| `Binning`, `Binned` | `binning.dfy`, `binned.dfy` | `np.arange` bin edges, `np.histogram` and `np.digitize` bins, and the three reductions, with sampling correction |
| `PacketProcessing` | `packet_processing.dfy` | `pcap_analyzer/packet_processing.py`: the display filter, the parse of tshark's text, and the three extractors |
| `Analysis` | `analysis.dfy` | `pcap_analyzer/analysis.py`: the three `prepare_*_data` tables and the decisions of `add_comparison_analysis` |
| `Utils` | `utils.dfy` | `pcap_analyzer/utils.py`: capture selection, `clean_filename`, `get_durations`, the output file name |
| `Plotting` | `plotting.dfy` | the pure transforms of `pcap_analyzer/plotting.py` |
| `Pipeline` | `compare.dfy` | `compare.py`: configuration, sampling by file size, the two-file gate, the results map, the run |

**Numbers.** Timestamps and values are exact `real`s. A float that can be
NaN or infinite is `Floats.Float = Num(r) | NaN | Inf(negative)`. `int()`
on a float is truncation toward zero (`PacketProcessing.Trunc`).

**Parameters.** tshark is a function from (path, metric, filter) to an
exit status and standard output. `float()` and `int()` on text are partial
parsers, passed in as `Converters`. The directory listing, `isdir` and
`getsize` are fields of `Pipeline.Environment`.

**Bins.**
- The edges are `t0 + k*w` for `k = 0 .. ceil((t1 - t0) / w)`. The last edge is the first one at or beyond `t1`.
- The packet-rate histogram closes its last bin, so every timestamp is counted (`Binned.HistogramTotal`).
- The RTT and throughput digitize bins are all half-open. A sample exactly on the final edge falls outside every bin (`Binning.DigitizeBinInRange`, `Binned.RttExample`).
- The code does this. It differs from the plain reading that every sample lands in some bin, and the model follows the code.

**Sorting.** numpy sorts with `np.sort`/`argsort`; the model uses a stable insertion sort. Each bin's count, total and mean is proved independent of the order of the samples (`*Permutation` lemmas), so the choice of sort does not matter.

## Model

| member | source | states |
|---|---|---|
| Floats.Div | pcap_analyzer/plotting.py:75 | float division: a number exactly when the divisor is non-zero, and then it times the divisor is the dividend; NaN exactly for 0/0; otherwise an infinity with the dividend's sign |
| Floats.Scale | pcap_analyzer/plotting.py:75 | multiplying by a positive constant scales numbers and leaves NaN and each infinity, sign included, as they are |
| Sorting.Sort | pcap_analyzer/packet_processing.py:63-64 | the sorted timestamps are ordered by key and are a permutation of the input |
| Sorting.SortedEnds | pcap_analyzer/packet_processing.py:64-67 | after sorting, the first element's key is at most every key and the last at least every key |
| Statistics.Max | pcap_analyzer/analysis.py:107 | `np.max` is an element and at least every element |
| Statistics.Min | pcap_analyzer/analysis.py:139 | `np.min` is an element and at most every element |
| Statistics.MeanWithin | pcap_analyzer/analysis.py:106 | the mean lies between the minimum and the maximum |
| Statistics.Median | pcap_analyzer/analysis.py:140 | the median lies between the minimum and the maximum |
| Statistics.MeanScaled | pcap_analyzer/analysis.py:158-165 | dividing every value by a constant divides the mean by it |
| Statistics.Finite | pcap_analyzer/analysis.py:127 | `rtt[~np.isnan(rtt)]` keeps every number and only numbers; one bin gives its number or nothing; empty exactly when every bin is NaN |
| Statistics.FiniteAppend | pcap_analyzer/analysis.py:127 | the selection of a concatenation is the selections concatenated, so order and repeats are kept |
| Statistics.SortedFirstLast | pcap_analyzer/packet_processing.py:164-166 | after the sort, `start_time` is the smallest timestamp and `end_time` the largest |
| Text.Strip | pcap_analyzer/packet_processing.py:41 | `strip` leaves one contiguous slice with only dropped characters around it and kept characters at its ends; empty exactly when every character is dropped |
| Text.StripUnique | pcap_analyzer/packet_processing.py:41 | that slice is the only one with these properties, so `strip` is fully determined |
| Text.StripKeeps | pcap_analyzer/packet_processing.py:41 | stripping keeps every character that is not dropped and adds none |
| Text.TrimmedTwice | pcap_analyzer/packet_processing.py:41 | stripping a stripped slice again leaves a slice of the original with only characters either strip drops around it |
| Text.StripIdempotent | pcap_analyzer/packet_processing.py:41 | stripping twice is stripping once |
| Text.Split | pcap_analyzer/packet_processing.py:34 | `split` gives at least one piece, and joining the pieces with the separator gives the text back |
| Text.SplitJoin | pcap_analyzer/packet_processing.py:131 | splitting a join of separator-free pieces gives the pieces back |
| Text.SplitAtLeastTwo | pcap_analyzer/packet_processing.py:130-132 | text containing the separator splits into at least two pieces |
| Text.RemoveAll | pcap_analyzer/plotting.py:65-66 | `replace(pat, "")` removes `|pat|` characters per occurrence found and leaves text without one unchanged |
| Text.JoinLength | pcap_analyzer/plotting.py:65 | a join is as long as its pieces plus one separator between each two |
| Text.Lower | pcap_analyzer/utils.py:26 | `lower` keeps the length and lowers each ASCII capital |
| Text.Digits | pcap_analyzer/packet_processing.py:16 | `str(n)` of a natural is a non-empty run of digits without a leading zero |
| Text.DigitsRoundTrip | pcap_analyzer/packet_processing.py:16 | reading the digits of `str(n)` back gives n |
| Text.IntToStringInjective | pcap_analyzer/packet_processing.py:16 | different moduli give different filter strings |
| Paths.Basename | pcap_analyzer/utils.py:36 | `os.path.basename` is the suffix after the last '/', and holds no '/' |
| Paths.BasenameOfJoin | pcap_analyzer/utils.py:27 | the base name of a joined path is the joined name when it holds no '/' |
| Binning.NumBins | pcap_analyzer/packet_processing.py:77 | `np.arange(t0, t1 + w, w)` yields at least one bin |
| Binning.NumBinsBounds | pcap_analyzer/packet_processing.py:77 | with n bins, `(n-1)*w < t1 - t0 <= n*w`: the edges reach the last timestamp and stop at the first edge that does |
| Binning.Edges | pcap_analyzer/packet_processing.py:77 | edge k is `t0 + k*w`, and there is one more edge than bins |
| Binning.EdgesShape | pcap_analyzer/packet_processing.py:77 | the edges increase from `t0`, and the last edge is the first at or beyond `t1` |
| Binning.OffsetsUniform | pcap_analyzer/packet_processing.py:87 | `bins[:-1] - start_time` starts at 0 and steps by w: offset k is `k*w` |
| Binning.OffsetsCover | pcap_analyzer/packet_processing.py:87 | the last bin starts before the span ends and reaches it |
| Binning.SearchRightBounds | pcap_analyzer/packet_processing.py:176 | `searchsorted(side='right')` puts t after every edge at or below it and before every edge above it |
| Binning.DigitizeBinIff | pcap_analyzer/packet_processing.py:176-177 | digitize puts t in bin j exactly when `e[j] <= t < e[j+1]` |
| Binning.HistBinIff | pcap_analyzer/packet_processing.py:80 | the histogram puts t in bin j exactly when `e[j] <= t < e[j+1]`, or t is the last edge and j the last bin |
| Binning.HistBinInRange | pcap_analyzer/packet_processing.py:80 | every timestamp between the first and last edge is counted in some bin |
| Binning.DigitizeBinInRange | pcap_analyzer/packet_processing.py:176-177 | a sample from the first edge on lands in a bin exactly when it is strictly before the final edge |
| Binned.Corrected | pcap_analyzer/packet_processing.py:83-84 | each corrected count times the sampling factor (the rate when below 1, else 1) is the raw count |
| Binned.PerSecond | pcap_analyzer/packet_processing.py:90 | counts divided by the interval, times the interval, are the counts |
| Binned.ScaleBack | pcap_analyzer/packet_processing.py:83-90 | multiplying the rates by `w*s` gives back the raw bin counts |
| Binned.BinEdges | pcap_analyzer/packet_processing.py:77 | the edges increase, start at the first timestamp and the last one is the first at or past the last timestamp |
| Binned.HistogramSlots | pcap_analyzer/packet_processing.py:80 | histogram slot j is the number of timestamps in bin j |
| Binned.HistogramPermutation | pcap_analyzer/packet_processing.py:64 | the histogram does not depend on the order of the timestamps |
| Binned.HistogramTotal | pcap_analyzer/packet_processing.py:80 | the histogram counts add up to the number of timestamps |
| Binned.PacketRateSeries | pcap_analyzer/packet_processing.py:59-93 | times and rates of equal length, empty exactly for no timestamps, starting at offset 0 |
| Binned.SortedTimestamps | pcap_analyzer/packet_processing.py:63-67 | the sorted timestamps run from the smallest to the largest |
| Binned.PacketRateDegenerate | pcap_analyzer/packet_processing.py:70-74 | a zero span gives one bin at 0 holding the raw count, with no division by w or s |
| Binned.PacketRateReference | pcap_analyzer/packet_processing.py:63-93 | the packet rate of the sorted timestamps equals the reference binning of the unsorted ones |
| Binned.RateOverPermutation | pcap_analyzer/packet_processing.py:63-64 | the per-bin rates do not depend on the order of the timestamps |
| Binned.PacketRateBins | pcap_analyzer/packet_processing.py:77-90 | the offsets are the bin starts, and each rate times `w*s` is its bin's count |
| Binned.EdgesSpan | pcap_analyzer/packet_processing.py:77 | every timestamp lies between the first and last edge |
| Binned.PacketRateConservation | pcap_analyzer/packet_processing.py:77-90 | when the timestamps span some time (min < max), the rates times `w*s` add up to the number of timestamps |
| Binned.SortedSamples | pcap_analyzer/packet_processing.py:160-166 | the samples sorted by time run from the earliest to the latest |
| Binned.InBinShape | pcap_analyzer/packet_processing.py:177 | a bin's selected values are as many as its samples and add up to its total |
| Binned.BinPermutation | pcap_analyzer/packet_processing.py:160-162 | a bin's sample count and total do not depend on the order of the samples |
| Binned.EmptyBinIff | pcap_analyzer/packet_processing.py:176-180 | a bin is empty exactly when no sample time lies in `[e[j], e[j+1])` |
| Binned.ValuesSumPermutation | pcap_analyzer/packet_processing.py:263 | the sum of the values does not depend on their order |
| Binned.RttOver | pcap_analyzer/packet_processing.py:173-183 | one mean per bin, never infinite |
| Binned.RttSeries | pcap_analyzer/packet_processing.py:152-186 | times and means of equal length, empty exactly for no samples, never infinite |
| Binned.RttOverBins | pcap_analyzer/packet_processing.py:176-180 | bin j's RTT is NaN when empty, else its total over its count |
| Binned.RttOverPermutation | pcap_analyzer/packet_processing.py:160-162 | the per-bin means do not depend on the order of the samples: the RTTs stay paired with their times |
| Binned.RttDegenerate | pcap_analyzer/packet_processing.py:168-170 | a zero span gives one bin at 0 holding the mean of all RTTs |
| Binned.RttReference | pcap_analyzer/packet_processing.py:156-186 | the RTT series of the sorted samples equals the reference binning of the unsorted ones |
| Binned.RttBins | pcap_analyzer/packet_processing.py:173-183 | offsets are the bin starts and each value is its bin's average |
| Binned.BinAverageNaN | pcap_analyzer/packet_processing.py:180 | a bin's RTT is NaN exactly when no sample falls in it |
| Binned.BitRateSlot | pcap_analyzer/packet_processing.py:274 | a bin's bit rate times w is eight times its bytes, 0 for an empty bin |
| Binned.ThroughputOverScaled | pcap_analyzer/packet_processing.py:274-279 | the throughput times `w*s` is eight times each bin's bytes |
| Binned.ThroughputSeries | pcap_analyzer/packet_processing.py:245-285 | times and rates of equal length, empty exactly for no samples |
| Binned.ThroughputOverPermutation | pcap_analyzer/packet_processing.py:253-255 | the per-bin throughput does not depend on the order of the samples: the sizes stay paired with their times |
| Binned.ThroughputDegenerate | pcap_analyzer/packet_processing.py:261-264 | a zero span gives one bin at 0 holding eight times the total bytes, with no division by w or s |
| Binned.ThroughputReference | pcap_analyzer/packet_processing.py:249-285 | the throughput of the sorted samples equals the reference binning of the unsorted ones |
| Binned.ThroughputBins | pcap_analyzer/packet_processing.py:267-282 | offsets are the bin starts and each bin's bytes are the sizes of its samples |
| Binned.ByteTallySlots | pcap_analyzer/packet_processing.py:271 | slot j of the byte tally is the total size of the samples in bin j |
| Binned.DigitizedTotal | pcap_analyzer/packet_processing.py:270-271 | the digitize bins together hold exactly the samples before the final edge |
| Binned.ThroughputConservation | pcap_analyzer/packet_processing.py:267-279 | when the timestamps span some time (min < max), the throughput times `w*s` adds up to eight times the bytes of the frames before the final edge |
| Binned.PacketRateExample | pcap_analyzer/packet_processing.py:77-93 | timestamps 0 and 1 with w = 1 give one bin holding both |
| Binned.RttExample | pcap_analyzer/packet_processing.py:173-186 | samples at 0 and 1 with w = 1: the one on the final edge is dropped |
| Binned.ThroughputExample | pcap_analyzer/packet_processing.py:267-285 | frames at 0 and 1 with w = 1: only the first frame's bits are counted |
| PacketProcessing.Trunc | pcap_analyzer/packet_processing.py:16 | `int(x)` truncates toward zero |
| PacketProcessing.DisplayFilter | pcap_analyzer/packet_processing.py:16 | no filter when `1/s` raises (s = 0); the bare filter when s >= 1; otherwise it starts with the bare filter |
| PacketProcessing.DecimationFilter | pcap_analyzer/packet_processing.py:16 | below 1, the filter keeps every n-th frame with `n = int(1/s)`, where `n*s <= 1 < (n+1)*s` |
| PacketProcessing.TenthFilter | pcap_analyzer/packet_processing.py:16 | rate 0.1 keeps every 10th TCP frame |
| PacketProcessing.HalfFilter | pcap_analyzer/packet_processing.py:104 | rate 0.5 keeps every 2nd frame with an RTT |
| PacketProcessing.Body | pcap_analyzer/packet_processing.py:37-38 | the first line is always dropped as the header |
| PacketProcessing.Clean | pcap_analyzer/packet_processing.py:41 | the cleaned field is the quote-trim of the whitespace-trim of the field: one slice of it with only whitespace and quotes around it, and no quote at either end |
| PacketProcessing.CleanUnique | pcap_analyzer/packet_processing.py:41 | any result of trimming whitespace and then quotes, each stage a maximal slice with kept ends, is the cleaned field |
| PacketProcessing.QuotedFieldCleaned | pcap_analyzer/packet_processing.py:41 | a quoted value with spaces around the quotes cleans to the bare value |
| PacketProcessing.DataLines | pcap_analyzer/packet_processing.py:38-39 | exactly the non-blank body lines are converted; one line is kept exactly when it is not blank |
| PacketProcessing.DataLinesAppend | pcap_analyzer/packet_processing.py:38-39 | the filter of two blocks of lines is the two filters concatenated, so order and repeats are kept |
| PacketProcessing.ConvertAll | pcap_analyzer/packet_processing.py:42 | one line that fails to convert fails the whole list; otherwise every line converts in order |
| PacketProcessing.ParseTimestamps | pcap_analyzer/packet_processing.py:33-42 | one timestamp per non-blank body line |
| PacketProcessing.Fields | pcap_analyzer/packet_processing.py:130-135 | a row yields fields only if it is non-blank and has a comma; neither field holds a comma |
| PacketProcessing.FieldsOfPieces | pcap_analyzer/packet_processing.py:130-135 | when the stripped row is the comma-free pieces p0,p1,…, the fields are `(clean(p0), clean(p1))` if both are non-blank, and none otherwise |
| PacketProcessing.FieldsCountCheckRedundant | pcap_analyzer/packet_processing.py:130-132 | a non-blank row with a comma always splits into at least two parts |
| PacketProcessing.FieldsOfPlainRow | pcap_analyzer/packet_processing.py:130-135 | a row `a,b` of plain fields yields exactly `(a, b)` |
| PacketProcessing.SamplesOf | pcap_analyzer/packet_processing.py:128-139 | every sample comes from a complete row; one row gives its sample exactly when both fields converted; none exactly when no row is complete |
| PacketProcessing.SamplesOfAppend | pcap_analyzer/packet_processing.py:128-139 | the samples of two blocks of rows are the two sample lists concatenated, so row order is kept |
| PacketProcessing.ParseSamples | pcap_analyzer/packet_processing.py:128-139 | the two-column parse gives no samples exactly when no row converts completely |
| PacketProcessing.ParseSamplesAppend | pcap_analyzer/packet_processing.py:123-139 | the samples of two blocks of lines are those of the first block followed by those of the second |
| PacketProcessing.ParseSamplesLine | pcap_analyzer/packet_processing.py:128-139 | one line gives its (time, value) sample when both fields convert, and nothing otherwise |
| PacketProcessing.AppendedAsWritten | pcap_analyzer/packet_processing.py:123-139 | the value list is never longer than the time list; one row adds what `RowColumns` says |
| PacketProcessing.RowColumns | pcap_analyzer/packet_processing.py:128-139 | a row adds its time exactly when it has fields and the time converts, and its value exactly when both convert |
| PacketProcessing.AppendedAsWrittenAppend | pcap_analyzer/packet_processing.py:123-139 | both lists of two blocks of rows are the lists of each block concatenated |
| PacketProcessing.LoadAsWritten | pcap_analyzer/packet_processing.py:152-162 | either list empty gives empty arrays; indexing with the argsort of the times raises IndexError exactly when both lists are non-empty and differ in length |
| PacketProcessing.AllHalfNoData | pcap_analyzer/packet_processing.py:130-154 | when every row's value fails to convert, every timestamp and no value is kept, and the result is empty arrays, not an error |
| PacketProcessing.AsWrittenAgrees | pcap_analyzer/packet_processing.py:128-139 | without half-converted rows the two lists are the columns of the corrected samples |
| PacketProcessing.HalfRowMisaligns | pcap_analyzer/packet_processing.py:136-137 | a row whose value fails after its time was appended leaves more times than values |
| PacketProcessing.HalfRowCrashes | pcap_analyzer/packet_processing.py:136-137 | rows `t1,v1` and `t2,v2` with only v1 unconvertible: the written parse raises, the corrected one yields the second sample |
| PacketProcessing.Invoke | pcap_analyzer/packet_processing.py:16-30 | tshark runs with the display filter exactly when building it does not raise |
| PacketProcessing.Millis | pcap_analyzer/packet_processing.py:137 | the RTT field is converted to milliseconds: the value over 1000 is the seconds parsed |
| PacketProcessing.Bytes | pcap_analyzer/packet_processing.py:230 | a frame length is a value exactly when it parses as an integer, and is then that integer |
| PacketProcessing.Timestamps | pcap_analyzer/packet_processing.py:28-42 | timestamps exactly when tshark succeeded and every data line converted, one per data line |
| PacketProcessing.ExtractPacketRate | pcap_analyzer/packet_processing.py:6-93 | `(None, None)` exactly when the timestamps failed; otherwise aligned arrays, empty exactly when there were no data lines |
| PacketProcessing.Samples | pcap_analyzer/packet_processing.py:118-139 | samples exactly when tshark succeeded |
| PacketProcessing.ExtractRtt | pcap_analyzer/packet_processing.py:95-186 | arrays exactly when tshark ran and succeeded; aligned, never infinite, empty exactly when no row converted completely |
| PacketProcessing.ExtractThroughput | pcap_analyzer/packet_processing.py:188-285 | arrays exactly when tshark ran and succeeded; aligned, empty exactly when no row converted completely |
| PacketProcessing.SamplesAsWritten | pcap_analyzer/packet_processing.py:123-162 | the written parse raises exactly when tshark succeeded and the lists misalign; otherwise it returns the loaded samples |
| PacketProcessing.ExtractRttAsWritten | pcap_analyzer/packet_processing.py:95-186 | `calculate_tcp_rtt` as written raises exactly when its parse does |
| PacketProcessing.ExtractThroughputAsWritten | pcap_analyzer/packet_processing.py:188-285 | `calculate_tcp_throughput` as written raises exactly when its parse does |
| PacketProcessing.SamplesAsWrittenAgree | pcap_analyzer/packet_processing.py:123-162 | without half-converted rows the written parse returns the corrected samples |
| PacketProcessing.HalfRowRaises | pcap_analyzer/packet_processing.py:136-162 | a half-converted row plus a complete row: the written extractor raises where the corrected one has data |
| PacketProcessing.PacketRateCountsLines | pcap_analyzer/packet_processing.py:33-90 | end to end, when the parsed timestamps span some time (min < max), the rates times `w*s` add up to the number of data lines |
| PacketProcessing.PacketRateSingleBin | pcap_analyzer/packet_processing.py:70-74 | end to end, equal timestamps give one bin holding the number of data lines |
| Analysis.Kept | pcap_analyzer/analysis.py:119-130 | a table keeps exactly the files whose metric is present, non-empty and, for RTT, not all NaN; one file is kept exactly when usable |
| Analysis.KeptAppend | pcap_analyzer/analysis.py:119-130 | the files kept from two lists are those kept from each, concatenated, so the order of the results is kept |
| Analysis.KeptEmpty | pcap_analyzer/analysis.py:95-98 | a table is empty exactly when no file is usable for its metric |
| Analysis.RateInfoOf | pcap_analyzer/analysis.py:100-109 | `avg_pps` is the mean rate, between the minimum and `max_pps`; `max_pps` is the largest bin's rate; duration is the last offset; `total_packets` is the sum of `pps*w` |
| Analysis.PrepareRates | pcap_analyzer/analysis.py:89-111 | row k is the k-th file with packet-rate data, with its name and the figures `RateInfoOf` gives for its series; empty exactly when no file has data |
| Analysis.TotalPacketsEstimate | pcap_analyzer/analysis.py:108 | when the timestamps span some time (min < max), `total_packets` times the sample rate is the number of timestamps extracted |
| Analysis.SingleBinTotal | pcap_analyzer/analysis.py:108 | a single-bin series totals its value times w |
| Analysis.RttInfoOf | pcap_analyzer/analysis.py:124-141 | the statistics skip NaN bins: `min <= avg <= max`, `min <= median <= max`, min and max are bins' values |
| Analysis.PrepareRtts | pcap_analyzer/analysis.py:113-143 | row k is the k-th file with a non-NaN RTT bin, with its name and the figures `RttInfoOf` gives; empty exactly when there is none |
| Analysis.Mbps | pcap_analyzer/analysis.py:158 | each value in Mbps times 1,000,000 is the bits per second |
| Analysis.ThroughputInfoOf | pcap_analyzer/analysis.py:156-169 | `avg_bandwidth` is the mean in bps and `avg_throughput` the mean in Mbps; `max_throughput` is the largest bin in Mbps; `total_bits` uses the unconverted bps |
| Analysis.MbpsFigures | pcap_analyzer/analysis.py:158-166 | the mean and max of the Mbps series are those of the bps series over 1,000,000 |
| Analysis.PrepareThroughputs | pcap_analyzer/analysis.py:145-171 | row k is the k-th file with throughput data, with its name and the figures `ThroughputInfoOf` gives; empty exactly when no file has data |
| Analysis.Megabytes | pcap_analyzer/analysis.py:68 | megabytes times 8,000,000 is the bits |
| Analysis.MegabytesOfBits | pcap_analyzer/analysis.py:68 | when the bits times the sample rate are eight times the bytes, the megabytes shown times the rate are the bytes in millions |
| Analysis.TotalBitsEstimate | pcap_analyzer/analysis.py:167 | when the timestamps span some time (min < max), `total_bits` times the sample rate is eight times the bytes of the frames before the final edge |
| Analysis.EfficiencyAsWritten | pcap_analyzer/analysis.py:80-87 | efficiency exactly when the durations differ by more than 1 s; faster is the shorter; the ratio is `d0/d1` whichever is slower |
| Analysis.EfficiencyOf | pcap_analyzer/analysis.py:80-87 | as above, with the ratio the slower duration over the faster |
| Analysis.FasterPlusDifference | pcap_analyzer/analysis.py:82-84 | the faster duration plus the difference is the slower duration |
| Analysis.SlowerRatioAboveOne | pcap_analyzer/analysis.py:87 | for non-negative durations the corrected ratio exceeds 1 or is infinite |
| Analysis.TimeRatioInverted | pcap_analyzer/analysis.py:81 | durations 10 s and 20 s: as written "took 0.50x longer", corrected 2.0 |
| Analysis.Compare | pcap_analyzer/analysis.py:8-87 | nothing for fewer than two files; the ratio of averages exactly for two; efficiency exactly for two differing by more than 1 s |
| Analysis.CompareAsWritten | pcap_analyzer/analysis.py:8-87 | the same decisions with the written time ratio |
| Analysis.CompareDiffersInRatioOnly | pcap_analyzer/analysis.py:72-87 | the written and corrected comparisons agree on everything but the time ratio |
| Utils.Captures | pcap_analyzer/utils.py:25-27 | exactly the entries whose lower-cased name ends with `.pcapng`; one entry is kept exactly when it is a capture |
| Utils.CapturesAppend | pcap_analyzer/utils.py:25-27 | the captures of two listings are those of each, concatenated, so listing order and repeats are kept |
| Utils.FindCaptures | pcap_analyzer/utils.py:19-28 | `None` exactly when the directory does not exist; otherwise each capture joined to the directory |
| Utils.FoundIff | pcap_analyzer/utils.py:26 | a listed entry is found exactly when its name is a capture's |
| Utils.CleanFilename | pcap_analyzer/utils.py:30-41 | the base name, less exactly 7 characters when it ends with `.pcapng` in any case, else unchanged |
| Utils.CleanCapture | pcap_analyzer/utils.py:36-39 | `dir/name.PcapNG` is shown as `name` |
| Utils.CaptureWithExtension | pcap_analyzer/utils.py:26 | a name followed by any spelling of `.pcapng` is a capture whose stem is the name |
| Utils.CleanOther | pcap_analyzer/utils.py:41 | any other file is shown under its base name |
| Utils.OfferedFromIff | pcap_analyzer/utils.py:48-51 | the inner loop offers (file, last offset) exactly for the files with data for the metric |
| Utils.CandidatesIff | pcap_analyzer/utils.py:47-51 | the loops offer a pair exactly when some file has it for some metric |
| Utils.LongestIsMax | pcap_analyzer/utils.py:53-54 | the merge keeps for each name the largest offset offered, and that offset was offered |
| Utils.GetDurations | pcap_analyzer/utils.py:43-56 | a file has a duration exactly when one of its metrics has data, and it is the largest of their last offsets |
| Utils.NoDataNoDuration | pcap_analyzer/utils.py:49 | a file without data for any metric has no duration |
| Utils.OutputPath | pcap_analyzer/utils.py:65-68 | the plot path ends with `.png`; a relative prefix puts it under the output directory, an absolute one replaces the directory |
| Utils.InOutputDirectory | pcap_analyzer/utils.py:68 | for a relative prefix, the path is the output directory, a '/' unless the directory is empty or ends in one, then `prefix.png` |
| Utils.OutputName | pcap_analyzer/utils.py:68 | the file written is named `prefix.png`, in any directory |
| Plotting.Normalized | pcap_analyzer/plotting.py:75 | each normalised time times the duration is 100 times the offset; a zero duration gives NaN at 0 and infinities elsewhere |
| Plotting.NormalizedEnds | pcap_analyzer/plotting.py:75 | with the duration the last offset, the last point is at 100 % and an offset of 0 at 0 % |
| Plotting.NormalizedWithin | pcap_analyzer/plotting.py:92 | offsets within the duration fall inside the 0-100 axis |
| Plotting.NormalizedOrder | pcap_analyzer/plotting.py:126 | normalising keeps the order of the times |
| Plotting.RateRowEndsAtHundred | pcap_analyzer/plotting.py:82-83 | every packet-rate row with a positive duration ends its line at 100 % |
| Plotting.LogFloor | pcap_analyzer/plotting.py:129-130 | values at or below 0 become 0.01, the rest and the length are unchanged, nothing left at or below 0 |
| Plotting.LogFloorIdempotent | pcap_analyzer/plotting.py:130 | flooring twice is flooring once |
| Plotting.LogFloorKeepsPositive | pcap_analyzer/plotting.py:130 | positive series reach the log axis unchanged |
| Plotting.StripTcp | pcap_analyzer/plotting.py:65-66 | "TCP " removal takes 4 characters per occurrence and leaves a label without one unchanged |
| Plotting.StripLeadingTcp | pcap_analyzer/plotting.py:115-117 | a label "TCP " + rest loses exactly its prefix |
| Plotting.Style | pcap_analyzer/plotting.py:72 | the style is one of the six |
| Plotting.StyleCycles | pcap_analyzer/plotting.py:123 | styles repeat after six files |
| Plotting.StylesDiffer | pcap_analyzer/plotting.py:274 | six consecutive files get six different styles |
| Plotting.CombinedIff | pcap_analyzer/plotting.py:244-246 | the combined figure is drawn exactly when some file has each metric |
| Plotting.LegendFromRates | pcap_analyzer/plotting.py:273-285 | legend entry k is `clean_filename` of the k-th file with packet-rate data; files with only RTT or throughput data get none |
| Pipeline.ConfigOf | compare.py:48-55 | plots are saved exactly without `--no-save`; the command line can be read back from the configuration |
| Pipeline.ConfigRoundTrip | compare.py:48-55 | the configuration and the command line determine each other |
| Pipeline.DefaultsAgreeButOutput | compare.py:32-38 | the command-line defaults match `DEFAULT_CONFIG` except the output directory |
| Pipeline.SampleRateFor | compare.py:81-88 | up to 200 MB the configured rate; above 1 GB 0.1, above 500 MB 0.2, above 200 MB 0.5 (decimal units, strict thresholds) |
| Pipeline.LargerSampledLess | compare.py:81-86 | above 200 MB a larger file is never sampled more densely |
| Pipeline.ConfiguredIgnored | compare.py:81-86 | above 200 MB the configured rate plays no part |
| Pipeline.ThresholdsStrict | compare.py:81-88 | exactly 1 GB gives 0.2, 500 MB gives 0.5 and 200 MB the configured rate |
| Pipeline.AnnouncedIff | compare.py:90 | the sampling notice is printed exactly for files over 200 MB or a configured rate below 1 |
| Pipeline.Process | compare.py:96-114 | a key is present exactly when its extractor returned arrays, and the entry is well formed |
| Pipeline.ProcessAsWritten | compare.py:100-112 | with the written extractors, processing raises exactly when an RTT or throughput parse misaligns |
| Pipeline.ProcessAgrees | compare.py:100-112 | without half-converted rows, written and corrected processing agree |
| Pipeline.FileEntry | compare.py:100 | a file is processed at the rate its size calls for |
| Pipeline.ResultsOf | compare.py:96-114 | one well-formed entry per file, named by its path, in the order found |
| Pipeline.Table | compare.py:130-138 | the table handed on is `None` exactly when no file is usable, else one row per usable file |
| Pipeline.TableRows | compare.py:130-138 | row k holds the k-th usable file's mean (rate, RTT over non-NaN bins, or Mbps) and the last offset of its series |
| Pipeline.AddComparison | compare.py:131 | a comparison exactly when the table has at least two files |
| Pipeline.AddComparisonAsWritten | compare.py:135 | raises TypeError exactly when the table handed on is `None` |
| Pipeline.NoDataRaises | compare.py:130-139 | a metric no file has: the written run raises where the corrected one skips |
| Pipeline.NoRttPairRaises | compare.py:134-135 | two captures without an RTT value make the written run raise |
| Pipeline.Assemble | compare.py:121-143 | durations from `get_durations`; a comparison per metric exactly when two files have it; the combined figure exactly when every metric has data; report k is the comparison of metric k's table |
| Pipeline.Run | compare.py:42-145 | stops on no captures or a count other than two; otherwise the results are each found capture processed at its size's sample rate, in the order found, and assembled |
| Pipeline.FullDataComparesAll | compare.py:129-143 | two captures with every metric get all three comparisons and the combined figure |

## Left out

- Running tshark is left out. So are its exit code plumbing and the `sys.exit` when it is missing (`pcap_analyzer/packet_processing.py`, lines 18-26 and 51-54). tshark is a parameter returning an exit status and its output text.
- Every `print`, all of matplotlib (figures, annotations, saving), `os.makedirs` and `argparse` parsing are left out. They are output, or library calls with no value the program uses.
- IEEE-754 rounding is left out: all arithmetic is exact. So is the drift of `np.arange` with a non-integral step: the edges are exactly `t0 + k*w`.
- How `float()` and `int()` read text is left out: they are uninterpreted partial parsers. Their results are finite (`Option<real>`, `Option<int>`): Python's `float` also accepts "nan", "inf" and overflowing literals such as "1e400", and a NaN or infinity so parsed would reach `np.mean` and `np.max` (`pcap_analyzer/analysis.py`, lines 96-101 and 121-132). The model does not follow such values, because tshark prints `frame.time_relative`, `tcp.analysis.ack_rtt` and `frame.len` as finite decimals.
- The time interval w must be positive (every `requires w > 0.0`). With w ≤ 0, `np.arange` raises or produces no bins. The model does not say which.
- The sample rate s is any real. `s = 0` makes building the filter raise, and that is caught. A negative s is carried through as the source does. The estimate lemmas use `Factor(s)`, the rate when it is below 1 and 1 otherwise.
- `plot_full_view` (`pcap_analyzer/plotting.py`, lines 6-55) is never called and is not modelled.
- The `else 0` of `pcap_analyzer/utils.py` line 51 and `pcap_analyzer/analysis.py` lines 101, 132 and 160 is dead: the series is known to be non-empty there. It is not modelled.
- The `if not results` branch of `compare.py` lines 116-118 cannot be taken. `Pipeline.Run` shows that two captures always give two entries.
- Statistics.Median: the contract bounds `median_rtt` by the minimum and maximum; it does not pin the value to numpy's averaging of the two middle elements of an even-length list.
- The `plot_type` option is carried in the configuration but never read by the program. The model does the same.
- `Text.Lower` lowers ASCII capitals only. Python's `lower` also lowers other letters and can change the length (`"İ"` becomes two characters). The program only compares the last seven characters of the result with `.pcapng`. No character outside ASCII lowers to a character of `.pcapng`, so the test gives the same answer for every name.
- `Text.RemoveAll`: the contract gives the length removed per occurrence found and the no-occurrence case, not the full text. It shares this with `Plotting.StripTcp`, which is built on it.
- `Plotting.StripTcp`: the contract gives the length and the no-occurrence case, not the full text. Python's `replace` can leave a newly formed "TCP " behind ("TCTCP P " becomes "TCP "). The labels the program passes are covered by `Plotting.StripLeadingTcp`.
- `Pipeline.Run` models `main` with the three corrections of "Findings" applied. The written version is modelled at each of the three places where it differs: `PacketProcessing.SamplesAsWritten`, `Analysis.CompareAsWritten` and `Pipeline.AddComparisonAsWritten`. It is not assembled into a second run.
- `Analysis.TotalPacketsEstimate` and `Analysis.TotalBitsEstimate` state the estimate multiplied through by the sample rate. This avoids dividing by it.

## Findings

| source | as written | input that shows it | evidently intended | confidence | as-written member | corrected member |
|---|---|---|---|---|---|---|
| pcap_analyzer/packet_processing.py:136-137 | the timestamp is appended before the value is converted, so a row whose value fails leaves the two lists misaligned, and the indexing at line 162 (255 for throughput) raises IndexError outside the handler | tshark rows `1.0,x` and `2.0,0.5` where `x` does not convert | skip the row as a whole, as the `continue` in the handler suggests | not executed; proved on the model | PacketProcessing.HalfRowCrashes | PacketProcessing.ParseSamples |
| pcap_analyzer/analysis.py:81 | `time_ratio = durations[0] / durations[1]` is printed as "the slower file took x longer" whichever file is slower | durations 10 s and 20 s print "took 0.50x longer" | slower duration over faster duration, 2.00 | not executed; proved on the model | Analysis.TimeRatioInverted | Analysis.SlowerRatioAboveOne |
| compare.py:135 | `plot_*_comparison` returns `None` for an empty table, and `add_comparison_analysis` calls `len(None)`, which raises TypeError | two captures, neither with an RTT measurement | skip the comparison, as the "need at least 2 files" branch does | not executed; proved on the model | Pipeline.NoRttPairRaises | Pipeline.AddComparison |

=== FILE: analysis.dfy ===
/**
 * `pcap_analyzer/analysis.py`: the per-file tables the plots and the
 * comparison read (`prepare_*_data`), and the decisions of
 * `add_comparison_analysis` with its printing left out.
 */
module Analysis {
  import opened Wrappers
  import opened Floats
  import opened Sequences
  import opened Statistics
  import opened Metrics
  import opened Binned

  // ---------------------------------------------------------------------------
  // Which files a table keeps

  /**
   * The files a `prepare_*_data` loop keeps: the metric is present with a
   * non-empty time array, and for RTT at least one bin is not NaN.
   */
  predicate Usable(r: FileResults, m: Metric) {
    HasData(r, m) && (m == Rtt ==> exists j :: 0 <= j < |r.rtt.value.values| && r.rtt.value.values[j].Num?)
  }

  /** The usable files, in the order of the results. */
  function Kept(results: seq<Entry<FileResults>>, m: Metric): (r: seq<Entry<FileResults>>)
    ensures |r| <= |results|
    ensures forall k :: 0 <= k < |r| ==> r[k] in results && Usable(r[k].val, m)
    ensures forall i :: 0 <= i < |results| && Usable(results[i].val, m) ==> results[i] in r
    ensures (forall i :: 0 <= i < |results| ==> Usable(results[i].val, m)) ==> r == results
    ensures AllSound(results) ==> AllSound(r)
    ensures |results| == 1 ==> r == (if Usable(results[0].val, m) then results else [])
  {
    if |results| == 0 then []
    else
      var rest := Kept(results[1..], m);
      KeptMembersStep(results, rest, m);
      KeptAllStep(results, rest, m);
      KeptSoundStep(results, rest, m);
      if Usable(results[0].val, m) then [results[0]] + rest else rest
  }

  /** The filter goes file by file: it keeps the order of the results and every repeated entry. */
  lemma {:induction false} KeptAppend(a: seq<Entry<FileResults>>, b: seq<Entry<FileResults>>, m: Metric)
    ensures Kept(a + b, m) == Kept(a, m) + Kept(b, m)
  {
    if |a| == 0 {
      assert a + b == b;
    } else {
      assert (a + b)[1..] == a[1..] + b;
      KeptAppend(a[1..], b, m);
    }
  }

  lemma KeptMembersStep(results: seq<Entry<FileResults>>, rest: seq<Entry<FileResults>>, m: Metric)
    requires |results| > 0
    requires forall k :: 0 <= k < |rest| ==> rest[k] in results[1..] && Usable(rest[k].val, m)
    requires forall i :: 0 <= i < |results| - 1 && Usable(results[1..][i].val, m) ==> results[1..][i] in rest
    ensures var r := if Usable(results[0].val, m) then [results[0]] + rest else rest;
      && (forall k :: 0 <= k < |r| ==> r[k] in results && Usable(r[k].val, m))
      && (forall i :: 0 <= i < |results| && Usable(results[i].val, m) ==> results[i] in r)
  {
    var tail := results[1..];
    assert forall i :: 1 <= i < |results| ==> tail[i - 1] == results[i];
    assert forall x :: x in tail ==> x in results;
  }

  lemma KeptAllStep(results: seq<Entry<FileResults>>, rest: seq<Entry<FileResults>>, m: Metric)
    requires |results| > 0
    requires (forall i :: 0 <= i < |results| - 1 ==> Usable(results[1..][i].val, m)) ==> rest == results[1..]
    ensures var r := if Usable(results[0].val, m) then [results[0]] + rest else rest;
      (forall i :: 0 <= i < |results| ==> Usable(results[i].val, m)) ==> r == results
  {
    assert results == [results[0]] + results[1..];
  }

  lemma KeptSoundStep(results: seq<Entry<FileResults>>, rest: seq<Entry<FileResults>>, m: Metric)
    requires |results| > 0
    requires AllSound(results[1..]) ==> AllSound(rest)
    ensures var r := if Usable(results[0].val, m) then [results[0]] + rest else rest;
      AllSound(results) ==> AllSound(r)
  {
    assert forall i :: 1 <= i < |results| ==> results[1..][i - 1] == results[i];
  }

  /** A table is empty exactly when no file is usable for its metric. */
  lemma KeptEmpty(results: seq<Entry<FileResults>>, m: Metric)
    ensures |Kept(results, m)| == 0 <==> forall i :: 0 <= i < |results| ==> !Usable(results[i].val, m)
  {
    var d := Kept(results, m);
    if |d| > 0 {
      assert d[0] in results;
    }
  }

  /** `np.sum(values * time_interval)`: the bins' values times the interval, added up. */
  function Total(v: seq<real>, w: real): real {
    Sum(Scaled(v, w))
  }

  // ---------------------------------------------------------------------------
  // Packet rate

  datatype RateInfo = RateInfo(times: seq<real>, pps: seq<real>, duration: real, avgPps: real, maxPps: real, totalPackets: real)

  /** Lines 100-109 for one file: `total_packets` is `np.sum(pps * time_interval)`. */
  function RateInfoOf(s: Series<real>, w: real): (info: RateInfo)
    requires WellFormed(s) && |s.times| > 0
    ensures info.times == s.times && info.pps == s.values
    ensures info.duration == s.times[|s.times| - 1]
    ensures info.avgPps == Mean(s.values)
    ensures Min(s.values) <= info.avgPps <= info.maxPps
    ensures info.maxPps in s.values && forall j :: 0 <= j < |s.values| ==> s.values[j] <= info.maxPps
    ensures info.totalPackets == Total(s.values, w)
  {
    MeanWithin(s.values);
    RateInfo(s.times, s.values, s.times[|s.times| - 1], Mean(s.values), Max(s.values), Total(s.values, w))
  }

  /** One row of the table: the file's name and its figures. */
  function RateEntry(e: Entry<FileResults>, w: real): (r: Entry<RateInfo>)
    requires Sound(e.val) && Usable(e.val, PacketRate)
    ensures r.name == e.name
    ensures r.val.times == TimesOf(e.val, PacketRate).value && r.val.duration == LastOffset(e.val, PacketRate)
  {
    Entry(e.name, RateInfoOf(e.val.pps.value, w))
  }

  /** `prepare_packet_rate_data` (lines 89-111). */
  function PrepareRates(results: seq<Entry<FileResults>>, w: real): (r: seq<Entry<RateInfo>>)
    requires AllSound(results)
    ensures |r| == |Kept(results, PacketRate)|
    ensures var d := Kept(results, PacketRate); forall k :: 0 <= k < |r| ==>
      && r[k].name == d[k].name
      && r[k].val.times == TimesOf(d[k].val, PacketRate).value
      && r[k].val.duration == LastOffset(d[k].val, PacketRate)
      && r[k].val == RateInfoOf(d[k].val.pps.value, w)
    ensures |r| == 0 <==> forall i :: 0 <= i < |results| ==> !HasData(results[i].val, PacketRate)
  {
    var d := Kept(results, PacketRate);
    KeptEmpty(results, PacketRate);
    seq(|d|, k requires 0 <= k < |d| => RateEntry(d[k], w))
  }

  /** Scaling by `w * f` scales the sum by `w`, then by `f`. */
  lemma ScaledTwice(v: seq<real>, w: real, f: real)
    ensures Sum(Scaled(v, w)) * f == Sum(Scaled(v, w * f))
  {
    assert Scaled(Scaled(v, w), f) == Scaled(v, w * f) by {
      forall j | 0 <= j < |v|
        ensures Scaled(Scaled(v, w), f)[j] == Scaled(v, w * f)[j]
      {
        var x := v[j];
        assert x * w * f == x * (w * f);
      }
    }
    SumOfScaled(Scaled(v, w), f);
  }

  /**
   * Values whose sum, each times the interval and the sampled share, is `n`
   * have a total that, times the sampled share, is `n`.
   */
  lemma TotalTimes(v: seq<real>, w: real, s: real)
    ensures Total(v, w) * Factor(s) == Sum(Scaled(v, w * Factor(s)))
  {
    ScaledTwice(v, w, Factor(s));
  }

  /**
   * `total_packets` estimates the packets before sampling: times the
   * sampled share it is the number of timestamps tshark reported.
   */
  lemma TotalPacketsEstimate(ts: seq<real>, w: real, s: real, rates: Series<real>)
    requires w > 0.0 && s != 0.0 && |ts| > 0 && Min(ts) < Max(ts)
    requires rates == PacketRateSeries(ts, w, s)
    ensures Total(rates.values, w) * Factor(s) == |ts| as real
  {
    TotalTimes(rates.values, w, s);
    PacketRateConservation(ts, w, s);
  }

  /**
   * When every timestamp is the same, the single bin holds a count rather
   * than a rate, so `total_packets` is that count times the interval.
   */
  lemma SingleBinTotal(n: real, w: real)
    ensures Total([n], w) == n * w
  {
    var r := Scaled([n], w);
    assert r[0] == [n][0] * w;
    assert r[..0] == [];
    assert Sum(r) == n * w;
  }

  // ---------------------------------------------------------------------------
  // RTT

  datatype RttInfo = RttInfo(times: seq<real>, rtt: seq<Float>, duration: real, avgRtt: real, maxRtt: real, minRtt: real, medianRtt: real)

  /** Lines 124-141 for one file: the statistics skip the NaN bins. */
  function RttInfoOf(s: Series<Float>): (info: RttInfo)
    requires WellFormed(s) && |s.times| > 0 && NoInf(s.values)
    requires exists j :: 0 <= j < |s.values| && s.values[j].Num?
    ensures info.times == s.times && info.rtt == s.values
    ensures info.duration == s.times[|s.times| - 1]
    ensures info.avgRtt == Mean(Finite(s.values))
    ensures info.minRtt <= info.avgRtt <= info.maxRtt
    ensures info.minRtt <= info.medianRtt <= info.maxRtt
    ensures Num(info.minRtt) in s.values && Num(info.maxRtt) in s.values
    ensures forall j :: 0 <= j < |s.values| && s.values[j].Num? ==> info.minRtt <= s.values[j].r <= info.maxRtt
  {
    var valid := Finite(s.values);
    MeanWithin(valid);
    RttInfo(s.times, s.values, s.times[|s.times| - 1], Mean(valid), Max(valid), Min(valid), Median(valid))
  }

  /** One row of the table: the file's name and its figures. */
  function RttEntry(e: Entry<FileResults>): (r: Entry<RttInfo>)
    requires Sound(e.val) && Usable(e.val, Rtt)
    ensures r.name == e.name
    ensures r.val.times == TimesOf(e.val, Rtt).value && r.val.duration == LastOffset(e.val, Rtt)
  {
    var s := e.val.rtt.value;
    assert TimesOf(e.val, Rtt).value == s.times;
    assert LastOffset(e.val, Rtt) == s.times[|s.times| - 1];
    Entry(e.name, RttInfoOf(s))
  }

  /** `prepare_rtt_data` (lines 113-143). */
  function PrepareRtts(results: seq<Entry<FileResults>>): (r: seq<Entry<RttInfo>>)
    requires AllSound(results)
    ensures |r| == |Kept(results, Rtt)|
    ensures var d := Kept(results, Rtt); forall k :: 0 <= k < |r| ==>
      && r[k].name == d[k].name
      && r[k].val.times == TimesOf(d[k].val, Rtt).value
      && r[k].val.duration == LastOffset(d[k].val, Rtt)
      && r[k].val == RttInfoOf(d[k].val.rtt.value)
    ensures |r| == 0 <==> forall i :: 0 <= i < |results| ==> !Usable(results[i].val, Rtt)
  {
    var d := Kept(results, Rtt);
    KeptEmpty(results, Rtt);
    seq(|d|, k requires 0 <= k < |d| => RttEntry(d[k]))
  }

  // ---------------------------------------------------------------------------
  // Throughput

  datatype ThroughputInfo = ThroughputInfo(times: seq<real>, mbps: seq<real>, duration: real,
    avgThroughput: real, maxThroughput: real, totalBits: real, avgBandwidth: real)

  /** `throughput / 1_000_000`: bits per second made megabits per second. */
  function Mbps(v: seq<real>): (m: seq<real>)
    ensures |m| == |v|
    ensures forall j :: 0 <= j < |v| ==> m[j] * 1000000.0 == v[j]
  {
    seq(|v|, j requires 0 <= j < |v| => v[j] / 1000000.0)
  }

  /**
   * Lines 156-169 for one file: the plotted series and its mean and max
   * are in Mbps, while `total_bits` and `avg_bandwidth` use bits per second.
   */
  function ThroughputInfoOf(s: Series<real>, w: real): (info: ThroughputInfo)
    requires WellFormed(s) && |s.times| > 0
    ensures info.mbps == Mbps(s.values)
    ensures info.duration == s.times[|s.times| - 1]
    ensures info.avgBandwidth == Mean(s.values)
    ensures info.avgThroughput == Mean(info.mbps) && info.maxThroughput == Max(info.mbps)
    ensures info.avgThroughput * 1000000.0 == info.avgBandwidth
    ensures Min(s.values) <= info.avgBandwidth <= Max(s.values)
    ensures forall j :: 0 <= j < |s.values| ==> s.values[j] <= info.maxThroughput * 1000000.0
    ensures exists j :: 0 <= j < |s.values| && s.values[j] == info.maxThroughput * 1000000.0
    ensures info.totalBits == Total(s.values, w)
  {
    var v := s.values;
    MbpsFigures(v);
    MeanWithin(v);
    ThroughputInfo(s.times, Mbps(v), s.times[|s.times| - 1], Mean(Mbps(v)), Max(Mbps(v)), Total(v, w), Sum(v) / |v| as real)
  }

  /** The mean and the max of a series in Mbps are those of the series in bits per second, over a million. */
  lemma MbpsFigures(v: seq<real>)
    requires |v| > 0
    ensures Mean(Mbps(v)) * 1000000.0 == Mean(v)
    ensures forall j :: 0 <= j < |v| ==> v[j] <= Max(Mbps(v)) * 1000000.0
    ensures exists j :: 0 <= j < |v| && v[j] == Max(Mbps(v)) * 1000000.0
  {
    var m := Mbps(v);
    MeanScaled(v, m, 1000000.0);
    var i :| 0 <= i < |m| && m[i] == Max(m);
    assert v[i] == Max(m) * 1000000.0;
  }

  /** One row of the table: the file's name and its figures. */
  function ThroughputEntry(e: Entry<FileResults>, w: real): (r: Entry<ThroughputInfo>)
    requires Sound(e.val) && Usable(e.val, Throughput)
    ensures r.name == e.name
    ensures r.val.times == TimesOf(e.val, Throughput).value && r.val.duration == LastOffset(e.val, Throughput)
  {
    Entry(e.name, ThroughputInfoOf(e.val.throughput.value, w))
  }

  /** `prepare_throughput_data` (lines 145-171). */
  function PrepareThroughputs(results: seq<Entry<FileResults>>, w: real): (r: seq<Entry<ThroughputInfo>>)
    requires AllSound(results)
    ensures |r| == |Kept(results, Throughput)|
    ensures var d := Kept(results, Throughput); forall k :: 0 <= k < |r| ==>
      && r[k].name == d[k].name
      && r[k].val.times == TimesOf(d[k].val, Throughput).value
      && r[k].val.duration == LastOffset(d[k].val, Throughput)
      && r[k].val == ThroughputInfoOf(d[k].val.throughput.value, w)
    ensures |r| == 0 <==> forall i :: 0 <= i < |results| ==> !HasData(results[i].val, Throughput)
  {
    var d := Kept(results, Throughput);
    KeptEmpty(results, Throughput);
    seq(|d|, k requires 0 <= k < |d| => ThroughputEntry(d[k], w))
  }

  /** `total_bits / 8 / 1_000_000` (line 68). */
  function Megabytes(totalBits: real): (mb: real)
    ensures mb * 8000000.0 == totalBits
  {
    totalBits / 8.0 / 1000000.0
  }

  /**
   * Bits whose count, times the sampled share `f`, is 8 times `bytes` make
   * megabytes that, times `f`, are `bytes` over a million: with
   * `TotalBitsEstimate`, the megabytes reported estimate the captured bytes.
   */
  lemma MegabytesOfBits(t: real, f: real, bytes: real)
    requires t * f == bytes * 8.0
    ensures Megabytes(t) * f * 1000000.0 == bytes
  {
    var mb := Megabytes(t);
    assert mb * 8000000.0 == t;
    assert mb * f * 1000000.0 * 8.0 == (mb * 8000000.0) * f;
  }

  /**
   * `total_bits` estimates the bits before sampling: times the sampled
   * share it is 8 times the bytes of the frames before the last bin edge.
   */
  lemma TotalBitsEstimate(xs: seq<Sample>, w: real, s: real, bits: Series<real>)
    requires w > 0.0 && s != 0.0 && |xs| > 0 && Min(Times(xs)) < Max(Times(xs))
    requires bits == ThroughputSeries(xs, w, s)
    ensures Total(bits.values, w) * Factor(s) == FramesBefore(xs, w) * 8.0
  {
    TotalTimes(bits.values, w, s);
    ThroughputConservation(xs, w, s);
  }


  // ---------------------------------------------------------------------------
  // The comparison

  /** What the comparison reads from a table: each file's average and its duration, in table order. */
  datatype Summary = Summary(averages: seq<real>, durations: seq<real>)

  /**
   * The average a table reports for one file, from the file's series: the
   * mean rate, the mean of the RTT bins that are not NaN, and the mean
   * throughput in Mbps.
   */
  function Average(r: FileResults, m: Metric): real
    requires Sound(r) && Usable(r, m)
  {
    match m
    case PacketRate => Mean(r.pps.value.values)
    case Rtt => Mean(Finite(r.rtt.value.values))
    case Throughput => Mean(Mbps(r.throughput.value.values))
  }

  function RateSummary(info: seq<Entry<RateInfo>>): (s: Summary)
    ensures |s.averages| == |s.durations| == |info|
    ensures forall k :: 0 <= k < |info| ==> s.averages[k] == info[k].val.avgPps && s.durations[k] == info[k].val.duration
  {
    Summary(seq(|info|, k requires 0 <= k < |info| => info[k].val.avgPps), seq(|info|, k requires 0 <= k < |info| => info[k].val.duration))
  }

  function RttSummary(info: seq<Entry<RttInfo>>): (s: Summary)
    ensures |s.averages| == |s.durations| == |info|
    ensures forall k :: 0 <= k < |info| ==> s.averages[k] == info[k].val.avgRtt && s.durations[k] == info[k].val.duration
  {
    Summary(seq(|info|, k requires 0 <= k < |info| => info[k].val.avgRtt), seq(|info|, k requires 0 <= k < |info| => info[k].val.duration))
  }

  function ThroughputSummary(info: seq<Entry<ThroughputInfo>>): (s: Summary)
    ensures |s.averages| == |s.durations| == |info|
    ensures forall k :: 0 <= k < |info| ==> s.averages[k] == info[k].val.avgThroughput && s.durations[k] == info[k].val.duration
  {
    Summary(seq(|info|, k requires 0 <= k < |info| => info[k].val.avgThroughput), seq(|info|, k requires 0 <= k < |info| => info[k].val.duration))
  }

  /** The time efficiency of two files: which was faster, by how much, and a ratio of their durations. */
  datatype Efficiency = Efficiency(faster: nat, difference: real, timeRatio: Float)

  /** The comparison of two or more files: the ratio of the first two averages, and the efficiency. */
  datatype Report = Report(ratio: Option<Float>, efficiency: Option<Efficiency>)

  function Abs(x: real): (a: real)
    ensures a >= 0.0 && (a == x || a == -x)
  {
    if x < 0.0 then -x else x
  }

  /**
   * Lines 80-87 as written: the ratio printed as "slower took x longer" is
   * `d0 / d1` whichever file was slower.
   */
  function EfficiencyAsWritten(d0: real, d1: real): (e: Option<Efficiency>)
    ensures e.Some? <==> Abs(d0 - d1) > 1.0
    ensures e.Some? ==> e.value.faster < 2 && (e.value.faster == 0 <==> d0 < d1)
    ensures e.Some? ==> e.value.difference == Abs(d0 - d1) && e.value.difference > 1.0
    ensures e.Some? && d1 != 0.0 ==> e.value.timeRatio.Num? && e.value.timeRatio.r * d1 == d0
  {
    if Abs(d0 - d1) > 1.0 then Some(Efficiency(if d0 < d1 then 0 else 1, Abs(d0 - d1), Div(d0, d1)))
    else None
  }

  /** Lines 80-87 with the ratio taken as the slower duration over the faster one. */
  function EfficiencyOf(d0: real, d1: real): (e: Option<Efficiency>)
    ensures e.Some? <==> Abs(d0 - d1) > 1.0
    ensures e.Some? ==> e.value.faster < 2 && (e.value.faster == 0 <==> d0 < d1)
    ensures e.Some? ==> e.value.difference == Abs(d0 - d1) && e.value.difference > 1.0
    ensures e.Some? ==> e.value.timeRatio == if d0 < d1 then Div(d1, d0) else Div(d0, d1)
  {
    if Abs(d0 - d1) > 1.0 then
      var slower := if d0 < d1 then d1 else d0;
      var faster := if d0 < d1 then d0 else d1;
      Some(Efficiency(if d0 < d1 then 0 else 1, Abs(d0 - d1), Div(slower, faster)))
    else None
  }

  /** The faster file's duration plus the difference is the slower file's duration. */
  lemma FasterPlusDifference(d0: real, d1: real)
    requires EfficiencyOf(d0, d1).Some?
    ensures var e := EfficiencyOf(d0, d1).value;
      [d0, d1][e.faster] + e.difference == [d0, d1][1 - e.faster]
  {
  }

  /**
   * For durations, which are never negative, the corrected ratio says how
   * many times longer the slower file took: above 1, or infinite when the
   * faster file's duration is 0.
   */
  lemma SlowerRatioAboveOne(d0: real, d1: real)
    requires d0 >= 0.0 && d1 >= 0.0 && Abs(d0 - d1) > 1.0
    ensures var r := EfficiencyOf(d0, d1).value.timeRatio;
      (r.Num? && r.r > 1.0) || r == Inf(false)
  {
    var slower := if d0 < d1 then d1 else d0;
    var faster := if d0 < d1 then d0 else d1;
    if faster > 0.0 {
      var q := Div(slower, faster).r;
      assert q * faster == slower;
      assert (q - 1.0) * faster == slower - faster;
    }
  }

  /**
   * Durations of 10 and 20 seconds: as written the efficiency names the
   * first file faster and reports that the second "took 0.50x longer".
   */
  lemma TimeRatioInverted()
    ensures EfficiencyAsWritten(10.0, 20.0) == Some(Efficiency(0, 10.0, Num(0.5)))
    ensures EfficiencyOf(10.0, 20.0) == Some(Efficiency(0, 10.0, Num(2.0)))
  {
  }

  /** Lines 8-87 for one table, with the corrected time ratio; `None` when fewer than two files. */
  function Compare(s: Summary): (r: Option<Report>)
    requires |s.averages| == |s.durations|
    ensures r.None? <==> |s.averages| < 2
    ensures r.Some? ==> (r.value.ratio.Some? <==> |s.averages| == 2)
    ensures r.Some? && r.value.ratio.Some? && s.averages[1] != 0.0 ==> r.value.ratio.value.Num? && r.value.ratio.value.r * s.averages[1] == s.averages[0]
    ensures r.Some? ==> (r.value.efficiency.Some? <==> |s.averages| == 2 && Abs(s.durations[0] - s.durations[1]) > 1.0)
    ensures r.Some? && r.value.efficiency.Some? ==> r.value.efficiency == EfficiencyOf(s.durations[0], s.durations[1])
  {
    if |s.averages| < 2 then None
    else if |s.averages| == 2 then
      Some(Report(Some(Div(s.averages[0], s.averages[1])), EfficiencyOf(s.durations[0], s.durations[1])))
    else Some(Report(None, None))
  }

  /** Lines 8-87 for one table as written. */
  function CompareAsWritten(s: Summary): (r: Option<Report>)
    requires |s.averages| == |s.durations|
    ensures r.None? <==> |s.averages| < 2
    ensures r.Some? ==> (r.value.efficiency.Some? <==> |s.averages| == 2 && Abs(s.durations[0] - s.durations[1]) > 1.0)
    ensures r.Some? && r.value.efficiency.Some? ==> r.value.efficiency == EfficiencyAsWritten(s.durations[0], s.durations[1])
  {
    if |s.averages| < 2 then None
    else if |s.averages| == 2 then
      Some(Report(Some(Div(s.averages[0], s.averages[1])), EfficiencyAsWritten(s.durations[0], s.durations[1])))
    else Some(Report(None, None))
  }

  /** The written and corrected comparisons differ in the time ratio alone. */
  lemma CompareDiffersInRatioOnly(s: Summary)
    requires |s.averages| == |s.durations|
    ensures CompareAsWritten(s).None? <==> Compare(s).None?
    ensures CompareAsWritten(s).Some? ==> CompareAsWritten(s).value.ratio == Compare(s).value.ratio
    ensures CompareAsWritten(s).Some? && Compare(s).value.efficiency.Some? ==>
      && CompareAsWritten(s).value.efficiency.Some?
      && CompareAsWritten(s).value.efficiency.value.faster == Compare(s).value.efficiency.value.faster
      && CompareAsWritten(s).value.efficiency.value.difference == Compare(s).value.efficiency.value.difference
  {
  }
}

=== FILE: binned.dfy ===
/**
 * The binning half of the three extractors of `packet_processing.py`:
 * from the parsed timestamps (and values) to the pair of relative bin
 * starts and per-bin values each extractor returns.
 *
 * Every extractor sorts by time, handles the all-at-one-instant case
 * separately, and otherwise cuts [first, last] into bins of width `w` with
 * `np.arange`. Packet rates use `np.histogram` (last bin closed); RTT and
 * throughput use `np.digitize` (every bin half-open, so a sample lying
 * exactly on the final edge falls in no bin).
 *
 * Rates are stated "scaled back": `Scaled(values, w * Factor(s))` multiplies
 * every rate by the interval and by the share of frames sampling kept, which
 * turns it back into the per-bin tally it was computed from.
 */
module Binned {
  import opened Floats
  import opened Sequences
  import opened Sorting
  import opened Statistics
  import opened Metrics
  import opened Binning

  /** The share of frames a sample rate keeps: `s` below 1, all of them otherwise. */
  function Factor(s: real): real {
    if s < 1.0 then s else 1.0
  }

  /** `x / sample_rate` when sampling was used: scales a decimated tally back up. */
  function Corrected(x: seq<real>, s: real): (y: seq<real>)
    requires s != 0.0
    ensures |y| == |x|
    ensures forall j :: 0 <= j < |x| ==> y[j] * Factor(s) == x[j]
  {
    if s < 1.0 then seq(|x|, j requires 0 <= j < |x| => x[j] / s) else x
  }

  /** `x / time_interval`: a per-bin total turned into a per-second rate. */
  function PerSecond(x: seq<real>, w: real): (y: seq<real>)
    requires w > 0.0
    ensures |y| == |x|
    ensures forall j :: 0 <= j < |x| ==> y[j] * w == x[j]
  {
    seq(|x|, j requires 0 <= j < |x| => x[j] / w)
  }

  lemma Reassociate(v: real, a: real, b: real, c: real, t: real)
    requires v * a == c && c * b == t
    ensures t == v * (a * b) && t == v * (b * a)
  {
  }

  /** A sampling-corrected per-second tally, scaled back, is the tally. */
  lemma ScaleBack(t: seq<real>, w: real, s: real)
    requires w > 0.0 && s != 0.0
    ensures Scaled(PerSecond(Corrected(t, s), w), w * Factor(s)) == t
  {
    var c := Corrected(t, s);
    var v := PerSecond(c, w);
    var r := Scaled(v, w * Factor(s));
    forall j | 0 <= j < |t|
      ensures r[j] == t[j]
    {
      Reassociate(v[j], w, Factor(s), c[j], t[j]);
    }
  }

  /** The histogram bin of a timestamp, as a key for `Tally`. */
  function HistKey(e: seq<real>): real -> int
    requires |e| >= 2
  {
    t => HistBin(e, t)
  }

  /** The digitize bin of a sample's time, as a key for `Tally`. */
  function TimeBin(e: seq<real>): Sample -> int {
    (x: Sample) => DigitizeBin(e, x.time)
  }

  /** `np.arange(t0, t1 + w, w)`: the bin edges from the first to the last timestamp, in steps of `w`. */
  function BinEdges(t0: real, t1: real, w: real): (e: seq<real>)
    requires t0 < t1 && w > 0.0
    ensures |e| >= 2 && Increasing(e)
    ensures e[0] == t0 && e[|e| - 2] < t1 <= e[|e| - 1]
  {
    EdgesShape(t0, t1 - t0, w);
    Edges(t0, t1 - t0, w)
  }

  // ---------------------------------------------------------------------------
  // Packets per second (lines 59-93)

  /** `np.histogram(xs, bins=e)`: how many of `xs` fall in each bin. */
  function Histogram(xs: seq<real>, e: seq<real>): (h: seq<real>)
    requires |e| >= 2
    ensures |h| == |e| - 1
  {
    Tally(xs, HistKey(e), One, |e| - 1)
  }

  /** How many of `xs` the histogram puts in bin `j`. */
  function BinCount(xs: seq<real>, e: seq<real>, j: int): nat
    requires |e| >= 2
  {
    CountBetween(xs, HistKey(e), j, j + 1)
  }

  /** Bin j of the histogram holds the number of values in it. */
  lemma HistogramSlots(xs: seq<real>, e: seq<real>)
    requires |e| >= 2
    ensures forall j :: 0 <= j < |e| - 1 ==> Histogram(xs, e)[j] == BinCount(xs, e, j) as real
  {
    var key := HistKey(e);
    var nb := |e| - 1;
    CountingTally(xs, key, nb);
  }

  /** The histogram does not depend on the order of the values. */
  lemma HistogramPermutation(a: seq<real>, b: seq<real>, e: seq<real>)
    requires |e| >= 2 && multiset(a) == multiset(b)
    ensures Histogram(a, e) == Histogram(b, e)
  {
    var key := HistKey(e);
    var nb := |e| - 1;
    TallyPermutation(a, b, key, One, nb);
  }

  /** Values from the first to the last edge, both included, are all counted. */
  lemma HistogramTotal(xs: seq<real>, e: seq<real>)
    requires |e| >= 2 && Increasing(e)
    requires forall i :: 0 <= i < |xs| ==> e[0] <= xs[i] <= e[|e| - 1]
    ensures Sum(Histogram(xs, e)) == |xs| as real
  {
    var key := HistKey(e);
    var nb := |e| - 1;
    forall i | 0 <= i < |xs|
      ensures 0 <= key(xs[i]) < nb
    {
      HistBinInRange(e, xs[i]);
    }
    CountBetweenAll(xs, key, 0, nb);
    UnitWeight(xs, key, One, 0, nb);
    TallyTotal(xs, key, One, nb);
  }

  /**
   * Packets per second. With no timestamps: empty arrays. When every
   * timestamp is the same: one bin at offset 0 holding the raw packet count,
   * neither divided by the interval nor corrected for sampling. Otherwise
   * the histogram counts, divided by the sample rate when it is below 1 and
   * by the interval.
   */
  function PacketRateSeries(ts: seq<real>, w: real, s: real): (r: Series<real>)
    requires w > 0.0 && s != 0.0
    ensures WellFormed(r)
    ensures |r.times| == 0 <==> |ts| == 0
    ensures |ts| > 0 ==> r.times[0] == 0.0
  {
    if |ts| == 0 then Series([], []) else RateOfSorted(Sort(ts, RealKey), w, s)
  }

  /** Lines 66-93, on the sorted timestamps. */
  function RateOfSorted(sorted: seq<real>, w: real, s: real): (r: Series<real>)
    requires w > 0.0 && s != 0.0 && |sorted| > 0
    ensures WellFormed(r) && |r.times| > 0 && r.times[0] == 0.0
  {
    var t0 := sorted[0];
    var t1 := sorted[|sorted| - 1];
    if t1 - t0 <= 0.0 then Series([0.0], [|sorted| as real])
    else
      RateOver(sorted, BinEdges(t0, t1, w), w, s)
  }

  /** Lines 77-90 for given edges: bin offsets, and the histogram corrected for sampling and made per second. */
  function RateOver(xs: seq<real>, e: seq<real>, w: real, s: real): (r: Series<real>)
    requires |e| >= 2 && w > 0.0 && s != 0.0
    ensures WellFormed(r) && |r.times| == |e| - 1
  {
    Series(Offsets(e), PerSecond(Corrected(Histogram(xs, e), s), w))
  }

  /** The sorted timestamps run from the least to the greatest timestamp. */
  lemma SortedTimestamps(ts: seq<real>)
    requires |ts| > 0
    ensures var r := Sort(ts, RealKey);
      && r[0] == Min(ts) && r[|r| - 1] == Max(ts)
      && forall i :: 0 <= i < |r| ==> Min(ts) <= r[i] <= Max(ts)
  {
    SortedFirstLast(ts, RealKey);
    assert KeysOf(ts, RealKey) == ts;
    SortedWithin(Sort(ts, RealKey), RealKey);
  }

  /** All packets at one instant: a single bin holding the raw packet count. */
  lemma PacketRateDegenerate(ts: seq<real>, w: real, s: real)
    requires w > 0.0 && s != 0.0
    requires |ts| > 0 && Min(ts) == Max(ts)
    ensures PacketRateSeries(ts, w, s) == Series([0.0], [|ts| as real])
  {
    SortedTimestamps(ts);
  }

  /**
   * With distinct timestamps, the packet rate is the histogram of the
   * timestamps as given, over the edges from the least to the greatest:
   * sorting first changes nothing but which values are first and last.
   */
  lemma PacketRateReference(ts: seq<real>, w: real, s: real)
    requires w > 0.0 && s != 0.0
    requires |ts| > 0 && Min(ts) < Max(ts)
    ensures PacketRateSeries(ts, w, s) == RateOver(ts, BinEdges(Min(ts), Max(ts), w), w, s)
  {
    SortedTimestamps(ts);
    RateOfPermutation(Sort(ts, RealKey), ts, w, s);
  }

  /** The rates of any rearrangement of `ts` whose ends are its least and greatest values. */
  lemma RateOfPermutation(sorted: seq<real>, ts: seq<real>, w: real, s: real)
    requires w > 0.0 && s != 0.0
    requires |ts| > 0 && Min(ts) < Max(ts) && multiset(sorted) == multiset(ts)
    requires |sorted| > 0 && sorted[0] == Min(ts) && sorted[|sorted| - 1] == Max(ts)
    ensures RateOfSorted(sorted, w, s) == RateOver(ts, BinEdges(Min(ts), Max(ts), w), w, s)
  {
    RateOfDistinct(sorted, w, s);
    RateOverPermutation(sorted, ts, BinEdges(Min(ts), Max(ts), w), w, s);
  }

  lemma RateOfDistinct(sorted: seq<real>, w: real, s: real)
    requires w > 0.0 && s != 0.0
    requires |sorted| > 0 && sorted[0] < sorted[|sorted| - 1]
    ensures RateOfSorted(sorted, w, s) == RateOver(sorted, BinEdges(sorted[0], sorted[|sorted| - 1], w), w, s)
  {
  }

  /** The rates over fixed edges do not depend on the order of the timestamps. */
  lemma RateOverPermutation(a: seq<real>, b: seq<real>, e: seq<real>, w: real, s: real)
    requires |e| >= 2 && w > 0.0 && s != 0.0 && multiset(a) == multiset(b)
    ensures RateOver(a, e, w, s) == RateOver(b, e, w, s)
  {
    HistogramPermutation(a, b, e);
  }

  /**
   * With distinct timestamps the bins start at the edges' offsets, and the
   * rates, each times the interval and the sampled share, are the histogram:
   * bin j gets the number of timestamps numpy's histogram puts in it.
   */
  lemma PacketRateBins(ts: seq<real>, w: real, s: real)
    requires w > 0.0 && s != 0.0
    requires |ts| > 0 && Min(ts) < Max(ts)
    ensures PacketRateSeries(ts, w, s).times == Offsets(BinEdges(Min(ts), Max(ts), w))
    ensures Scaled(PacketRateSeries(ts, w, s).values, w * Factor(s)) == Histogram(ts, BinEdges(Min(ts), Max(ts), w))
    ensures forall j :: 0 <= j < |BinEdges(Min(ts), Max(ts), w)| - 1 ==> Histogram(ts, BinEdges(Min(ts), Max(ts), w))[j] == BinCount(ts, BinEdges(Min(ts), Max(ts), w), j) as real
  {
    PacketRateReference(ts, w, s);
    var e := BinEdges(Min(ts), Max(ts), w);
    assert PacketRateSeries(ts, w, s).values == PerSecond(Corrected(Histogram(ts, e), s), w);
    ScaleBack(Histogram(ts, e), w, s);
    HistogramSlots(ts, e);
  }

  /** Every timestamp lies between the first and the last edge. */
  lemma EdgesSpan(ts: seq<real>, w: real)
    requires w > 0.0 && |ts| > 0 && Min(ts) < Max(ts)
    ensures var e := BinEdges(Min(ts), Max(ts), w);
      forall i :: 0 <= i < |ts| ==> e[0] <= ts[i] <= e[|e| - 1]
  {
  }

  /**
   * Conservation: with distinct timestamps, the rates times the interval
   * and the sampled share add up to the number of timestamps. The closed
   * last bin of the histogram loses none of them.
   */
  lemma PacketRateConservation(ts: seq<real>, w: real, s: real)
    requires w > 0.0 && s != 0.0
    requires |ts| > 0 && Min(ts) < Max(ts)
    ensures Sum(Scaled(PacketRateSeries(ts, w, s).values, w * Factor(s))) == |ts| as real
  {
    PacketRateBins(ts, w, s);
    var e := BinEdges(Min(ts), Max(ts), w);
    EdgesSpan(ts, w);
    HistogramTotal(ts, e);
  }

  // ---------------------------------------------------------------------------
  // RTT and throughput (lines 156-186 and 249-281)

  /** The sorted samples run from the earliest to the latest sample time. */
  lemma SortedSamples(xs: seq<Sample>)
    requires |xs| > 0
    ensures Sort(xs, SampleTime)[0].time == Min(Times(xs))
    ensures Sort(xs, SampleTime)[|xs| - 1].time == Max(Times(xs))
    ensures forall i :: 0 <= i < |xs| ==> Min(Times(xs)) <= Sort(xs, SampleTime)[i].time <= Max(Times(xs))
  {
    SortedFirstLast(xs, SampleTime);
    assert KeysOf(xs, SampleTime) == Times(xs);
    SortedWithin(Sort(xs, SampleTime), SampleTime);
  }

  /** `values[digitized == j + 1]`: the values of the samples digitize puts in bin j, in sample order. */
  function InBin(xs: seq<Sample>, e: seq<real>, j: int): seq<real> {
    Select(xs, TimeBin(e), SampleValue, j)
  }

  /** How many samples digitize puts in bin j. */
  function SampleCount(xs: seq<Sample>, e: seq<real>, j: int): nat {
    CountBetween(xs, TimeBin(e), j, j + 1)
  }

  /** The total value of the samples digitize puts in bin j. */
  function ValueTotal(xs: seq<Sample>, e: seq<real>, j: int): real {
    WeightBetween(xs, TimeBin(e), SampleValue, j, j + 1)
  }

  /** Bin j holds as many values as it has samples, and they add up to the bin's total. */
  lemma InBinShape(xs: seq<Sample>, e: seq<real>, j: int)
    ensures |InBin(xs, e, j)| == SampleCount(xs, e, j)
    ensures Sum(InBin(xs, e, j)) == ValueTotal(xs, e, j)
  {
    var key := TimeBin(e);
    var n := Select(xs, key, SampleValue, j);
  }

  /** A bin's count and total do not depend on the order of the samples. */
  lemma BinPermutation(a: seq<Sample>, b: seq<Sample>, e: seq<real>, j: int)
    requires multiset(a) == multiset(b)
    ensures SampleCount(a, e, j) == SampleCount(b, e, j)
    ensures ValueTotal(a, e, j) == ValueTotal(b, e, j)
  {
    var key := TimeBin(e);
    CountPermutation(a, b, key, j, j + 1);
    WeightPermutation(a, b, key, SampleValue, j, j + 1);
  }

  /** On increasing edges, bin j is empty exactly when no sample time lies in [e[j], e[j+1]). */
  lemma EmptyBinIff(xs: seq<Sample>, e: seq<real>, j: int)
    requires Increasing(e) && 0 <= j < |e| - 1
    ensures SampleCount(xs, e, j) == 0 <==> forall i :: 0 <= i < |xs| ==> !(e[j] <= xs[i].time < e[j + 1])
  {
    var key := TimeBin(e);
    CountBetweenZero(xs, key, j, j + 1);
    forall i | 0 <= i < |xs|
      ensures j <= key(xs[i]) < j + 1 <==> e[j] <= xs[i].time < e[j + 1]
    {
      DigitizeBinIff(e, xs[i].time, j);
    }
  }

  /** `np.sum(values)` over all samples does not depend on their order. */
  lemma ValuesSumPermutation(a: seq<Sample>, b: seq<Sample>)
    requires multiset(a) == multiset(b)
    ensures Sum(Values(a)) == Sum(Values(b))
  {
    ValuesSumAsWeight(a);
    ValuesSumAsWeight(b);
    WeightPermutation(a, b, Whole, SampleValue, 0, 1);
  }

  /** Every sample keyed to slot 0. */
  function Whole(x: Sample): int {
    0
  }

  lemma {:induction false} ValuesSumAsWeight(xs: seq<Sample>)
    ensures Sum(Values(xs)) == WeightBetween(xs, Whole, SampleValue, 0, 1)
  {
    if |xs| > 0 {
      assert Values(xs)[..|xs| - 1] == Values(xs[..|xs| - 1]);
      ValuesSumAsWeight(xs[..|xs| - 1]);
    }
  }

  // RTT

  /** `np.mean(rtts) if len(rtts) > 0 else np.nan` */
  function MeanOrNaN(v: seq<real>): Float {
    if |v| == 0 then NaN else Num(Mean(v))
  }

  /** Reference reading of an RTT bin: NaN when empty, else its total over its count. */
  function BinAverage(xs: seq<Sample>, e: seq<real>, j: int): Float {
    if SampleCount(xs, e, j) == 0 then NaN else Num(ValueTotal(xs, e, j) / SampleCount(xs, e, j) as real)
  }

  /** Lines 173-184 for given edges: the bin offsets and the mean RTT of each bin. */
  function RttOver(xs: seq<Sample>, e: seq<real>): (r: Series<Float>)
    requires |e| >= 2
    ensures WellFormed(r) && |r.times| == |e| - 1
    ensures NoInf(r.values)
  {
    Series(Offsets(e), seq(|e| - 1, j requires 0 <= j < |e| - 1 => MeanOrNaN(InBin(xs, e, j))))
  }

  /**
   * RTT per bin. With no samples: empty arrays. When every sample has the
   * same time: one bin at offset 0 holding the mean of all RTTs. Otherwise
   * the mean RTT of each digitize bin, NaN for an empty bin.
   */
  function RttSeries(xs: seq<Sample>, w: real): (r: Series<Float>)
    requires w > 0.0
    ensures WellFormed(r) && NoInf(r.values)
    ensures |r.times| == 0 <==> |xs| == 0
  {
    if |xs| == 0 then Series([], []) else RttOfSorted(Sort(xs, SampleTime), w)
  }

  /** Lines 160-186, on the samples sorted by time. */
  function RttOfSorted(sorted: seq<Sample>, w: real): (r: Series<Float>)
    requires w > 0.0 && |sorted| > 0
    ensures WellFormed(r) && |r.times| > 0 && NoInf(r.values)
  {
    var t0 := sorted[0].time;
    var t1 := sorted[|sorted| - 1].time;
    if t1 - t0 <= 0.0 then Series([0.0], [Num(Mean(Values(sorted)))])
    else RttOver(sorted, BinEdges(t0, t1, w))
  }

  /** Every RTT bin is its reference reading. */
  lemma RttOverBins(xs: seq<Sample>, e: seq<real>)
    requires |e| >= 2
    ensures forall j :: 0 <= j < |e| - 1 ==> RttOver(xs, e).values[j] == BinAverage(xs, e, j)
  {
    forall j | 0 <= j < |e| - 1
      ensures RttOver(xs, e).values[j] == BinAverage(xs, e, j)
    {
      InBinShape(xs, e, j);
    }
  }

  /** The RTT bins over fixed edges do not depend on the order of the samples. */
  lemma RttOverPermutation(a: seq<Sample>, b: seq<Sample>, e: seq<real>)
    requires |e| >= 2 && multiset(a) == multiset(b)
    ensures RttOver(a, e) == RttOver(b, e)
  {
    RttOverBins(a, e);
    RttOverBins(b, e);
    forall j | 0 <= j < |e| - 1
      ensures RttOver(a, e).values[j] == RttOver(b, e).values[j]
    {
      BinPermutation(a, b, e, j);
    }
  }

  /** All samples at one instant: one bin holding the mean of all RTTs. */
  lemma RttDegenerate(xs: seq<Sample>, w: real)
    requires w > 0.0 && |xs| > 0 && Min(Times(xs)) == Max(Times(xs))
    ensures RttSeries(xs, w) == Series([0.0], [Num(Mean(Values(xs)))])
  {
    SortedSamples(xs);
    ValuesSumPermutation(Sort(xs, SampleTime), xs);
  }

  /**
   * With distinct sample times, the RTT series is `RttOver` the samples as
   * given, over the edges from the earliest to the latest time.
   */
  lemma RttReference(xs: seq<Sample>, w: real)
    requires w > 0.0 && |xs| > 0 && Min(Times(xs)) < Max(Times(xs))
    ensures RttSeries(xs, w) == RttOver(xs, BinEdges(Min(Times(xs)), Max(Times(xs)), w))
  {
    SortedSamples(xs);
    var sorted := Sort(xs, SampleTime);
    RttOfDistinct(sorted, w);
    RttOverPermutation(sorted, xs, BinEdges(Min(Times(xs)), Max(Times(xs)), w));
  }

  lemma RttOfDistinct(sorted: seq<Sample>, w: real)
    requires w > 0.0 && |sorted| > 0 && sorted[0].time < sorted[|sorted| - 1].time
    ensures RttOfSorted(sorted, w) == RttOver(sorted, BinEdges(sorted[0].time, sorted[|sorted| - 1].time, w))
  {
  }

  /** With distinct sample times, each RTT bin is its reference reading over the samples as given. */
  lemma RttBins(xs: seq<Sample>, w: real)
    requires w > 0.0 && |xs| > 0 && Min(Times(xs)) < Max(Times(xs))
    ensures RttSeries(xs, w).times == Offsets(BinEdges(Min(Times(xs)), Max(Times(xs)), w))
    ensures forall j :: 0 <= j < |RttSeries(xs, w).values| ==> RttSeries(xs, w).values[j] == BinAverage(xs, BinEdges(Min(Times(xs)), Max(Times(xs)), w), j)
  {
    RttReference(xs, w);
    var e := BinEdges(Min(Times(xs)), Max(Times(xs)), w);
    RttOverBins(xs, e);
  }

  /** On increasing edges, an RTT bin is NaN exactly when no sample time lies in [e[j], e[j+1]). */
  lemma BinAverageNaN(xs: seq<Sample>, e: seq<real>, j: int)
    requires Increasing(e) && 0 <= j < |e| - 1
    ensures BinAverage(xs, e, j).NaN? <==> forall i :: 0 <= i < |xs| ==> !(e[j] <= xs[i].time < e[j + 1])
  {
    EmptyBinIff(xs, e, j);
  }

  // Throughput

  /** `np.sum(sizes) * 8 / time_interval if len(sizes) > 0 else 0`: a bin's bits per second. */
  function BitRate(v: seq<real>, w: real): real
    requires w > 0.0
  {
    if |v| > 0 then Sum(v) * 8.0 / w else 0.0
  }

  /** The frame bytes digitize puts in each bin. */
  function ByteTally(xs: seq<Sample>, e: seq<real>): (t: seq<real>)
    requires |e| >= 2
    ensures |t| == |e| - 1
  {
    Tally(xs, TimeBin(e), SampleValue, |e| - 1)
  }

  /** The bits per second of every bin. */
  function BitRates(xs: seq<Sample>, e: seq<real>, w: real): (b: seq<real>)
    requires |e| >= 2 && w > 0.0
    ensures |b| == |e| - 1
  {
    seq(|e| - 1, j requires 0 <= j < |e| - 1 => BitRate(InBin(xs, e, j), w))
  }

  /** Lines 267-281 for given edges: bin offsets, and bits per second corrected for sampling. */
  function ThroughputOver(xs: seq<Sample>, e: seq<real>, w: real, s: real): (r: Series<real>)
    requires |e| >= 2 && w > 0.0 && s != 0.0
    ensures WellFormed(r) && |r.times| == |e| - 1
  {
    Series(Offsets(e), Corrected(BitRates(xs, e, w), s))
  }

  /**
   * Throughput in bits per second. With no samples: empty arrays. When every
   * sample has the same time: one bin at offset 0 holding the total bits,
   * neither per second nor corrected for sampling. Otherwise each digitize
   * bin's bytes times 8 over the interval (0 for an empty bin), divided by
   * the sample rate when it is below 1.
   */
  function ThroughputSeries(xs: seq<Sample>, w: real, s: real): (r: Series<real>)
    requires w > 0.0 && s != 0.0
    ensures WellFormed(r)
    ensures |r.times| == 0 <==> |xs| == 0
  {
    if |xs| == 0 then Series([], []) else ThroughputOfSorted(Sort(xs, SampleTime), w, s)
  }

  /** Lines 253-281, on the samples sorted by time. */
  function ThroughputOfSorted(sorted: seq<Sample>, w: real, s: real): (r: Series<real>)
    requires w > 0.0 && s != 0.0 && |sorted| > 0
    ensures WellFormed(r) && |r.times| > 0
  {
    var t0 := sorted[0].time;
    var t1 := sorted[|sorted| - 1].time;
    if t1 - t0 <= 0.0 then Series([0.0], [Sum(Values(sorted)) * 8.0])
    else ThroughputOver(sorted, BinEdges(t0, t1, w), w, s)
  }

  lemma DivTimes(a: real, w: real)
    requires w > 0.0
    ensures a / w * w == a
  {
  }

  /** A bin's bit rate, times the interval, is the bits of the frames in it. */
  lemma BitRateSlot(xs: seq<Sample>, e: seq<real>, w: real, j: int)
    requires |e| >= 2 && w > 0.0 && 0 <= j < |e| - 1
    ensures BitRates(xs, e, w)[j] * w == ByteTally(xs, e)[j] * 8.0
  {
    var key := TimeBin(e);
    var nb := |e| - 1;
    TallySlot(xs, key, SampleValue, nb, j);
    InBinShape(xs, e, j);
    var v := InBin(xs, e, j);
    if |v| > 0 {
      DivTimes(Sum(v) * 8.0, w);
    } else {
      EmptyRangeWeight(xs, key, SampleValue, j, j + 1);
    }
  }

  /** Throughput values, each times the interval and the sampled share, are the bits of each bin. */
  lemma ThroughputOverScaled(xs: seq<Sample>, e: seq<real>, w: real, s: real)
    requires |e| >= 2 && w > 0.0 && s != 0.0
    ensures Scaled(ThroughputOver(xs, e, w, s).values, w * Factor(s)) == Scaled(ByteTally(xs, e), 8.0)
  {
    var b := BitRates(xs, e, w);
    var v := Corrected(b, s);
    var t := ByteTally(xs, e);
    var lhs := Scaled(v, w * Factor(s));
    var rhs := Scaled(t, 8.0);
    forall j | 0 <= j < |e| - 1
      ensures lhs[j] == rhs[j]
    {
      BitRateSlot(xs, e, w, j);
      Reassociate(v[j], Factor(s), w, b[j], t[j] * 8.0);
    }
  }

  /** The bit rates over fixed edges do not depend on the order of the samples. */
  lemma ThroughputOverPermutation(a: seq<Sample>, b: seq<Sample>, e: seq<real>, w: real, s: real)
    requires |e| >= 2 && w > 0.0 && s != 0.0 && multiset(a) == multiset(b)
    ensures ThroughputOver(a, e, w, s) == ThroughputOver(b, e, w, s)
  {
    forall j | 0 <= j < |e| - 1
      ensures BitRates(a, e, w)[j] == BitRates(b, e, w)[j]
    {
      InBinShape(a, e, j);
      InBinShape(b, e, j);
      BinPermutation(a, b, e, j);
    }
    assert BitRates(a, e, w) == BitRates(b, e, w);
  }

  /** All samples at one instant: one bin holding the total bits of all frames. */
  lemma ThroughputDegenerate(xs: seq<Sample>, w: real, s: real)
    requires w > 0.0 && s != 0.0 && |xs| > 0 && Min(Times(xs)) == Max(Times(xs))
    ensures ThroughputSeries(xs, w, s) == Series([0.0], [Sum(Values(xs)) * 8.0])
  {
    SortedSamples(xs);
    ValuesSumPermutation(Sort(xs, SampleTime), xs);
  }

  lemma ThroughputOfDistinct(sorted: seq<Sample>, w: real, s: real)
    requires w > 0.0 && s != 0.0 && |sorted| > 0 && sorted[0].time < sorted[|sorted| - 1].time
    ensures ThroughputOfSorted(sorted, w, s) == ThroughputOver(sorted, BinEdges(sorted[0].time, sorted[|sorted| - 1].time, w), w, s)
  {
  }

  /**
   * With distinct sample times, the throughput series is `ThroughputOver`
   * the samples as given, over the edges from the earliest to the latest time.
   */
  lemma ThroughputReference(xs: seq<Sample>, w: real, s: real)
    requires w > 0.0 && s != 0.0 && |xs| > 0 && Min(Times(xs)) < Max(Times(xs))
    ensures ThroughputSeries(xs, w, s) == ThroughputOver(xs, BinEdges(Min(Times(xs)), Max(Times(xs)), w), w, s)
  {
    SortedSamples(xs);
    var sorted := Sort(xs, SampleTime);
    ThroughputOfDistinct(sorted, w, s);
    ThroughputOverPermutation(sorted, xs, BinEdges(Min(Times(xs)), Max(Times(xs)), w), w, s);
  }

  /**
   * With distinct sample times, each throughput value times the interval and
   * the sampled share is 8 times the bytes of the frames digitize puts in its bin.
   */
  lemma ThroughputBins(xs: seq<Sample>, w: real, s: real)
    requires w > 0.0 && s != 0.0 && |xs| > 0 && Min(Times(xs)) < Max(Times(xs))
    ensures ThroughputSeries(xs, w, s).times == Offsets(BinEdges(Min(Times(xs)), Max(Times(xs)), w))
    ensures Scaled(ThroughputSeries(xs, w, s).values, w * Factor(s)) == Scaled(ByteTally(xs, BinEdges(Min(Times(xs)), Max(Times(xs)), w)), 8.0)
    ensures forall j :: 0 <= j < |ThroughputSeries(xs, w, s).values| ==>
      ByteTally(xs, BinEdges(Min(Times(xs)), Max(Times(xs)), w))[j] == ValueTotal(xs, BinEdges(Min(Times(xs)), Max(Times(xs)), w), j)
  {
    ThroughputReference(xs, w, s);
    var e := BinEdges(Min(Times(xs)), Max(Times(xs)), w);
    ThroughputOverScaled(xs, e, w, s);
    ByteTallySlots(xs, e);
  }

  /** Bin j of the byte tally holds the total bytes of the samples in it. */
  lemma ByteTallySlots(xs: seq<Sample>, e: seq<real>)
    requires |e| >= 2
    ensures forall j :: 0 <= j < |e| - 1 ==> ByteTally(xs, e)[j] == ValueTotal(xs, e, j)
  {
    var key := TimeBin(e);
    var nb := |e| - 1;
    forall j | 0 <= j < nb
      ensures Tally(xs, key, SampleValue, nb)[j] == WeightBetween(xs, key, SampleValue, j, j + 1)
    {
      TallySlot(xs, key, SampleValue, nb, j);
    }
  }

  /** The total value of the samples whose time is before `b`. */
  function ValueBefore(xs: seq<Sample>, b: real): real {
    if |xs| == 0 then 0.0
    else ValueBefore(xs[..|xs| - 1], b) + (if xs[|xs| - 1].time < b then xs[|xs| - 1].value else 0.0)
  }

  /** Samples from the first edge on fall in some digitize bin exactly when they are before the last edge. */
  lemma {:induction false} DigitizedTotal(xs: seq<Sample>, e: seq<real>)
    requires |e| >= 2 && Increasing(e)
    requires forall i :: 0 <= i < |xs| ==> e[0] <= xs[i].time
    ensures WeightBetween(xs, TimeBin(e), SampleValue, 0, |e| - 1) == ValueBefore(xs, e[|e| - 1])
  {
    if |xs| > 0 {
      var x := xs[|xs| - 1];
      DigitizedTotal(xs[..|xs| - 1], e);
      DigitizeBinInRange(e, x.time);
    }
  }

  /** When every sample is before `b`, nothing is left out. */
  lemma {:induction false} ValueBeforeAll(xs: seq<Sample>, b: real)
    requires forall i :: 0 <= i < |xs| ==> xs[i].time < b
    ensures ValueBefore(xs, b) == Sum(Values(xs))
  {
    if |xs| > 0 {
      assert Values(xs)[..|xs| - 1] == Values(xs[..|xs| - 1]);
      ValueBeforeAll(xs[..|xs| - 1], b);
    }
  }

  /** The bytes of the frames before the last bin edge. */
  function FramesBefore(xs: seq<Sample>, w: real): real
    requires w > 0.0 && |xs| > 0 && Min(Times(xs)) < Max(Times(xs))
  {
    var e := BinEdges(Min(Times(xs)), Max(Times(xs)), w);
    ValueBefore(xs, e[|e| - 1])
  }

  /**
   * Conservation, as far as it goes: with distinct sample times, the
   * throughput values times the interval and the sampled share add up to 8
   * times the bytes of the frames strictly before the last edge. A frame
   * lying exactly on the last edge (the span a multiple of the interval)
   * falls in no digitize bin and is lost.
   */
  lemma ThroughputConservation(xs: seq<Sample>, w: real, s: real)
    requires w > 0.0 && s != 0.0 && |xs| > 0 && Min(Times(xs)) < Max(Times(xs))
    ensures Sum(Scaled(ThroughputSeries(xs, w, s).values, w * Factor(s))) == FramesBefore(xs, w) * 8.0
  {
    ThroughputBins(xs, w, s);
    var e := BinEdges(Min(Times(xs)), Max(Times(xs)), w);
    var t := ByteTally(xs, e);
    SumOfScaled(t, 8.0);
    var key := TimeBin(e);
    var nb := |e| - 1;
    TallyTotal(xs, key, SampleValue, nb);
    DigitizedTotal(xs, e);
  }

  // ---------------------------------------------------------------------------
  // Two frames one interval apart: the histogram keeps the second, digitize drops it.

  lemma UnitEdges()
    ensures BinEdges(0.0, 1.0, 1.0) == [0.0, 1.0]
  {
    assert NumBins(1.0, 1.0) == 1;
  }

  lemma UnitEdgesSearch()
    ensures SearchRight([0.0, 1.0], 0.0) == 1 && SearchRight([0.0, 1.0], 1.0) == 2
  {
    assert [0.0, 1.0][..1] == [0.0];
    assert [0.0][..0] == [];
  }

  lemma UnitEdgesHistogram()
    ensures Histogram([0.0, 1.0], [0.0, 1.0]) == [2.0]
  {
    var e := [0.0, 1.0];
    UnitEdgesSearch();
    var key := HistKey(e);
    assert key(0.0) == 0 && key(1.0) == 0;
    assert [0.0, 1.0][..1] == [0.0];
    assert [0.0][..0] == [];
    assert Tally([0.0], key, One, 1) == [1.0];
  }

  lemma SortedPair()
    ensures Sort([0.0, 1.0], RealKey) == [0.0, 1.0]
  {
    assert [0.0, 1.0][..1] == [0.0];
  }

  /** Timestamps 0 and 1 with a 1-second interval: one bin of two packets per second. */
  lemma PacketRateExample()
    ensures PacketRateSeries([0.0, 1.0], 1.0, 1.0) == Series([0.0], [2.0])
  {
    SortedPair();
    UnitEdges();
    UnitEdgesHistogram();
    assert RateOfSorted([0.0, 1.0], 1.0, 1.0) == RateOver([0.0, 1.0], [0.0, 1.0], 1.0, 1.0);
  }

  /** The values digitize puts in the one bin of edges [0, 1], for samples at times 0 and 1. */
  lemma PairFirstOnly(a: real, b: real)
    ensures InBin([Sample(0.0, a), Sample(1.0, b)], [0.0, 1.0], 0) == [a]
  {
    var e := [0.0, 1.0];
    var xs := [Sample(0.0, a), Sample(1.0, b)];
    UnitEdgesSearch();
    var key := TimeBin(e);
    assert key(xs[0]) == 0 && key(xs[1]) == 1;
    assert xs[..1] == [xs[0]];
    assert [xs[0]][..0] == [];
    assert Select([xs[0]], key, SampleValue, 0) == [a];
    assert Select(xs, key, SampleValue, 0) == [a];
  }

  lemma SortedSamplePair(a: real, b: real)
    ensures Sort([Sample(0.0, a), Sample(1.0, b)], SampleTime) == [Sample(0.0, a), Sample(1.0, b)]
  {
    assert [Sample(0.0, a), Sample(1.0, b)][..1] == [Sample(0.0, a)];
  }

  /** RTT samples at times 0 and 1 with a 1-second interval: the bin's mean is the first RTT alone. */
  lemma RttExample(a: real, b: real)
    ensures RttSeries([Sample(0.0, a), Sample(1.0, b)], 1.0) == Series([0.0], [Num(a)])
  {
    var xs := [Sample(0.0, a), Sample(1.0, b)];
    SortedSamplePair(a, b);
    UnitEdges();
    PairFirstOnly(a, b);
    assert RttOfSorted(xs, 1.0) == RttOver(xs, [0.0, 1.0]);
    assert [a][..0] == [];
    assert Sum([a]) == a;
  }

  /** Frames of 100 and 200 bytes at times 0 and 1 with a 1-second interval: 800 bits per second, not 2400. */
  lemma ThroughputExample()
    ensures ThroughputSeries([Sample(0.0, 100.0), Sample(1.0, 200.0)], 1.0, 1.0) == Series([0.0], [800.0])
    ensures Sum(Values([Sample(0.0, 100.0), Sample(1.0, 200.0)])) * 8.0 == 2400.0
  {
    var xs := [Sample(0.0, 100.0), Sample(1.0, 200.0)];
    SortedSamplePair(100.0, 200.0);
    UnitEdges();
    PairFirstOnly(100.0, 200.0);
    assert ThroughputOfSorted(xs, 1.0, 1.0) == ThroughputOver(xs, [0.0, 1.0], 1.0, 1.0);
    assert Sum([100.0]) == 100.0;
    assert BitRates(xs, [0.0, 1.0], 1.0) == [800.0];
    assert Values(xs) == [100.0, 200.0];
    assert Values(xs)[..1] == [100.0];
  }
}

=== FILE: binning.dfy ===
/**
 * Fixed-width time bins. The edges are the values of
 * `np.arange(start, end + w, w)` read with exact arithmetic, `np.histogram`
 * puts a value in bin j when it lies in [e[j], e[j+1]) except that the last
 * bin is closed, and `np.digitize` numbers bins so that index j + 1 means
 * [e[j], e[j+1]) with every bin half-open.
 */
module Binning {

  ghost predicate Increasing(e: seq<real>) {
    forall i, j :: 0 <= i < j < |e| ==> e[i] < e[j]
  }

  lemma ScaledLess(a: real, b: real, w: real)
    requires a < b && w > 0.0
    ensures a * w < b * w
  {
  }

  /** The number of bins of width `w` needed to reach `span`, that is, ceil(span / w). */
  function NumBins(span: real, w: real): (n: nat)
    requires span > 0.0 && w > 0.0
    ensures n >= 1
  {
    var q := (span / w).Floor;
    FloorScaled(span, w, q);
    if q as real * w == span then q else q + 1
  }

  /** The bins reach the span, and one bin fewer would not. */
  lemma NumBinsBounds(span: real, w: real)
    requires span > 0.0 && w > 0.0
    ensures var n := NumBins(span, w);
      (n - 1) as real * w < span <= n as real * w
  {
    var q := (span / w).Floor;
    FloorScaled(span, w, q);
  }

  /** q = floor(span / w) gives q*w <= span < (q+1)*w, with q >= 0, and q >= 1 when q*w == span. */
  lemma FloorScaled(span: real, w: real, q: int)
    requires span > 0.0 && w > 0.0 && q == (span / w).Floor
    ensures 0 <= q && q as real * w <= span < (q + 1) as real * w
    ensures q as real * w == span ==> q >= 1
  {
    var r := span / w;
    assert q as real <= r < q as real + 1.0;
    assert r * w == span;
    ScaledLess(r, q as real + 1.0, w);
    assert span < (q + 1) as real * w;
    if q as real < r {
      ScaledLess(q as real, r, w);
    }
    assert q as real * w <= span;
  }

  /**
   * `np.arange(t0, t0 + span + w, w)`: the values t0 + k*w for every k >= 0 with
   * k*w < span + w.
   */
  function Edges(t0: real, span: real, w: real): (e: seq<real>)
    requires span > 0.0 && w > 0.0
    ensures |e| == NumBins(span, w) + 1 && |e| >= 2
    ensures forall k :: 0 <= k < |e| ==> e[k] == t0 + k as real * w
  {
    seq(NumBins(span, w) + 1, k requires 0 <= k => t0 + k as real * w)
  }

  /** The edges increase strictly, start at t0 and the last one is the first at or beyond t0 + span. */
  lemma EdgesShape(t0: real, span: real, w: real)
    requires span > 0.0 && w > 0.0
    ensures var e := Edges(t0, span, w);
      && Increasing(e)
      && e[0] == t0
      && e[|e| - 2] < t0 + span <= e[|e| - 1]
  {
    var e := Edges(t0, span, w);
    var n := NumBins(span, w);
    NumBinsBounds(span, w);
    assert e[n] == t0 + n as real * w && e[n - 1] == t0 + (n - 1) as real * w;
    UniformIncreasing(e, t0, w);
  }

  lemma UniformIncreasing(e: seq<real>, t0: real, w: real)
    requires w > 0.0
    requires forall k :: 0 <= k < |e| ==> e[k] == t0 + k as real * w
    ensures Increasing(e)
  {
    forall i, j | 0 <= i < j < |e|
      ensures e[i] < e[j]
    {
      ScaledLess(i as real, j as real, w);
    }
  }

  /** `bins[:-1] - start_time`: the start of every bin relative to the first edge. */
  function Offsets(e: seq<real>): (o: seq<real>)
    requires |e| >= 1
    ensures |o| == |e| - 1
  {
    seq(|e| - 1, k requires 0 <= k < |e| - 1 => e[k] - e[0])
  }

  /** The offsets are 0, w, 2w, ...: they start at 0 and rise by exactly w. */
  lemma OffsetsUniform(t0: real, span: real, w: real)
    requires span > 0.0 && w > 0.0
    ensures var o := Offsets(Edges(t0, span, w));
      && |o| == NumBins(span, w)
      && o[0] == 0.0
      && (forall k :: 0 <= k < |o| ==> o[k] == k as real * w)
      && (forall k :: 0 <= k < |o| - 1 ==> o[k + 1] == o[k] + w)
  {
    var e := Edges(t0, span, w);
    var o := Offsets(e);
    forall k | 0 <= k < |o|
      ensures o[k] == k as real * w
    {
      assert e[k] == t0 + k as real * w;
    }
    forall k | 0 <= k < |o| - 1
      ensures o[k + 1] == o[k] + w
    {
      assert o[k + 1] == (k + 1) as real * w;
      assert (k + 1) as real * w == k as real * w + w;
    }
  }

  /** The last bin starts before the span ends and reaches at least to its end. */
  lemma OffsetsCover(t0: real, span: real, w: real)
    requires span > 0.0 && w > 0.0
    ensures var o := Offsets(Edges(t0, span, w));
      o[|o| - 1] < span <= o[|o| - 1] + w
  {
    var e := Edges(t0, span, w);
    var o := Offsets(e);
    var n := NumBins(span, w);
    NumBinsBounds(span, w);
    assert o[|o| - 1] == e[n - 1] - e[0];
    assert e[n - 1] == t0 + (n - 1) as real * w;
    assert n as real * w == (n - 1) as real * w + w;
  }

  /** `np.searchsorted(e, t, side='right')`: the number of edges at or below t. */
  function SearchRight(e: seq<real>, t: real): (n: nat)
    ensures n <= |e|
  {
    if |e| == 0 then 0
    else SearchRight(e[..|e| - 1], t) + (if e[|e| - 1] <= t then 1 else 0)
  }

  /** On increasing edges, t lies between the edge before and the edge at the searchsorted index. */
  lemma {:induction false} SearchRightBounds(e: seq<real>, t: real)
    requires Increasing(e)
    ensures var n := SearchRight(e, t);
      (n == 0 || e[n - 1] <= t) && (n == |e| || t < e[n])
  {
    if |e| > 0 {
      var p := e[..|e| - 1];
      assert Increasing(p);
      SearchRightBounds(p, t);
    }
  }

  /** `np.digitize(t, e) - 1`: the half-open bin index of t (-1 below the first edge, |e| - 1 at or beyond the last). */
  function DigitizeBin(e: seq<real>, t: real): int {
    SearchRight(e, t) - 1
  }

  /** The bin `np.histogram` counts t in: as for digitize, except that the last edge belongs to the last bin. */
  function HistBin(e: seq<real>, t: real): int
    requires |e| >= 2
  {
    if t == e[|e| - 1] then |e| - 2 else SearchRight(e, t) - 1
  }

  /** Digitize bin j is exactly the half-open interval [e[j], e[j+1]). */
  lemma DigitizeBinIff(e: seq<real>, t: real, j: int)
    requires Increasing(e) && 0 <= j < |e| - 1
    ensures DigitizeBin(e, t) == j <==> e[j] <= t < e[j + 1]
  {
    SearchRightBounds(e, t);
  }

  /** Histogram bin j is [e[j], e[j+1]), closed on the right for the last bin only. */
  lemma HistBinIff(e: seq<real>, t: real, j: int)
    requires Increasing(e) && 0 <= j < |e| - 1
    ensures HistBin(e, t) == j <==> (e[j] <= t < e[j + 1] || (j == |e| - 2 && t == e[|e| - 1]))
  {
    SearchRightBounds(e, t);
  }

  /** Every value from the first to the last edge, both included, falls in some histogram bin. */
  lemma HistBinInRange(e: seq<real>, t: real)
    requires |e| >= 2 && Increasing(e) && e[0] <= t <= e[|e| - 1]
    ensures 0 <= HistBin(e, t) < |e| - 1
  {
    SearchRightBounds(e, t);
  }

  /** Digitize places a value in some bin exactly when it lies below the last edge. */
  lemma DigitizeBinInRange(e: seq<real>, t: real)
    requires |e| >= 2 && Increasing(e) && e[0] <= t
    ensures 0 <= DigitizeBin(e, t) < |e| - 1 <==> t < e[|e| - 1]
  {
    SearchRightBounds(e, t);
  }
}

=== FILE: compare.dfy ===
/**
 * `compare.py`: the command line becomes a configuration, the directory is
 * searched for exactly two captures, each is sampled according to its size
 * and run through the three extractors, and the three tables are compared
 * and plotted. The file system, tshark and the float/int parsers are
 * parameters (`Environment`); printing and drawing are left out.
 */
module Pipeline {
  import opened Wrappers
  import opened Metrics
  import opened PacketProcessing
  import opened Analysis
  import Utils
  import Plotting

  // ---------------------------------------------------------------------------
  // Configuration

  /** The `--plot-type` choices (line 36). */
  datatype PlotKind = Full | Normalized | Overlap | All

  /** The parsed command line (lines 29-40). */
  datatype Args = Args(inputDir: string, outputDir: string, timeInterval: real, sampleRate: real, plotType: PlotKind, noSave: bool)

  /** The defaults of `parse_args`. */
  const Defaults: Args := Args("var", "pcap_analyzer/output", 1.0, 1.0, All, false)

  /** The configuration dictionary of lines 48-55. */
  datatype Config = Config(varFolder: string, timeInterval: real, sampleRate: real, plotType: PlotKind, savePlots: bool, outputDir: string)

  /** `DEFAULT_CONFIG` (`pcap_analyzer/utils.py`, lines 6-13), imported but not consulted. */
  const DefaultConfig: Config := Config("var", 1.0, 1.0, All, true, "output")

  /** The command line a configuration was built from. */
  function ArgsOf(c: Config): Args {
    Args(c.varFolder, c.outputDir, c.timeInterval, c.sampleRate, c.plotType, !c.savePlots)
  }

  /** Lines 48-55: every option is carried over, and plots are saved unless `--no-save` is given. */
  function ConfigOf(a: Args): (c: Config)
    ensures c.savePlots <==> !a.noSave
    ensures ArgsOf(c) == a
  {
    Config(a.inputDir, a.timeInterval, a.sampleRate, a.plotType, !a.noSave, a.outputDir)
  }

  /** Building the configuration loses nothing: it and the command line determine each other. */
  lemma ConfigRoundTrip(c: Config)
    ensures ConfigOf(ArgsOf(c)) == c
  {
  }

  /**
   * Without options the configuration is `DEFAULT_CONFIG` except for the
   * output directory, which the command line puts under `pcap_analyzer/`.
   */
  lemma DefaultsAgreeButOutput()
    ensures ConfigOf(Defaults).(outputDir := DefaultConfig.outputDir) == DefaultConfig
    ensures ConfigOf(Defaults).outputDir != DefaultConfig.outputDir
  {
    assert ConfigOf(Defaults).outputDir[0] != DefaultConfig.outputDir[0];
  }

  // ---------------------------------------------------------------------------
  // Sampling by size

  /**
   * Lines 81-88: a file over 1 GB is sampled at 10 %, over 500 MB at
   * 20 %, over 200 MB at 50 %; a smaller one at the configured rate. The
   * thresholds are strict and in bytes.
   */
  function SampleRateFor(size: int, configured: real): (s: real)
    ensures size <= 200_000_000 ==> s == configured
    ensures size > 200_000_000 ==> 0.0 < s < 1.0 && (s == 0.1 || s == 0.2 || s == 0.5)
    ensures size > 1_000_000_000 ==> s == 0.1
    ensures 500_000_000 < size <= 1_000_000_000 ==> s == 0.2
    ensures 200_000_000 < size <= 500_000_000 ==> s == 0.5
  {
    if size > 1_000_000_000 then 0.1
    else if size > 500_000_000 then 0.2
    else if size > 200_000_000 then 0.5
    else configured
  }

  /** Above 200 MB, a larger file is never sampled more densely than a smaller one. */
  lemma LargerSampledLess(a: int, b: int, configured: real)
    requires 200_000_000 < a <= b
    ensures SampleRateFor(b, configured) <= SampleRateFor(a, configured)
  {
  }

  /** Above 200 MB the configured rate plays no part. */
  lemma ConfiguredIgnored(size: int, c1: real, c2: real)
    requires size > 200_000_000
    ensures SampleRateFor(size, c1) == SampleRateFor(size, c2)
  {
  }

  /** The thresholds themselves fall in the lower band. */
  lemma ThresholdsStrict(configured: real)
    ensures SampleRateFor(1_000_000_000, configured) == 0.2
    ensures SampleRateFor(500_000_000, configured) == 0.5
    ensures SampleRateFor(200_000_000, configured) == configured
  {
  }

  /** Line 90: the sampling notice is printed when the rate used is below 1. */
  predicate Announced(size: int, configured: real) {
    SampleRateFor(size, configured) < 1.0
  }

  /** A file is announced exactly when it is over 200 MB or the configured rate is below 1. */
  lemma AnnouncedIff(size: int, configured: real)
    ensures Announced(size, configured) <==> size > 200_000_000 || configured < 1.0
  {
  }

  // ---------------------------------------------------------------------------
  // Processing one file

  /** What the program asks of the outside world. */
  datatype Environment = Environment(
    isDirectory: bool,          // `os.path.isdir` of the input directory
    entries: seq<string>,       // `os.listdir` of it
    size: string -> int,        // `os.path.getsize`
    tshark: Tshark,
    conv: Converters)

  /**
   * Lines 96-114 for one file: a key is present exactly when its extractor
   * returned arrays, and every present entry is as the extractors promise.
   */
  function Process(env: Environment, path: string, w: real, s: real): (r: FileResults)
    requires w > 0.0
    ensures Sound(r)
    ensures r.pps.Some? <==> Timestamps(env.tshark, env.conv, path, s).Some?
    ensures r.rtt.Some? <==> s != 0.0 && Invoke(env.tshark, path, Rtt, s).value.ok
    ensures r.throughput.Some? <==> s != 0.0 && Invoke(env.tshark, path, Throughput, s).value.ok
  {
    FileResults(
      ExtractPacketRate(env.tshark, env.conv, path, w, s),
      ExtractRtt(env.tshark, env.conv, path, w, s),
      ExtractThroughput(env.tshark, env.conv, path, w, s))
  }

  /** Lines 96-114 with the extractors as written: an IndexError in either two-column extractor ends the program. */
  function ProcessAsWritten(env: Environment, path: string, w: real, s: real): (r: Completion<FileResults>)
    requires w > 0.0
    ensures r.Raised? <==> (SamplesAsWritten(env.tshark, env.conv, path, Rtt, s).Raised? ||
      SamplesAsWritten(env.tshark, env.conv, path, Throughput, s).Raised?)
  {
    var pps := ExtractPacketRate(env.tshark, env.conv, path, w, s);
    match ExtractRttAsWritten(env.tshark, env.conv, path, w, s)
    case Raised(e) => Raised(e)
    case Returned(rtt) =>
      match ExtractThroughputAsWritten(env.tshark, env.conv, path, w, s)
      case Raised(e) => Raised(e)
      case Returned(throughput) => Returned(FileResults(pps, rtt, throughput))
  }

  /** tshark's output for metric m holds no row with one field converted and the other not. */
  predicate NoHalfRows(env: Environment, path: string, m: Metric, s: real) {
    Succeeded(Invoke(env.tshark, path, m, s)) ==>
      forall i :: 0 <= i < |Rows(Invoke(env.tshark, path, m, s).value)| ==>
        !Half(Outcome(Rows(Invoke(env.tshark, path, m, s).value)[i], env.conv.toFloat, ValueField(env.conv, m)))
  }

  /** Without half-converted rows, the written processing returns exactly the corrected results. */
  lemma ProcessAgrees(env: Environment, path: string, w: real, s: real)
    requires w > 0.0
    requires NoHalfRows(env, path, Rtt, s) && NoHalfRows(env, path, Throughput, s)
    ensures ProcessAsWritten(env, path, w, s) == Returned(Process(env, path, w, s))
  {
    if Succeeded(Invoke(env.tshark, path, Rtt, s)) {
      SamplesAsWrittenAgree(env.tshark, env.conv, path, Rtt, s);
    }
    if Succeeded(Invoke(env.tshark, path, Throughput, s)) {
      SamplesAsWrittenAgree(env.tshark, env.conv, path, Throughput, s);
    }
  }

  // ---------------------------------------------------------------------------
  // The comparison tables

  /**
   * What `plot_*_comparison` hands to `add_comparison_analysis` for metric
   * m: the table's averages and durations, or `None` when it is empty
   * (lines 171-173 of `pcap_analyzer/plotting.py` return before drawing).
   * Row k is the k-th usable file, with its mean and its last bin offset.
   */
  function Table(results: seq<Entry<FileResults>>, w: real, m: Metric): (t: Option<Summary>)
    requires AllSound(results)
    ensures t.None? <==> forall i :: 0 <= i < |results| ==> !Usable(results[i].val, m)
    ensures t.Some? ==> |t.value.averages| == |t.value.durations| == |Kept(results, m)|
  {
    KeptEmpty(results, m);
    match m
    case PacketRate =>
      var table := PrepareRates(results, w);
      if |table| == 0 then None else Some(RateSummary(table))
    case Rtt =>
      var table := PrepareRtts(results);
      if |table| == 0 then None else Some(RttSummary(table))
    case Throughput =>
      var table := PrepareThroughputs(results, w);
      if |table| == 0 then None else Some(ThroughputSummary(table))
  }

  /**
   * Row k of a table is the k-th usable file: its mean (packets per
   * second, RTT over the bins that are not NaN, or Mbps) and the last
   * offset of its series.
   */
  lemma TableRows(results: seq<Entry<FileResults>>, w: real, m: Metric)
    requires AllSound(results) && Table(results, w, m).Some?
    ensures var t, d := Table(results, w, m).value, Kept(results, m);
      forall k :: 0 <= k < |d| ==> t.averages[k] == Average(d[k].val, m) && t.durations[k] == LastOffset(d[k].val, m)
  {
    match m
    case PacketRate => RateRows(results, w);
    case Rtt => RttRows(results, w);
    case Throughput => ThroughputRows(results, w);
  }

  /** `TableRows` for the packet-rate table: each average is the file's `avg_pps`. */
  lemma RateRows(results: seq<Entry<FileResults>>, w: real)
    requires AllSound(results) && Table(results, w, PacketRate).Some?
    ensures var t, d := Table(results, w, PacketRate).value, Kept(results, PacketRate);
      forall k :: 0 <= k < |d| ==> t.averages[k] == Average(d[k].val, PacketRate) && t.durations[k] == LastOffset(d[k].val, PacketRate)
  {
    var d, table := Kept(results, PacketRate), PrepareRates(results, w);
    var t := Table(results, w, PacketRate).value;
    assert t == RateSummary(table);
    forall k | 0 <= k < |d|
      ensures t.averages[k] == Average(d[k].val, PacketRate) && t.durations[k] == LastOffset(d[k].val, PacketRate)
    {
      RateRow(d[k], table[k].val, w);
    }
  }

  /** A row built by `RateInfoOf` reports the file's mean rate. */
  lemma RateRow(e: Entry<FileResults>, info: RateInfo, w: real)
    requires Sound(e.val) && Usable(e.val, PacketRate)
    requires info == RateInfoOf(e.val.pps.value, w)
    ensures info.avgPps == Average(e.val, PacketRate)
  {
  }

  /** `TableRows` for the RTT table: each average is the file's `avg_rtt`. */
  lemma RttRows(results: seq<Entry<FileResults>>, w: real)
    requires AllSound(results) && Table(results, w, Rtt).Some?
    ensures var t, d := Table(results, w, Rtt).value, Kept(results, Rtt);
      forall k :: 0 <= k < |d| ==> t.averages[k] == Average(d[k].val, Rtt) && t.durations[k] == LastOffset(d[k].val, Rtt)
  {
    var d, table := Kept(results, Rtt), PrepareRtts(results);
    var t := Table(results, w, Rtt).value;
    assert t == RttSummary(table);
    forall k | 0 <= k < |d|
      ensures t.averages[k] == Average(d[k].val, Rtt) && t.durations[k] == LastOffset(d[k].val, Rtt)
    {
      RttRow(d[k], table[k].val);
    }
  }

  /** A row built by `RttInfoOf` reports the file's mean RTT over the bins that are not NaN. */
  lemma RttRow(e: Entry<FileResults>, info: RttInfo)
    requires Sound(e.val) && Usable(e.val, Rtt)
    requires info == RttInfoOf(e.val.rtt.value)
    ensures info.avgRtt == Average(e.val, Rtt)
  {
  }

  /** `TableRows` for the throughput table: each average is the file's `avg_throughput`. */
  lemma ThroughputRows(results: seq<Entry<FileResults>>, w: real)
    requires AllSound(results) && Table(results, w, Throughput).Some?
    ensures var t, d := Table(results, w, Throughput).value, Kept(results, Throughput);
      forall k :: 0 <= k < |d| ==> t.averages[k] == Average(d[k].val, Throughput) && t.durations[k] == LastOffset(d[k].val, Throughput)
  {
    var d, table := Kept(results, Throughput), PrepareThroughputs(results, w);
    var t := Table(results, w, Throughput).value;
    assert t == ThroughputSummary(table);
    forall k | 0 <= k < |d|
      ensures t.averages[k] == Average(d[k].val, Throughput) && t.durations[k] == LastOffset(d[k].val, Throughput)
    {
      ThroughputRow(d[k], table[k].val, w);
    }
  }

  /** A row built by `ThroughputInfoOf` reports the file's mean throughput in Mbps. */
  lemma ThroughputRow(e: Entry<FileResults>, info: ThroughputInfo, w: real)
    requires Sound(e.val) && Usable(e.val, Throughput)
    requires info == ThroughputInfoOf(e.val.throughput.value, w)
    ensures info.avgThroughput == Average(e.val, Throughput)
  {
  }

  /** `add_comparison_analysis` with `None` treated as a table too small to compare. */
  function AddComparison(t: Option<Summary>): (r: Option<Report>)
    requires t.Some? ==> |t.value.averages| == |t.value.durations|
    ensures r.Some? <==> t.Some? && |t.value.averages| >= 2
    ensures r.Some? ==> r == Compare(t.value)
  {
    match t
    case None => None
    case Some(s) => Compare(s)
  }

  /**
   * `add_comparison_analysis` as lines 131, 135 and 139 call it:
   * `len(None)` raises TypeError when the table was empty.
   */
  function AddComparisonAsWritten(t: Option<Summary>): (r: Completion<Option<Report>>)
    requires t.Some? ==> |t.value.averages| == |t.value.durations|
    ensures r.Raised? <==> t.None?
    ensures r.Returned? ==> r.value == CompareAsWritten(t.value)
  {
    match t
    case None => Raised("TypeError")
    case Some(s) => Returned(CompareAsWritten(s))
  }

  /**
   * When no file has data for a metric, the written program stops with
   * TypeError where the comparison of a one-file table is skipped.
   */
  lemma NoDataRaises(results: seq<Entry<FileResults>>, w: real, m: Metric)
    requires AllSound(results)
    requires forall i :: 0 <= i < |results| ==> !Usable(results[i].val, m)
    ensures AddComparisonAsWritten(Table(results, w, m)) == Raised("TypeError")
    ensures AddComparison(Table(results, w, m)).None?
  {
  }

  /** Two captures, neither with an RTT bin that is not NaN, make the written program raise. */
  lemma NoRttPairRaises(a: string, b: string, pps: Series<real>, throughput: Series<real>)
    requires WellFormed(pps) && WellFormed(throughput)
    ensures var results := [Entry(a, FileResults(Some(pps), None, Some(throughput))), Entry(b, FileResults(Some(pps), None, Some(throughput)))];
      AddComparisonAsWritten(Table(results, 1.0, Rtt)) == Raised("TypeError")
  {
    var results := [Entry(a, FileResults(Some(pps), None, Some(throughput))), Entry(b, FileResults(Some(pps), None, Some(throughput)))];
    NoDataRaises(results, 1.0, Rtt);
  }

  // ---------------------------------------------------------------------------
  // The run

  /** How `main` ends. */
  datatype Ending =
    | NoCaptures                          // lines 63-65
    | WrongCount(found: seq<string>)      // lines 67-70
    | Compared(results: seq<Entry<FileResults>>, durations: map<string, real>,
               reports: seq<Option<Report>>, combined: bool)

  /** The metrics in the order lines 130-139 compare them. */
  const Order: seq<Metric> := [PacketRate, Rtt, Throughput]

  /** One file's entry in `results`, processed at the rate its size calls for. */
  function FileEntry(env: Environment, c: Config, path: string): (e: Entry<FileResults>)
    requires c.timeInterval > 0.0
    ensures e.name == path && Sound(e.val)
    ensures e.val == Process(env, path, c.timeInterval, SampleRateFor(env.size(path), c.sampleRate))
  {
    Entry(path, Process(env, path, c.timeInterval, SampleRateFor(env.size(path), c.sampleRate)))
  }

  /** Lines 96-114: the files' results, in the order they were found. */
  function ResultsOf(env: Environment, c: Config, files: seq<string>): (results: seq<Entry<FileResults>>)
    requires c.timeInterval > 0.0
    ensures |results| == |files| && Names(results) == files
    ensures AllSound(results)
    ensures forall k :: 0 <= k < |files| ==> results[k] == FileEntry(env, c, files[k])
  {
    seq(|files|, k requires 0 <= k < |files| => FileEntry(env, c, files[k]))
  }

  /** Some file has usable data for metric m. */
  predicate SomeUsable(results: seq<Entry<FileResults>>, m: Metric) {
    exists i :: 0 <= i < |results| && Usable(results[i].val, m)
  }

  /**
   * Lines 121-143 for the results of the files: their durations, the three
   * comparisons in the order pps, RTT, throughput, and whether the combined
   * figure is drawn. A comparison is made exactly when at least two files
   * have data for its metric, and the combined figure exactly when every
   * metric has data in some file.
   */
  function Assemble(results: seq<Entry<FileResults>>, w: real): (o: Ending)
    requires AllSound(results)
    ensures o.Compared? && o.results == results
    ensures o.durations == Utils.GetDurations(results)
    ensures |o.reports| == |Order|
    ensures forall k :: 0 <= k < |Order| ==> (o.reports[k].Some? <==> |Kept(results, Order[k])| >= 2)
    ensures o.combined <==> forall k :: 0 <= k < |Order| ==> SomeUsable(results, Order[k])
    ensures forall k :: 0 <= k < |Order| ==> o.reports[k] == AddComparison(Table(results, w, Order[k]))
  {
    var reports := seq(|Order|, k requires 0 <= k < |Order| => AddComparison(Table(results, w, Order[k])));
    var combined := Plotting.CombinedReady(PrepareRates(results, w), PrepareRtts(results), PrepareThroughputs(results, w));
    ReportsPresent(results, w, reports);
    Plotting.CombinedIff(results, w);
    CombinedAll(results);
    Compared(results, Utils.GetDurations(results), reports, combined)
  }

  /**
   * `main` (lines 42-145) with the corrected extractors, time ratio and
   * `None` handling: no captures, a count other than two, or the two
   * files' results assembled.
   */
  function Run(a: Args, env: Environment): (o: Ending)
    requires a.timeInterval > 0.0
    ensures o.NoCaptures? <==> !env.isDirectory || |Utils.Captures(env.entries)| == 0
    ensures o.WrongCount? <==> env.isDirectory && |Utils.Captures(env.entries)| != 0 && |Utils.Captures(env.entries)| != 2
    ensures o.WrongCount? ==> o.found == Utils.FindCaptures(true, a.inputDir, env.entries).value
    ensures o.Compared? ==> |o.results| == 2 && AllSound(o.results)
    ensures o.Compared? ==> Names(o.results) == Utils.FindCaptures(true, a.inputDir, env.entries).value
    ensures o.Compared? ==> o.results == ResultsOf(env, ConfigOf(a), Utils.FindCaptures(true, a.inputDir, env.entries).value)
    ensures o.Compared? ==> o == Assemble(o.results, a.timeInterval)
  {
    var c := ConfigOf(a);
    var found := Utils.FindCaptures(env.isDirectory, c.varFolder, env.entries);
    if found.None? || |found.value| == 0 then NoCaptures
    else if |found.value| != 2 then WrongCount(found.value)
    else Assemble(ResultsOf(env, c, found.value), c.timeInterval)
  }

  lemma ReportsPresent(results: seq<Entry<FileResults>>, w: real, reports: seq<Option<Report>>)
    requires AllSound(results)
    requires |reports| == |Order| && forall k :: 0 <= k < |Order| ==> reports[k] == AddComparison(Table(results, w, Order[k]))
    ensures forall k :: 0 <= k < |Order| ==> (reports[k].Some? <==> |Kept(results, Order[k])| >= 2)
  {
    forall k | 0 <= k < |Order|
      ensures reports[k].Some? <==> |Kept(results, Order[k])| >= 2
    {
      KeptEmpty(results, Order[k]);
    }
  }

  lemma CombinedAll(results: seq<Entry<FileResults>>)
    ensures (forall k :: 0 <= k < |Order| ==> SomeUsable(results, Order[k])) <==>
      && (exists i :: 0 <= i < |results| && HasData(results[i].val, PacketRate))
      && (exists i :: 0 <= i < |results| && Usable(results[i].val, Rtt))
      && (exists i :: 0 <= i < |results| && HasData(results[i].val, Throughput))
  {
    assert Order[0] == PacketRate && Order[1] == Rtt && Order[2] == Throughput;
  }

  /**
   * With two captures that both have data for every metric, each of the
   * three comparisons is made and the combined figure is drawn.
   */
  lemma FullDataComparesAll(a: Args, env: Environment)
    requires a.timeInterval > 0.0
    requires Run(a, env).Compared?
    requires forall i, m :: 0 <= i < 2 ==> Usable(Run(a, env).results[i].val, m)
    ensures forall k :: 0 <= k < |Order| ==> Run(a, env).reports[k].Some?
    ensures Run(a, env).combined
  {
    var results := Run(a, env).results;
    AllUsable(results);
    assert Run(a, env) == Assemble(results, a.timeInterval);
  }

  lemma AllUsable(results: seq<Entry<FileResults>>)
    requires |results| == 2
    requires forall i, m :: 0 <= i < 2 ==> Usable(results[i].val, m)
    ensures forall k :: 0 <= k < |Order| ==> |Kept(results, Order[k])| >= 2
    ensures forall k :: 0 <= k < |Order| ==> SomeUsable(results, Order[k])
  {
    forall k | 0 <= k < |Order|
      ensures |Kept(results, Order[k])| >= 2
    {
      assert Kept(results, Order[k]) == results;
    }
    forall k | 0 <= k < |Order|
      ensures SomeUsable(results, Order[k])
    {
      assert Usable(results[0].val, Order[k]);
    }
  }
}

=== FILE: floats.dfy ===
/**
 * The few IEEE-754 outcomes the program can observe. Finite values are exact
 * reals (rounding is not modelled); NaN marks an empty RTT bin and the result
 * of 0/0; infinities come from dividing a non-zero value by zero, which numpy
 * does with a warning instead of raising.
 */
module Floats {

  datatype Float = Num(r: real) | NaN | Inf(negative: bool)

  /** numpy's `a / b` on two finite float64 values. */
  function Div(a: real, b: real): (q: Float)
    ensures q.Num? <==> b != 0.0
    ensures q.Num? ==> q.r * b == a
    ensures q.NaN? <==> a == 0.0 && b == 0.0
    ensures q.Inf? ==> (q.negative <==> a < 0.0)
  {
    if b != 0.0 then Num(a / b)
    else if a == 0.0 then NaN
    else Inf(a < 0.0)
  }

  /** `x * c` for a positive finite constant `c`: NaN and infinities are kept. */
  function Scale(x: Float, c: real): (y: Float)
    requires c > 0.0
    ensures y.Num? <==> x.Num?
    ensures y.Num? ==> y.r / c == x.r
    ensures y.NaN? <==> x.NaN?
    ensures x.Inf? ==> y == x
  {
    match x
    case Num(v) => Num(v * c)
    case NaN => NaN
    case Inf(neg) => Inf(neg)
  }

  /** `x <= 0`, which is false for NaN and for positive infinity. */
  predicate AtMostZero(x: Float) {
    match x
    case Num(v) => v <= 0.0
    case NaN => false
    case Inf(neg) => neg
  }

  /** No infinity among the values: what `np.nanmean` and friends need to stay finite. */
  predicate NoInf(xs: seq<Float>) {
    forall i :: 0 <= i < |xs| ==> !xs[i].Inf?
  }
}

=== FILE: metrics.dfy ===
/**
 * The data the pipeline passes between its stages: the three metric kinds,
 * a parsed (timestamp, value) sample, a binned series, and the per-file
 * result table that `compare.py` assembles.
 */
module Metrics {
  import opened Wrappers
  import opened Floats

  datatype Metric = PacketRate | Rtt | Throughput

  /** One parsed tshark row: a frame time (seconds since the epoch) and its RTT (ms) or frame length (bytes). */
  datatype Sample = Sample(time: real, value: real)

  function SampleTime(x: Sample): real {
    x.time
  }

  function SampleValue(x: Sample): real {
    x.value
  }

  /** The time column of a list of samples. */
  function Times(s: seq<Sample>): (t: seq<real>)
    ensures |t| == |s|
    ensures forall i :: 0 <= i < |s| ==> t[i] == s[i].time
  {
    seq(|s|, i requires 0 <= i < |s| => s[i].time)
  }

  /** The value column of a list of samples. */
  function Values(s: seq<Sample>): (v: seq<real>)
    ensures |v| == |s|
    ensures forall i :: 0 <= i < |s| ==> v[i] == s[i].value
  {
    seq(|s|, i requires 0 <= i < |s| => s[i].value)
  }

  lemma TimesCons(x: Sample, rest: seq<Sample>)
    ensures Times([x] + rest) == [x.time] + Times(rest)
  {
    assert forall i :: 0 < i < |rest| + 1 ==> ([x] + rest)[i] == rest[i - 1];
  }

  lemma ValuesCons(x: Sample, rest: seq<Sample>)
    ensures Values([x] + rest) == [x.value] + Values(rest)
  {
    assert forall i :: 0 < i < |rest| + 1 ==> ([x] + rest)[i] == rest[i - 1];
  }

  /** The `(relative_bin_starts, values)` pair an extractor returns. */
  datatype Series<V> = Series(times: seq<real>, values: seq<V>)

  predicate WellFormed<V>(s: Series<V>) {
    |s.times| == |s.values|
  }

  /**
   * One file's entry in `results`: a metric is present exactly when its
   * extractor returned arrays rather than `(None, None)`.
   */
  datatype FileResults = FileResults(pps: Option<Series<real>>, rtt: Option<Series<Float>>, throughput: Option<Series<real>>)

  /** A key of an insertion-ordered Python dict together with its value. */
  datatype Entry<V> = Entry(name: string, val: V)

  function Names<V>(entries: seq<Entry<V>>): (r: seq<string>)
    ensures |r| == |entries|
    ensures forall i :: 0 <= i < |r| ==> r[i] == entries[i].name
  {
    seq(|entries|, i requires 0 <= i < |entries| => entries[i].name)
  }

  /** The time offsets recorded for metric `m`, if its extractor produced arrays. */
  function TimesOf(r: FileResults, m: Metric): Option<seq<real>> {
    match m
    case PacketRate => if r.pps.Some? then Some(r.pps.value.times) else None
    case Rtt => if r.rtt.Some? then Some(r.rtt.value.times) else None
    case Throughput => if r.throughput.Some? then Some(r.throughput.value.times) else None
  }

  /** The condition under which a metric's data is used: arrays present and non-empty. */
  predicate HasData(r: FileResults, m: Metric) {
    TimesOf(r, m).Some? && |TimesOf(r, m).value| > 0
  }

  /** `times[-1]`, the duration a metric's series covers. */
  function LastOffset(r: FileResults, m: Metric): real
    requires HasData(r, m)
  {
    var t := TimesOf(r, m).value;
    t[|t| - 1]
  }

  /**
   * What every extractor guarantees of the arrays it returns: times and
   * values of equal length, and RTT values that are a number or NaN.
   */
  predicate Sound(r: FileResults) {
    && (r.pps.Some? ==> WellFormed(r.pps.value))
    && (r.rtt.Some? ==> WellFormed(r.rtt.value) && NoInf(r.rtt.value.values))
    && (r.throughput.Some? ==> WellFormed(r.throughput.value))
  }

  predicate AllSound(results: seq<Entry<FileResults>>) {
    forall i :: 0 <= i < |results| ==> Sound(results[i].val)
  }
}

=== FILE: packet_processing.dfy ===
/**
 * The three extractors of `packet_processing.py`: each asks tshark for one
 * or two fields of the TCP frames of a capture, parses its CSV output,
 * sorts by frame time and bins the samples into fixed-width intervals.
 *
 * tshark itself is a parameter (`Tshark`): given the capture path, the
 * metric (which decides the `-e` fields) and the display filter, it yields
 * the exit status and standard output. Python's `float()` and `int()` on a
 * field are parameters too (`Converters`), each of which may fail.
 */
module PacketProcessing {
  import opened Wrappers
  import opened Floats
  import opened Sequences
  import opened Sorting
  import opened Statistics
  import opened Text
  import opened Metrics
  import opened Binning
  import opened Binned

  /** Python's `float(text)` and `int(text)`: `None` where Python raises ValueError. */
  datatype Converters = Converters(toFloat: string -> Option<real>, toInt: string -> Option<int>)

  /** One tshark run: whether it exited with status 0, and what it printed. */
  datatype ToolRun = ToolRun(ok: bool, stdout: string)

  /** tshark applied to a capture path, the metric whose fields are requested, and a display filter. */
  type Tshark = (string, Metric, string) -> ToolRun

  // ---------------------------------------------------------------------------
  // Display filters

  /** The display filter used when every frame is kept. */
  function BaseFilter(m: Metric): string {
    if m == Rtt then "tcp.analysis.ack_rtt" else "tcp"
  }

  /** `int(x)` on a float: truncation toward zero. */
  function Trunc(x: real): (n: int)
    ensures 0.0 <= x ==> 0 <= n && n as real <= x < n as real + 1.0
    ensures x < 0.0 ==> n <= 0 && n as real - 1.0 < x <= n as real
  {
    if x >= 0.0 then x.Floor else -((-x).Floor)
  }

  /**
   * The `-Y` filter for sample rate `s`. Below 1 only every
   * `int(1/s)`-th frame is kept; `s == 0` makes `1/s` raise
   * ZeroDivisionError, which the extractor's handler turns into `(None, None)`.
   */
  function DisplayFilter(m: Metric, s: real): (f: Option<string>)
    ensures f.None? <==> s == 0.0
    ensures s >= 1.0 ==> f == Some(BaseFilter(m))
    ensures f.Some? ==> |BaseFilter(m)| <= |f.value| && f.value[..|BaseFilter(m)|] == BaseFilter(m)
  {
    if s >= 1.0 then Some(BaseFilter(m))
    else if s == 0.0 then None
    else Some(BaseFilter(m) + " and (frame.number % " + IntToString(Trunc(1.0 / s)) + " == 0)")
  }

  /**
   * For a rate strictly between 0 and 1 the filter keeps one frame in n,
   * where n is the largest whole number with n * s <= 1.
   */
  lemma DecimationFilter(m: Metric, s: real)
    requires 0.0 < s < 1.0
    ensures var n := Trunc(1.0 / s);
      && n >= 1
      && n as real * s <= 1.0 < n as real * s + s
      && DisplayFilter(m, s) == Some(BaseFilter(m) + " and (frame.number % " + Digits(n) + " == 0)")
  {
    ReciprocalTrunc(s, 1.0 / s, Trunc(1.0 / s));
  }

  lemma ReciprocalTrunc(s: real, q: real, n: int)
    requires 0.0 < s < 1.0 && q == 1.0 / s && n == q.Floor
    ensures n >= 1 && n as real * s <= 1.0 < n as real * s + s
  {
    assert q * s == 1.0;
    ScaledLess(s, 1.0, q);
    Bracket(s, q, n as real);
  }

  /** If q * s == 1 and lo <= q < lo + 1, then lo * s <= 1 < lo * s + s. */
  lemma Bracket(s: real, q: real, lo: real)
    requires s > 0.0 && q * s == 1.0 && lo <= q < lo + 1.0
    ensures lo * s <= 1.0 < lo * s + s
  {
    if lo < q {
      ScaledLess(lo, q, s);
    }
    ScaledLess(q, lo + 1.0, s);
  }

  /** The filter for a rate of 0.1 keeps every tenth frame. */
  lemma TenthFilter()
    ensures DisplayFilter(PacketRate, 0.1) == Some("tcp and (frame.number % 10 == 0)")
  {
    TruncOfReciprocal(0.1, 10);
    assert IntToString(10) == "10" by {
      assert Digits(1) == "1";
      assert Digits(10) == Digits(1) + "0";
    }
    assert DisplayFilter(PacketRate, 0.1) == Some("tcp" + " and (frame.number % " + "10" + " == 0)");
    assert "tcp" + " and (frame.number % " + "10" + " == 0)" == "tcp and (frame.number % 10 == 0)";
  }

  /** The filter for a rate of 0.5 keeps every second frame carrying an RTT. */
  lemma HalfFilter()
    ensures DisplayFilter(Rtt, 0.5) == Some("tcp.analysis.ack_rtt and (frame.number % 2 == 0)")
  {
    TruncOfReciprocal(0.5, 2);
    assert IntToString(2) == "2";
    assert DisplayFilter(Rtt, 0.5) == Some("tcp.analysis.ack_rtt" + " and (frame.number % " + "2" + " == 0)");
    assert "tcp.analysis.ack_rtt" + " and (frame.number % " + "2" + " == 0)" == "tcp.analysis.ack_rtt and (frame.number % 2 == 0)";
  }

  /** A whole number n with n * s == 1 is the truncated reciprocal of s. */
  lemma TruncOfReciprocal(s: real, n: nat)
    requires s > 0.0 && n as real * s == 1.0
    ensures Trunc(1.0 / s) == n
  {
    assert 1.0 / s == n as real;
  }

  // ---------------------------------------------------------------------------
  // Parsing tshark's CSV output

  /** `stdout.strip().split('\n')`. */
  function Lines(stdout: string): seq<string> {
    Split(Strip(stdout, IsSpace), "\n")
  }

  /** `lines[1:]` when there is more than one line, otherwise nothing: the first line is the header. */
  function Body(lines: seq<string>): (b: seq<string>)
    ensures |b| == if |lines| > 1 then |lines| - 1 else 0
    ensures forall i :: 0 <= i < |b| ==> b[i] == lines[i + 1]
  {
    if |lines| > 1 then lines[1..] else []
  }

  /** A line or field that `.strip()` reduces to the empty string: all of it is whitespace. */
  predicate Blank(line: string) {
    forall k :: 0 <= k < |line| ==> IsSpace(line[k])
  }

  /** A character either `strip` of `Clean` removes. */
  predicate SpaceOrQuote(c: char) {
    IsSpace(c) || IsQuote(c)
  }

  /**
   * `field.strip().strip('"\'')`: whitespace, then the CSV quotes, removed
   * from both ends. What is left is one slice of the field with only
   * whitespace and quotes around it; `CleanUnique` shows that the two
   * trimming stages determine it.
   */
  function Clean(field: string): (c: string)
    ensures c == Strip(Strip(field, IsSpace), IsQuote)
    ensures exists i :: TrimmedAt(field, c, i, SpaceOrQuote)
    ensures forall ch :: ch in c ==> ch in field
    ensures |c| > 0 ==> !IsQuote(c[0]) && !IsQuote(c[|c| - 1])
  {
    CleanSlice(field);
    CleanKeeps(field);
    Strip(Strip(field, IsSpace), IsQuote)
  }

  /** The two trims together leave one slice of the field with only whitespace and quotes around it. */
  lemma CleanSlice(field: string)
    ensures exists i :: TrimmedAt(field, Strip(Strip(field, IsSpace), IsQuote), i, SpaceOrQuote)
  {
    var t := Strip(field, IsSpace);
    var c := Strip(t, IsQuote);
    var i :| TrimmedAt(field, t, i, IsSpace);
    var j :| TrimmedAt(t, c, j, IsQuote);
    TrimmedTwice(field, t, i, c, j, IsSpace, IsQuote, SpaceOrQuote);
  }

  /** Neither trim adds a character. */
  lemma CleanKeeps(field: string)
    ensures forall ch :: ch in Strip(Strip(field, IsSpace), IsQuote) ==> ch in field
  {
    var t := Strip(field, IsSpace);
    StripKeeps(field, IsSpace);
    StripKeeps(t, IsQuote);
  }

  /** The lines the timestamp loop converts: the non-blank ones, in order. */
  function DataLines(body: seq<string>): (d: seq<string>)
    ensures |d| <= |body|
    ensures forall k :: 0 <= k < |d| ==> !Blank(d[k]) && d[k] in body
    ensures forall i :: 0 <= i < |body| && !Blank(body[i]) ==> body[i] in d
    ensures |body| == 1 ==> d == (if Blank(body[0]) then [] else body)
  {
    if |body| == 0 then []
    else
      var rest := DataLines(body[1..]);
      assert forall i :: 1 <= i < |body| ==> body[i] == body[1..][i - 1];
      (if Blank(body[0]) then [] else [body[0]]) + rest
  }

  /** The filter works line by line: it keeps the order and the repetitions of the lines it keeps. */
  lemma {:induction false} DataLinesAppend(a: seq<string>, b: seq<string>)
    ensures DataLines(a + b) == DataLines(a) + DataLines(b)
  {
    if |a| == 0 {
      assert a + b == b;
    } else {
      assert (a + b)[1..] == a[1..] + b;
      DataLinesAppend(a[1..], b);
    }
  }

  /** Converts every line, and fails as a whole as soon as one line fails. */
  function ConvertAll(lines: seq<string>, conv: string -> Option<real>): (r: Option<seq<real>>)
    ensures r.Some? <==> forall i :: 0 <= i < |lines| ==> conv(lines[i]).Some?
    ensures r.Some? ==> |r.value| == |lines| && forall i :: 0 <= i < |lines| ==> Some(r.value[i]) == conv(lines[i])
  {
    if |lines| == 0 then Some([])
    else
      var rest := ConvertAll(lines[1..], conv);
      assert forall i :: 1 <= i < |lines| ==> lines[1..][i - 1] == lines[i];
      match conv(lines[0])
      case None => None
      case Some(t) => if rest.None? then None else Some([t] + rest.value)
  }

  /**
   * The timestamp column (lines 33-42): each non-blank line, cleaned and
   * converted. One line that does not convert raises ValueError, which
   * aborts the whole extraction.
   */
  function ParseTimestamps(body: seq<string>, toFloat: string -> Option<real>): (r: Option<seq<real>>)
    ensures r.Some? ==> |r.value| == |DataLines(body)|
  {
    ConvertAll(DataLines(body), l => toFloat(Clean(l)))
  }

  /**
   * The two cleaned fields of a row with a comma, as lines 130-135 take
   * them: the text before the first comma and the text between the first
   * and second commas, both required to be non-blank before cleaning.
   */
  function Fields(line: string): (f: Option<(string, string)>)
    ensures f.Some? ==> !Blank(line) && ',' in line
    ensures f.Some? ==> ',' !in f.value.0 && ',' !in f.value.1
  {
    if Blank(line) || ',' !in line then None
    else
      var parts := Split(Strip(line, IsSpace), ",");
      if |parts| >= 2 && !Blank(parts[0]) && !Blank(parts[1]) then
        NoSeparatorInPart(parts[0]);
        NoSeparatorInPart(parts[1]);
        Some((Clean(parts[0]), Clean(parts[1])))
      else None
  }

  /**
   * What `Fields` means: when the stripped line is the comma-separated
   * pieces `ps`, the fields are the first two pieces, cleaned, if neither
   * is blank.
   */
  lemma FieldsOfPieces(line: string, ps: seq<string>)
    requires |ps| >= 2 && forall i :: 0 <= i < |ps| ==> ',' !in ps[i]
    requires Strip(line, IsSpace) == Join(ps, ",")
    ensures Fields(line) == if !Blank(ps[0]) && !Blank(ps[1]) then Some((Clean(ps[0]), Clean(ps[1]))) else None
  {
    var t := Strip(line, IsSpace);
    var i :| TrimmedAt(line, t, i, IsSpace);
    assert t == ps[0] + "," + Join(ps[1..], ",");
    assert t[|ps[0]|] == ',';
    assert line[i + |ps[0]|] == ',';
    assert ',' in line;
    assert !IsSpace(',');
    SplitJoin(ps, ',');
  }

  /** A piece of a split on "," holds no comma. */
  lemma NoSeparatorInPart(p: string)
    requires !Contains(p, ",")
    ensures ',' !in p
  {
    if ',' in p {
      var k :| 0 <= k < |p| && p[k] == ',';
      assert OccursAt(p, ",", k);
    }
  }

  /** The `len(parts) >= 2` test never fails: a stripped line holding a comma splits in at least two. */
  lemma FieldsCountCheckRedundant(line: string)
    requires !Blank(line) && ',' in line
    ensures |Split(Strip(line, IsSpace), ",")| >= 2
  {
    var t := Strip(line, IsSpace);
    var j :| 0 <= j < |line| && line[j] == ',';
    assert ',' in t by {
      assert ',' in line && !IsSpace(',');
    }
    var k :| 0 <= k < |t| && t[k] == ',';
    assert OccursAt(t, ",", k);
    SplitAtLeastTwo(t, ",");
  }

  /**
   * What the loop body of lines 130-139 makes of one line: `None` when the
   * line is skipped before any conversion, otherwise the outcomes of
   * converting its time field and its value field.
   */
  function Outcome(line: string, toTime: string -> Option<real>, toValue: string -> Option<real>): Option<(Option<real>, Option<real>)> {
    match Fields(line)
    case None => None
    case Some(f) => Some((toTime(f.0), toValue(f.1)))
  }

  function Outcomes(body: seq<string>, toTime: string -> Option<real>, toValue: string -> Option<real>): (o: seq<Option<(Option<real>, Option<real>)>>)
    ensures |o| == |body|
    ensures forall i :: 0 <= i < |body| ==> o[i] == Outcome(body[i], toTime, toValue)
  {
    seq(|body|, i requires 0 <= i < |body| => Outcome(body[i], toTime, toValue))
  }

  /** A row both of whose fields converted. */
  predicate Complete(o: Option<(Option<real>, Option<real>)>) {
    o.Some? && o.value.0.Some? && o.value.1.Some?
  }

  /** A row whose time converted but whose value did not. */
  predicate Half(o: Option<(Option<real>, Option<real>)>) {
    o.Some? && o.value.0.Some? && o.value.1.None?
  }

  /**
   * The samples of the complete rows, in order: the two-column parse with
   * a row skipped as a whole when either field fails to convert.
   */
  function SamplesOf(outs: seq<Option<(Option<real>, Option<real>)>>): (r: seq<Sample>)
    ensures |r| <= |outs|
    ensures forall k :: 0 <= k < |r| ==> exists i :: 0 <= i < |outs| && outs[i] == Some((Some(r[k].time), Some(r[k].value)))
    ensures |r| == 0 <==> forall i :: 0 <= i < |outs| ==> !Complete(outs[i])
    ensures |outs| == 1 ==> r == (if Complete(outs[0]) then [Sample(outs[0].value.0.value, outs[0].value.1.value)] else [])
  {
    if |outs| == 0 then []
    else
      var rest := SamplesOf(outs[1..]);
      assert forall i :: 1 <= i < |outs| ==> outs[1..][i - 1] == outs[i];
      var o := outs[0];
      if Complete(o) then [Sample(o.value.0.value, o.value.1.value)] + rest else rest
  }

  /** Rows become samples one by one, in the order of the rows. */
  lemma {:induction false} SamplesOfAppend(a: seq<Option<(Option<real>, Option<real>)>>, b: seq<Option<(Option<real>, Option<real>)>>)
    ensures SamplesOf(a + b) == SamplesOf(a) + SamplesOf(b)
  {
    if |a| == 0 {
      assert a + b == b;
    } else {
      assert (a + b)[1..] == a[1..] + b;
      SamplesOfAppend(a[1..], b);
    }
  }

  /** The two-column parse of lines 128-139, with the row skipped as a whole when a field fails. */
  function ParseSamples(body: seq<string>, toTime: string -> Option<real>, toValue: string -> Option<real>): (r: seq<Sample>)
    ensures |r| <= |body|
    ensures |r| == 0 <==> forall i :: 0 <= i < |body| ==> !Complete(Outcome(body[i], toTime, toValue))
  {
    SamplesOf(Outcomes(body, toTime, toValue))
  }

  /** The samples of two blocks of lines are those of the first block followed by those of the second. */
  lemma ParseSamplesAppend(a: seq<string>, b: seq<string>, toTime: string -> Option<real>, toValue: string -> Option<real>)
    ensures ParseSamples(a + b, toTime, toValue) == ParseSamples(a, toTime, toValue) + ParseSamples(b, toTime, toValue)
  {
    var oa, ob, oab := Outcomes(a, toTime, toValue), Outcomes(b, toTime, toValue), Outcomes(a + b, toTime, toValue);
    forall i | 0 <= i < |oab|
      ensures oab[i] == (oa + ob)[i]
    {
      if i < |a| {
        assert (a + b)[i] == a[i];
      } else {
        assert (a + b)[i] == b[i - |a|];
      }
    }
    assert oab == oa + ob;
    SamplesOfAppend(oa, ob);
  }

  /** One line gives its sample when both fields convert, and nothing otherwise. */
  lemma ParseSamplesLine(line: string, toTime: string -> Option<real>, toValue: string -> Option<real>)
    ensures var o := Outcome(line, toTime, toValue);
      ParseSamples([line], toTime, toValue) == if Complete(o) then [Sample(o.value.0.value, o.value.1.value)] else []
  {
    assert |Outcomes([line], toTime, toValue)| == 1;
  }

  /** The two parallel lists the loop of lines 123-139 builds. */
  datatype Columns = Columns(times: seq<real>, values: seq<real>)

  /**
   * What one row adds to the two lists as the loop writes them: nothing
   * without a timestamp, the timestamp alone when the value fails (it is
   * appended before the value is converted), and both otherwise.
   */
  function RowColumns(o: Option<(Option<real>, Option<real>)>): (c: Columns)
    ensures |c.values| <= |c.times| <= 1
    ensures |c.times| == 1 <==> o.Some? && o.value.0.Some?
    ensures |c.times| == 1 ==> c.times[0] == o.value.0.value
    ensures |c.values| == 1 <==> Complete(o)
    ensures |c.values| == 1 ==> c.values[0] == o.value.1.value
  {
    if o.None? || o.value.0.None? then Columns([], [])
    else if o.value.1.None? then Columns([o.value.0.value], [])
    else Columns([o.value.0.value], [o.value.1.value])
  }

  /** The two lists as the loop writes them, row by row. */
  function AppendedAsWritten(outs: seq<Option<(Option<real>, Option<real>)>>): (c: Columns)
    ensures |c.values| <= |c.times| <= |outs|
    ensures |outs| == 1 ==> c == RowColumns(outs[0])
  {
    if |outs| == 0 then Columns([], [])
    else
      var first, rest := RowColumns(outs[0]), AppendedAsWritten(outs[1..]);
      assert rest.times + [] == rest.times && rest.values + [] == rest.values;
      Columns(first.times + rest.times, first.values + rest.values)
  }

  /** Both lists grow row by row, in the order of the rows. */
  lemma {:induction false} AppendedAsWrittenAppend(a: seq<Option<(Option<real>, Option<real>)>>, b: seq<Option<(Option<real>, Option<real>)>>)
    ensures AppendedAsWritten(a + b).times == AppendedAsWritten(a).times + AppendedAsWritten(b).times
    ensures AppendedAsWritten(a + b).values == AppendedAsWritten(a).values + AppendedAsWritten(b).values
  {
    if |a| == 0 {
      assert a + b == b;
    } else {
      var ab := a + b;
      assert ab[1..] == a[1..] + b;
      AppendedAsWrittenAppend(a[1..], b);
      var f, x, y := RowColumns(a[0]), AppendedAsWritten(a[1..]), AppendedAsWritten(b);
      assert f.times + (x.times + y.times) == (f.times + x.times) + y.times;
      assert f.values + (x.values + y.values) == (f.values + x.values) + y.values;
    }
  }

  function ParseColumnsAsWritten(body: seq<string>, toTime: string -> Option<real>, toValue: string -> Option<real>): (c: Columns)
    ensures |c.values| <= |c.times| <= |body|
  {
    AppendedAsWritten(Outcomes(body, toTime, toValue))
  }

  /** What lines 152-162 make of the two lists: no data, aligned samples, or an IndexError. */
  datatype Loaded = Loaded(samples: seq<Sample>) | IndexError

  /**
   * Either list empty gives empty arrays; otherwise `values[argsort(times)]`
   * indexes past the end of `values` whenever it is the shorter list.
   */
  function LoadAsWritten(c: Columns): (l: Loaded)
    ensures l.IndexError? <==> 0 < |c.times| && 0 < |c.values| && |c.values| != |c.times|
    ensures |c.times| == 0 || |c.values| == 0 ==> l == Loaded([])
    ensures l.Loaded? && |c.times| > 0 && |c.values| > 0 ==> Times(l.samples) == c.times && Values(l.samples) == c.values
  {
    if |c.times| == 0 || |c.values| == 0 then Loaded([])
    else if |c.times| != |c.values| then IndexError
    else Loaded(seq(|c.times|, i requires 0 <= i < |c.times| => Sample(c.times[i], c.values[i])))
  }

  /**
   * When every row is half-converted the loop keeps each timestamp and no
   * value, so lines 152-154 return empty arrays instead of raising.
   */
  lemma {:induction false} AllHalfNoData(outs: seq<Option<(Option<real>, Option<real>)>>)
    requires forall i :: 0 <= i < |outs| ==> Half(outs[i])
    ensures |AppendedAsWritten(outs).times| == |outs| && AppendedAsWritten(outs).values == []
    ensures LoadAsWritten(AppendedAsWritten(outs)) == Loaded([])
  {
    if |outs| > 0 {
      assert forall i :: 0 <= i < |outs| - 1 ==> outs[1..][i] == outs[i + 1];
      AllHalfNoData(outs[1..]);
    }
  }

  /** Without a half-converted row, the written loop and the corrected parse agree. */
  lemma AsWrittenAgrees(outs: seq<Option<(Option<real>, Option<real>)>>)
    requires forall i :: 0 <= i < |outs| ==> !Half(outs[i])
    ensures var c := AppendedAsWritten(outs);
      c.times == Times(SamplesOf(outs)) && c.values == Values(SamplesOf(outs))
  {
    AsWrittenTimes(outs);
    AsWrittenValues(outs);
  }

  lemma {:induction false} AsWrittenTimes(outs: seq<Option<(Option<real>, Option<real>)>>)
    requires forall i :: 0 <= i < |outs| ==> !Half(outs[i])
    ensures AppendedAsWritten(outs).times == Times(SamplesOf(outs))
  {
    if |outs| > 0 {
      assert forall i :: 0 <= i < |outs| - 1 ==> outs[1..][i] == outs[i + 1];
      AsWrittenTimes(outs[1..]);
      var rest := SamplesOf(outs[1..]);
      if Complete(outs[0]) {
        var x := Sample(outs[0].value.0.value, outs[0].value.1.value);
        TimesCons(x, rest);
      }
    }
  }

  lemma {:induction false} AsWrittenValues(outs: seq<Option<(Option<real>, Option<real>)>>)
    requires forall i :: 0 <= i < |outs| ==> !Half(outs[i])
    ensures AppendedAsWritten(outs).values == Values(SamplesOf(outs))
  {
    if |outs| > 0 {
      assert forall i :: 0 <= i < |outs| - 1 ==> outs[1..][i] == outs[i + 1];
      AsWrittenValues(outs[1..]);
      var rest := SamplesOf(outs[1..]);
      if Complete(outs[0]) {
        var x := Sample(outs[0].value.0.value, outs[0].value.1.value);
        ValuesCons(x, rest);
      }
    }
  }

  /** A half-converted row makes the written loop end in IndexError whenever some row is complete. */
  lemma {:induction false} HalfRowMisaligns(outs: seq<Option<(Option<real>, Option<real>)>>)
    requires exists i :: 0 <= i < |outs| && Half(outs[i])
    ensures var c := AppendedAsWritten(outs); |c.values| < |c.times|
  {
    var c := AppendedAsWritten(outs);
    var rest := AppendedAsWritten(outs[1..]);
    if Half(outs[0]) {
      assert |c.times| == |rest.times| + 1 && |c.values| == |rest.values|;
    } else {
      var i :| 0 <= i < |outs| && Half(outs[i]);
      assert outs[1..][i - 1] == outs[i];
      HalfRowMisaligns(outs[1..]);
    }
  }

  /**
   * A row whose value fails to convert, followed by a good row, crashes the
   * written loop, while the corrected parse keeps the good row: for example
   * the body `["1.0,x", "2.0,0.5"]` of an RTT extraction.
   */
  lemma HalfRowCrashes(t1: string, v1: string, t2: string, v2: string, toTime: string -> Option<real>, toValue: string -> Option<real>)
    requires Plain(t1) && Plain(v1) && Plain(t2) && Plain(v2)
    requires toTime(t1).Some? && toValue(v1).None?
    requires toTime(t2).Some? && toValue(v2).Some?
    ensures LoadAsWritten(ParseColumnsAsWritten([t1 + "," + v1, t2 + "," + v2], toTime, toValue)).IndexError?
    ensures ParseSamples([t1 + "," + v1, t2 + "," + v2], toTime, toValue) == [Sample(toTime(t2).value, toValue(v2).value)]
  {
    FieldsOfPlainRow(t1, v1);
    FieldsOfPlainRow(t2, v2);
    var outs := Outcomes([t1 + "," + v1, t2 + "," + v2], toTime, toValue);
    assert Half(outs[0]) && Complete(outs[1]);
    HalfThenComplete(outs);
  }

  /** The fields of the example rows are plain. */
  lemma ExampleFieldsArePlain()
    ensures Plain("1.0") && Plain("x") && Plain("2.0") && Plain("0.5")
  {
  }

  lemma HalfThenComplete(outs: seq<Option<(Option<real>, Option<real>)>>)
    requires |outs| == 2 && Half(outs[0]) && Complete(outs[1])
    ensures LoadAsWritten(AppendedAsWritten(outs)).IndexError?
    ensures SamplesOf(outs) == [Sample(outs[1].value.0.value, outs[1].value.1.value)]
  {
    assert outs[1..] == [outs[1]] && outs[1..][1..] == [];
  }

  /** A field with no whitespace, quote or comma in it. */
  predicate Plain(f: string) {
    f != [] && forall k :: 0 <= k < |f| ==> !IsSpace(f[k]) && !IsQuote(f[k]) && f[k] != ','
  }

  /** A row of two plain fields separated by a comma yields exactly those fields. */
  lemma FieldsOfPlainRow(a: string, b: string)
    requires Plain(a) && Plain(b)
    ensures Fields(a + "," + b) == Some((a, b))
  {
    PlainRowShape(a, b);
    PlainClean(a);
    PlainClean(b);
    SplitPlainRow(a, b);
  }

  lemma PlainRowShape(a: string, b: string)
    requires Plain(a) && Plain(b)
    ensures var line := a + "," + b;
      !Blank(line) && ',' in line && Strip(line, IsSpace) == line
  {
    var line := a + "," + b;
    assert line[0] == a[0] && line[|line| - 1] == b[|b| - 1];
    StripKeepsEnds(line, IsSpace);
    assert line[|a|] == ',';
  }

  lemma SplitPlainRow(a: string, b: string)
    requires ',' !in a && ',' !in b
    ensures Split(a + "," + b, ",") == [a, b]
  {
    assert Join([a, b], [',']) == a + "," + b by {
      assert [a, b][1..] == [b];
    }
    assert forall i :: 0 <= i < 2 ==> ',' !in [a, b][i];
    SplitJoin([a, b], ',');
  }

  /**
   * The two stages of `Clean` pin its result: if `ws` is what trimming
   * whitespace leaves of `field` (a slice with only whitespace around it,
   * non-space ends, empty only for an all-whitespace field) and `c` is what
   * trimming quotes leaves of `ws` in the same sense, then `c` is the
   * cleaned field.
   */
  lemma {:induction false} CleanUnique(field: string, ws: string, i: int, c: string, j: int)
    requires TrimmedAt(field, ws, i, IsSpace)
    requires ws != [] ==> !IsSpace(ws[0]) && !IsSpace(ws[|ws| - 1])
    requires ws == [] ==> forall k :: 0 <= k < |field| ==> IsSpace(field[k])
    requires TrimmedAt(ws, c, j, IsQuote)
    requires c != [] ==> !IsQuote(c[0]) && !IsQuote(c[|c| - 1])
    requires c == [] ==> forall k :: 0 <= k < |ws| ==> IsQuote(ws[k])
    ensures Clean(field) == c
  {
    StripUnique(field, ws, i, IsSpace);
    StripUnique(ws, c, j, IsQuote);
  }

  /** A quoted value with spaces around the quotes cleans to the bare value. */
  lemma QuotedFieldCleaned()
    ensures Clean(" \"1\" ") == "1"
  {
    CleanUnique(" \"1\" ", "\"1\"", 1, "1", 1);
  }

  /** Cleaning leaves a plain field as it is. */
  lemma PlainClean(f: string)
    requires Plain(f)
    ensures Clean(f) == f && ',' !in f && !Blank(f)
  {
    assert !IsSpace(f[0]);
    StripKeepsEnds(f, IsSpace);
    StripKeepsEnds(f, IsQuote);
  }

  // ---------------------------------------------------------------------------
  // The extractors

  /** Lines 16-30: the filter is built and tshark runs; `None` when building the filter raised. */
  function Invoke(tshark: Tshark, path: string, m: Metric, s: real): (run: Option<ToolRun>)
    ensures run.None? <==> s == 0.0
    ensures run.Some? ==> run.value == tshark(path, m, DisplayFilter(m, s).value)
  {
    match DisplayFilter(m, s)
    case None => None
    case Some(f) => Some(tshark(path, m, f))
  }

  /** tshark ran and exited with status 0. */
  predicate Succeeded(run: Option<ToolRun>) {
    run.Some? && run.value.ok
  }

  /** The lines after the header of a run's output. */
  function Rows(run: ToolRun): seq<string> {
    Body(Lines(run.stdout))
  }

  /** An RTT field: `float(text) * 1000`, seconds made milliseconds. */
  function Millis(toFloat: string -> Option<real>, text: string): (v: Option<real>)
    ensures v.Some? <==> toFloat(text).Some?
    ensures v.Some? ==> v.value / 1000.0 == toFloat(text).value
  {
    match toFloat(text)
    case None => None
    case Some(x) => Some(x * 1000.0)
  }

  /** A frame-length field: `int(text)`, so "1500.0" does not convert. */
  function Bytes(toInt: string -> Option<int>, text: string): (v: Option<real>)
    ensures v.Some? <==> toInt(text).Some?
    ensures v.Some? ==> v.value.Floor == toInt(text).value && v.value == v.value.Floor as real
  {
    match toInt(text)
    case None => None
    case Some(n) => Some(n as real)
  }

  /** The value converter each two-column extractor applies to its second field. */
  function ValueField(conv: Converters, m: Metric): string -> Option<real> {
    if m == Rtt then (t => Millis(conv.toFloat, t)) else (t => Bytes(conv.toInt, t))
  }

  /**
   * The timestamps of `calculate_tcp_packets_per_second`: `None` when the
   * filter raised, tshark failed, or a line did not convert.
   */
  function Timestamps(tshark: Tshark, conv: Converters, path: string, s: real): (r: Option<seq<real>>)
    ensures r.Some? <==> Succeeded(Invoke(tshark, path, PacketRate, s)) && ParseTimestamps(Rows(Invoke(tshark, path, PacketRate, s).value), conv.toFloat).Some?
    ensures r.Some? ==> |r.value| == |DataLines(Rows(Invoke(tshark, path, PacketRate, s).value))|
  {
    var run := Invoke(tshark, path, PacketRate, s);
    if !Succeeded(run) then None else ParseTimestamps(Rows(run.value), conv.toFloat)
  }

  /** Lines 6-93: `None` stands for `(None, None)`. */
  function ExtractPacketRate(tshark: Tshark, conv: Converters, path: string, w: real, s: real): (r: Option<Series<real>>)
    requires w > 0.0
    ensures r.Some? <==> Timestamps(tshark, conv, path, s).Some?
    ensures r.Some? ==> WellFormed(r.value)
    ensures r.Some? ==> (|r.value.times| == 0 <==> |DataLines(Rows(Invoke(tshark, path, PacketRate, s).value))| == 0)
  {
    match Timestamps(tshark, conv, path, s)
    case None => None
    case Some(ts) => Some(PacketRateSeries(ts, w, s))
  }

  /**
   * The samples of `calculate_tcp_rtt` (m = Rtt) or
   * `calculate_tcp_throughput` (m = Throughput), with a row skipped as a
   * whole when either field fails to convert.
   */
  function Samples(tshark: Tshark, conv: Converters, path: string, m: Metric, s: real): (r: Option<seq<Sample>>)
    ensures r.Some? <==> Succeeded(Invoke(tshark, path, m, s))
    ensures r.Some? ==> r.value == ParseSamples(Rows(Invoke(tshark, path, m, s).value), conv.toFloat, ValueField(conv, m))
  {
    var run := Invoke(tshark, path, m, s);
    if !Succeeded(run) then None else Some(ParseSamples(Rows(run.value), conv.toFloat, ValueField(conv, m)))
  }

  /** Lines 95-186 with the row parse corrected. */
  function ExtractRtt(tshark: Tshark, conv: Converters, path: string, w: real, s: real): (r: Option<Series<Float>>)
    requires w > 0.0
    ensures r.Some? <==> s != 0.0 && Invoke(tshark, path, Rtt, s).value.ok
    ensures r.Some? ==> WellFormed(r.value) && NoInf(r.value.values)
    ensures r.Some? ==> (|r.value.times| == 0 <==> forall i :: 0 <= i < |Rows(Invoke(tshark, path, Rtt, s).value)| ==>
      !Complete(Outcome(Rows(Invoke(tshark, path, Rtt, s).value)[i], conv.toFloat, ValueField(conv, Rtt))))
  {
    match Samples(tshark, conv, path, Rtt, s)
    case None => None
    case Some(xs) => Some(RttSeries(xs, w))
  }

  /** Lines 188-285 with the row parse corrected. */
  function ExtractThroughput(tshark: Tshark, conv: Converters, path: string, w: real, s: real): (r: Option<Series<real>>)
    requires w > 0.0
    ensures r.Some? <==> s != 0.0 && Invoke(tshark, path, Throughput, s).value.ok
    ensures r.Some? ==> WellFormed(r.value)
    ensures r.Some? ==> (|r.value.times| == 0 <==> forall i :: 0 <= i < |Rows(Invoke(tshark, path, Throughput, s).value)| ==>
      !Complete(Outcome(Rows(Invoke(tshark, path, Throughput, s).value)[i], conv.toFloat, ValueField(conv, Throughput))))
  {
    match Samples(tshark, conv, path, Throughput, s)
    case None => None
    case Some(xs) => Some(ThroughputSeries(xs, w, s))
  }

  /**
   * The samples as lines 123-162 build them: the two lists are filled row by
   * row, and the fancy indexing of line 162 (or 255) raises IndexError,
   * outside the handler, when they differ in length.
   */
  function SamplesAsWritten(tshark: Tshark, conv: Converters, path: string, m: Metric, s: real): (r: Completion<Option<seq<Sample>>>)
    ensures r.Raised? <==> (Succeeded(Invoke(tshark, path, m, s)) &&
      LoadAsWritten(ParseColumnsAsWritten(Rows(Invoke(tshark, path, m, s).value), conv.toFloat, ValueField(conv, m))).IndexError?)
    ensures r.Returned? ==> (r.value.Some? <==> Succeeded(Invoke(tshark, path, m, s)))
    ensures r.Returned? && r.value.Some? ==>
      r.value.value == LoadAsWritten(ParseColumnsAsWritten(Rows(Invoke(tshark, path, m, s).value), conv.toFloat, ValueField(conv, m))).samples
  {
    var run := Invoke(tshark, path, m, s);
    if !Succeeded(run) then Returned(None)
    else match LoadAsWritten(ParseColumnsAsWritten(Rows(run.value), conv.toFloat, ValueField(conv, m)))
      case IndexError => Raised("IndexError")
      case Loaded(xs) => Returned(Some(xs))
  }

  /** `calculate_tcp_rtt` as written. */
  function ExtractRttAsWritten(tshark: Tshark, conv: Converters, path: string, w: real, s: real): (r: Completion<Option<Series<Float>>>)
    requires w > 0.0
    ensures r.Raised? <==> SamplesAsWritten(tshark, conv, path, Rtt, s).Raised?
  {
    match SamplesAsWritten(tshark, conv, path, Rtt, s)
    case Raised(e) => Raised(e)
    case Returned(None) => Returned(None)
    case Returned(Some(xs)) => Returned(Some(RttSeries(xs, w)))
  }

  /** `calculate_tcp_throughput` as written. */
  function ExtractThroughputAsWritten(tshark: Tshark, conv: Converters, path: string, w: real, s: real): (r: Completion<Option<Series<real>>>)
    requires w > 0.0
    ensures r.Raised? <==> SamplesAsWritten(tshark, conv, path, Throughput, s).Raised?
  {
    match SamplesAsWritten(tshark, conv, path, Throughput, s)
    case Raised(e) => Raised(e)
    case Returned(None) => Returned(None)
    case Returned(Some(xs)) => Returned(Some(ThroughputSeries(xs, w, s)))
  }

  /** Zipping the two columns of a list of samples gives the list back. */
  lemma ZipColumns(xs: seq<Sample>)
    requires |xs| > 0
    ensures LoadAsWritten(Columns(Times(xs), Values(xs))) == Loaded(xs)
  {
  }

  /** Without a half-converted row, the written parse returns exactly the corrected samples. */
  lemma SamplesAsWrittenAgree(tshark: Tshark, conv: Converters, path: string, m: Metric, s: real)
    requires Succeeded(Invoke(tshark, path, m, s))
    requires forall i :: 0 <= i < |Rows(Invoke(tshark, path, m, s).value)| ==>
      !Half(Outcome(Rows(Invoke(tshark, path, m, s).value)[i], conv.toFloat, ValueField(conv, m)))
    ensures SamplesAsWritten(tshark, conv, path, m, s) == Returned(Samples(tshark, conv, path, m, s))
  {
    var body := Rows(Invoke(tshark, path, m, s).value);
    var outs := Outcomes(body, conv.toFloat, ValueField(conv, m));
    AsWrittenAgrees(outs);
    var xs := SamplesOf(outs);
    if |xs| > 0 {
      ZipColumns(xs);
    }
  }

  /** A complete row puts a value in the written value list. */
  lemma {:induction false} CompleteRowKeepsValue(outs: seq<Option<(Option<real>, Option<real>)>>)
    requires exists i :: 0 <= i < |outs| && Complete(outs[i])
    ensures |AppendedAsWritten(outs).values| > 0
  {
    if !Complete(outs[0]) {
      var i :| 0 <= i < |outs| && Complete(outs[i]);
      assert outs[1..][i - 1] == outs[i];
      CompleteRowKeepsValue(outs[1..]);
    }
  }

  /**
   * With a half-converted row and a complete row in the output, the written
   * extractors raise IndexError where the corrected ones return data.
   */
  lemma HalfRowRaises(tshark: Tshark, conv: Converters, path: string, m: Metric, s: real)
    requires Succeeded(Invoke(tshark, path, m, s))
    requires exists i :: (0 <= i < |Rows(Invoke(tshark, path, m, s).value)| &&
      Half(Outcome(Rows(Invoke(tshark, path, m, s).value)[i], conv.toFloat, ValueField(conv, m))))
    requires exists i :: (0 <= i < |Rows(Invoke(tshark, path, m, s).value)| &&
      Complete(Outcome(Rows(Invoke(tshark, path, m, s).value)[i], conv.toFloat, ValueField(conv, m))))
    ensures SamplesAsWritten(tshark, conv, path, m, s).Raised?
    ensures |Samples(tshark, conv, path, m, s).value| > 0
  {
    var body := Rows(Invoke(tshark, path, m, s).value);
    var outs := Outcomes(body, conv.toFloat, ValueField(conv, m));
    HalfRowMisaligns(outs);
    CompleteRowKeepsValue(outs);
  }

  /**
   * End to end: when the timestamps span some time, the packet rates times
   * the interval and the sampled share add up to the number of data lines.
   */
  lemma PacketRateCountsLines(tshark: Tshark, conv: Converters, path: string, w: real, s: real)
    requires w > 0.0 && Timestamps(tshark, conv, path, s).Some?
    requires |Timestamps(tshark, conv, path, s).value| > 0
    requires Min(Timestamps(tshark, conv, path, s).value) < Max(Timestamps(tshark, conv, path, s).value)
    ensures Sum(Scaled(ExtractPacketRate(tshark, conv, path, w, s).value.values, w * Factor(s))) ==
      |DataLines(Rows(Invoke(tshark, path, PacketRate, s).value))| as real
  {
    PacketRateConservation(Timestamps(tshark, conv, path, s).value, w, s);
  }

  /** End to end: when every timestamp is the same, one bin holds the number of data lines. */
  lemma PacketRateSingleBin(tshark: Tshark, conv: Converters, path: string, w: real, s: real)
    requires w > 0.0 && Timestamps(tshark, conv, path, s).Some?
    requires |Timestamps(tshark, conv, path, s).value| > 0
    requires Min(Timestamps(tshark, conv, path, s).value) == Max(Timestamps(tshark, conv, path, s).value)
    ensures ExtractPacketRate(tshark, conv, path, w, s).value ==
      Series([0.0], [|DataLines(Rows(Invoke(tshark, path, PacketRate, s).value))| as real])
  {
    PacketRateDegenerate(Timestamps(tshark, conv, path, s).value, w, s);
  }
}

=== FILE: paths.dfy ===
/** The two POSIX path operations the program uses: `os.path.basename` and `os.path.join`. */
module Paths {

  /** Index just past the last '/' in `p`, or 0 when there is none (`p.rfind('/') + 1`). */
  function NameStart(p: string): (i: nat)
    ensures i <= |p|
    ensures i > 0 ==> p[i - 1] == '/'
    ensures forall k :: i <= k < |p| ==> p[k] != '/'
  {
    if |p| == 0 then 0
    else if p[|p| - 1] == '/' then |p|
    else NameStart(p[..|p| - 1])
  }

  /** `os.path.basename(p)`: everything after the last '/'. */
  function Basename(p: string): (b: string)
    ensures '/' !in b
    ensures |b| <= |p| && b == p[|p| - |b|..]
    ensures |b| < |p| ==> p[|p| - |b| - 1] == '/'
  {
    var i := NameStart(p);
    assert forall c :: c in p[i..] ==> c != '/';
    p[i..]
  }

  /** `os.path.join(dir, name)` */
  function Join(dir: string, name: string): string {
    if |name| > 0 && name[0] == '/' then name
    else if |dir| == 0 || dir[|dir| - 1] == '/' then dir + name
    else dir + "/" + name
  }

  /** The base name of a joined path is the name that was joined, when it holds no '/'. */
  lemma BasenameOfJoin(dir: string, name: string)
    requires '/' !in name
    ensures Basename(Join(dir, name)) == name
  {
    var p := Join(dir, name);
    assert p == (if |dir| == 0 || dir[|dir| - 1] == '/' then dir else dir + "/") + name;
    NameStartAfter(if |dir| == 0 || dir[|dir| - 1] == '/' then dir else dir + "/", name);
  }

  lemma {:induction false} NameStartAfter(prefix: string, name: string)
    requires '/' !in name
    requires |prefix| == 0 || prefix[|prefix| - 1] == '/'
    ensures NameStart(prefix + name) == |prefix|
    decreases |name|
  {
    if |name| > 0 {
      assert (prefix + name)[..|prefix + name| - 1] == prefix + name[..|name| - 1];
      NameStartAfter(prefix, name[..|name| - 1]);
    } else {
      assert prefix + name == prefix;
      if |prefix| > 0 {
        assert NameStart(prefix) == |prefix|;
      }
    }
  }
}

=== FILE: plotting.dfy ===
/**
 * The pure transforms of `pcap_analyzer/plotting.py`: time normalised to a
 * percentage of the duration, the floor that makes values drawable on a log
 * axis, the removal of "TCP " from labels, line-style cycling, when the
 * combined figure is drawn and whose names its legend shows. Drawing itself
 * is left out.
 */
module Plotting {
  import opened Floats
  import opened Text
  import opened Metrics
  import opened Analysis
  import Utils

  // ---------------------------------------------------------------------------
  // Normalised time

  /** `info['times'] / info['duration'] * 100` (lines 75, 126 and 277), element by element. */
  function Normalized(times: seq<real>, duration: real): (p: seq<Float>)
    ensures |p| == |times|
    ensures duration != 0.0 ==> forall k :: 0 <= k < |p| ==> p[k].Num? && p[k].r * duration == times[k] * 100.0
    ensures duration == 0.0 ==> forall k :: 0 <= k < |p| ==> (p[k].NaN? <==> times[k] == 0.0) && (times[k] != 0.0 ==> p[k].Inf?)
  {
    seq(|times|, k requires 0 <= k < |times| => Scale(Div(times[k], duration), 100.0))
  }

  /**
   * With the duration the last offset, as every table has it, the last
   * point is drawn at 100 % and a point at offset 0 at 0 %.
   */
  lemma NormalizedEnds(times: seq<real>, duration: real)
    requires |times| > 0 && duration == times[|times| - 1] && duration > 0.0
    ensures Normalized(times, duration)[|times| - 1] == Num(100.0)
    ensures forall k :: 0 <= k < |times| && times[k] == 0.0 ==> Normalized(times, duration)[k] == Num(0.0)
  {
    var p := Normalized(times, duration);
    PercentWithin(p[|times| - 1].r, duration, duration);
  }

  /** Every offset between 0 and the duration is drawn within the 0-100 range of the axis. */
  lemma NormalizedWithin(times: seq<real>, duration: real)
    requires duration > 0.0
    ensures forall k :: 0 <= k < |times| && 0.0 <= times[k] <= duration ==>
      Normalized(times, duration)[k].Num? && 0.0 <= Normalized(times, duration)[k].r <= 100.0
  {
    var p := Normalized(times, duration);
    forall k | 0 <= k < |times| && 0.0 <= times[k] <= duration
      ensures 0.0 <= p[k].r <= 100.0
    {
      PercentWithin(p[k].r, times[k], duration);
    }
  }

  lemma PercentWithin(x: real, t: real, d: real)
    requires d > 0.0 && 0.0 <= t <= d && x * d == t * 100.0
    ensures 0.0 <= x <= 100.0
    ensures t == d ==> x == 100.0
  {
    assert x * d >= 0.0;
    assert x * d <= 100.0 * d;
    if t == d {
      assert (x - 100.0) * d == 0.0;
    }
  }

  /** Later offsets are drawn further right: normalising keeps the order of the times. */
  lemma NormalizedOrder(times: seq<real>, duration: real, i: int, j: int)
    requires duration > 0.0 && 0 <= i < |times| && 0 <= j < |times| && times[i] <= times[j]
    ensures Normalized(times, duration)[i].r <= Normalized(times, duration)[j].r
  {
    var p := Normalized(times, duration);
    if p[i].r > p[j].r {
      assert (p[i].r - p[j].r) * duration > 0.0;
    }
  }

  /** A table row's last point is drawn at 100 % whenever its duration is positive. */
  lemma RateRowEndsAtHundred(results: seq<Entry<FileResults>>, w: real, k: int)
    requires AllSound(results) && 0 <= k < |PrepareRates(results, w)|
    requires PrepareRates(results, w)[k].val.duration > 0.0
    ensures var row := PrepareRates(results, w)[k].val;
      Normalized(row.times, row.duration)[|row.times| - 1] == Num(100.0)
  {
    var row := PrepareRates(results, w)[k].val;
    NormalizedEnds(row.times, row.duration);
  }

  // ---------------------------------------------------------------------------
  // The log view

  /** Finite values as floats. */
  function Lift(xs: seq<real>): (r: seq<Float>)
    ensures |r| == |xs|
    ensures forall k :: 0 <= k < |xs| ==> r[k] == Num(xs[k])
  {
    seq(|xs|, k requires 0 <= k < |xs| => Num(xs[k]))
  }

  /** The value a log axis is given instead of one at or below zero (line 130). */
  const LogFloorValue: real := 0.01

  /**
   * `values[values <= 0] = 0.01` on a copy (lines 129-130): every value at
   * or below zero becomes 0.01 and every other value, NaN included, stays.
   */
  function LogFloor(values: seq<Float>): (r: seq<Float>)
    ensures |r| == |values|
    ensures forall k :: 0 <= k < |r| ==> !AtMostZero(r[k])
    ensures forall k :: 0 <= k < |r| && !AtMostZero(values[k]) ==> r[k] == values[k]
    ensures forall k :: 0 <= k < |r| && AtMostZero(values[k]) ==> r[k] == Num(LogFloorValue)
  {
    seq(|values|, k requires 0 <= k < |values| => if AtMostZero(values[k]) then Num(LogFloorValue) else values[k])
  }

  /** Flooring twice is flooring once: what is already drawable is left alone. */
  lemma LogFloorIdempotent(values: seq<Float>)
    ensures LogFloor(LogFloor(values)) == LogFloor(values)
  {
  }

  /** Positive finite values reach the log axis unchanged. */
  lemma LogFloorKeepsPositive(xs: seq<real>)
    requires forall k :: 0 <= k < |xs| ==> xs[k] > 0.0
    ensures LogFloor(Lift(xs)) == Lift(xs)
  {
  }

  // ---------------------------------------------------------------------------
  // Labels

  const Tcp: string := "TCP "

  /** `label.replace("TCP ", "")` (lines 14-15, 65-66 and 115-117). */
  function StripTcp(caption: string): (r: string)
    ensures |r| + (|Split(caption, Tcp)| - 1) * |Tcp| == |caption|
    ensures !Contains(caption, Tcp) ==> r == caption
  {
    RemoveAll(caption, Tcp)
  }

  /** Every label the program passes starts with "TCP " once: the prefix is all that goes. */
  lemma StripLeadingTcp(rest: string)
    requires !Contains(rest, Tcp)
    ensures StripTcp(Tcp + rest) == rest
  {
    var s := Tcp + rest;
    assert s[..|Tcp|] == Tcp && s[|Tcp|..] == rest;
    SplitOnePiece(rest, Tcp);
    assert Split(s, Tcp) == [[]] + [rest];
    assert Concat([[], rest]) == [] + Concat([rest]);
    assert Concat([rest]) == rest + Concat([]);
  }

  // ---------------------------------------------------------------------------
  // Line styles

  /** A matplotlib line style: named, or a dash pattern with its offset. */
  datatype LineStyle = Solid | Dashed | DashDot | Dotted | Dashes(offset: nat, onOff: seq<nat>)

  /** `STYLES` (`pcap_analyzer/utils.py`, line 17). */
  const Styles: seq<LineStyle> := [Solid, Dashed, DashDot, Dotted, Dashes(0, [3, 1, 1, 1]), Dashes(0, [5, 1])]

  /** `STYLES[i % len(STYLES)]` (lines 24, 72, 123 and 274). */
  function Style(i: nat): (st: LineStyle)
    ensures st in Styles
  {
    Styles[i % |Styles|]
  }

  /** The styles repeat after six files. */
  lemma StyleCycles(i: nat)
    ensures Style(i + |Styles|) == Style(i)
  {
  }

  /** Six files in a row are drawn in six different styles. */
  lemma StylesDiffer(i: nat, j: nat)
    requires i < j < i + |Styles|
    ensures Style(i) != Style(j)
  {
    var a := i % 6;
    var b := j % 6;
    assert a != b;
  }

  // ---------------------------------------------------------------------------
  // The combined figure

  /** Line 244: the combined figure needs all three tables to be non-empty. */
  predicate CombinedReady(rates: seq<Entry<RateInfo>>, rtts: seq<Entry<RttInfo>>, throughputs: seq<Entry<ThroughputInfo>>) {
    |rates| > 0 && |rtts| > 0 && |throughputs| > 0
  }

  /**
   * The combined figure is drawn exactly when some file has packet-rate
   * data, some file has an RTT bin that is not NaN, and some file has
   * throughput data; they need not be the same file.
   */
  lemma CombinedIff(results: seq<Entry<FileResults>>, w: real)
    requires AllSound(results)
    ensures CombinedReady(PrepareRates(results, w), PrepareRtts(results), PrepareThroughputs(results, w)) <==>
      && (exists i :: 0 <= i < |results| && HasData(results[i].val, PacketRate))
      && (exists i :: 0 <= i < |results| && Usable(results[i].val, Rtt))
      && (exists i :: 0 <= i < |results| && HasData(results[i].val, Throughput))
  {
  }

  /**
   * The legend of the combined figure (lines 284-285): one entry per row
   * of the packet-rate table, named by `clean_filename`.
   */
  function LegendLabels(rates: seq<Entry<RateInfo>>): (labels: seq<string>)
    ensures |labels| == |rates|
    ensures forall k :: 0 <= k < |rates| ==> labels[k] == Utils.CleanFilename(rates[k].name)
  {
    seq(|rates|, k requires 0 <= k < |rates| => Utils.CleanFilename(rates[k].name))
  }

  /**
   * The legend names exactly the files with packet-rate data: a file that
   * has only RTT or throughput data is drawn but gets no entry.
   */
  lemma LegendFromRates(results: seq<Entry<FileResults>>, w: real)
    requires AllSound(results)
    ensures |LegendLabels(PrepareRates(results, w))| == |Kept(results, PacketRate)|
    ensures forall k :: 0 <= k < |Kept(results, PacketRate)| ==>
      LegendLabels(PrepareRates(results, w))[k] == Utils.CleanFilename(Kept(results, PacketRate)[k].name)
    ensures forall k :: 0 <= k < |LegendLabels(PrepareRates(results, w))| ==>
      exists i :: 0 <= i < |results| && HasData(results[i].val, PacketRate) &&
        LegendLabels(PrepareRates(results, w))[k] == Utils.CleanFilename(results[i].name)
  {
    var labels := LegendLabels(PrepareRates(results, w));
    var d := Kept(results, PacketRate);
    forall k | 0 <= k < |labels|
      ensures exists i :: 0 <= i < |results| && HasData(results[i].val, PacketRate) && labels[k] == Utils.CleanFilename(results[i].name)
    {
      assert d[k] in results;
      var i :| 0 <= i < |results| && results[i] == d[k];
      assert HasData(results[i].val, PacketRate);
    }
  }
}

=== FILE: sequences.dfy ===
/**
 * Sums over sequences of reals, and `Tally`, the accumulate-into-bins step
 * shared by numpy's histogram and by the per-bin list comprehensions over
 * `np.digitize`.
 */
module Sequences {

  /** Sum of a sequence, accumulated front to back. */
  function Sum(s: seq<real>): real {
    if |s| == 0 then 0.0 else Sum(s[..|s| - 1]) + s[|s| - 1]
  }

  function Zeros(m: nat): (z: seq<real>)
    ensures |z| == m
    ensures forall j :: 0 <= j < m ==> z[j] == 0.0
  {
    seq(m, j => 0.0)
  }

  lemma SumAppend(s: seq<real>, x: real)
    ensures Sum(s + [x]) == Sum(s) + x
  {
    assert (s + [x])[..|s|] == s;
  }

  lemma {:induction false} SumZeros(m: nat)
    ensures Sum(Zeros(m)) == 0.0
  {
    if m > 0 {
      assert Zeros(m)[..m - 1] == Zeros(m - 1);
      SumZeros(m - 1);
    }
  }

  /** Adding `d` to one slot adds `d` to the sum. */
  lemma {:induction false} SumUpdate(a: seq<real>, i: int, d: real)
    requires 0 <= i < |a|
    ensures Sum(a[i := a[i] + d]) == Sum(a) + d
  {
    var b := a[i := a[i] + d];
    if i == |a| - 1 {
      assert b[..|b| - 1] == a[..|a| - 1];
    } else {
      assert b[..|b| - 1] == a[..|a| - 1][i := a[i] + d];
      SumUpdate(a[..|a| - 1], i, d);
    }
  }

  /** Multiplying every element by `c` multiplies the sum by `c`. */
  lemma {:induction false} SumScaled(a: seq<real>, b: seq<real>, c: real)
    requires |a| == |b|
    requires forall i :: 0 <= i < |a| ==> b[i] == a[i] * c
    ensures Sum(b) == Sum(a) * c
  {
    if |a| > 0 {
      SumScaled(a[..|a| - 1], b[..|b| - 1], c);
    }
  }

  /** Every element multiplied by `k`. */
  function Scaled(v: seq<real>, k: real): (r: seq<real>)
    ensures |r| == |v|
  {
    seq(|v|, j requires 0 <= j < |v| => v[j] * k)
  }

  /** Scaling every element scales the sum. */
  lemma SumOfScaled(v: seq<real>, k: real)
    ensures Sum(Scaled(v, k)) == Sum(v) * k
  {
    SumScaled(v, Scaled(v, k), k);
  }

  /** Elementwise equal sums give equal totals. */
  lemma {:induction false} SumPointwise(a: seq<real>, b: seq<real>)
    requires |a| == |b|
    requires forall i :: 0 <= i < |a| ==> a[i] == b[i]
    ensures Sum(a) == Sum(b)
  {
    assert a == b;
  }

  /** A sum of elements within [lo, hi] lies within [n*lo, n*hi]. */
  lemma {:induction false} SumBounds(s: seq<real>, lo: real, hi: real)
    requires forall i :: 0 <= i < |s| ==> lo <= s[i] <= hi
    ensures |s| as real * lo <= Sum(s) <= |s| as real * hi
  {
    if |s| > 0 {
      SumBounds(s[..|s| - 1], lo, hi);
      assert s[|s| - 1] == s[|s| - 1];
    }
  }

  /**
   * Accumulates `weight(x)` into slot `key(x)` for every element whose key
   * falls in [0, m); elements with any other key are dropped.
   */
  function Tally<T>(s: seq<T>, key: T -> int, weight: T -> real, m: nat): (r: seq<real>)
    ensures |r| == m
  {
    if |s| == 0 then Zeros(m)
    else
      var prev := Tally(s[..|s| - 1], key, weight, m);
      var x := s[|s| - 1];
      if 0 <= key(x) < m then prev[key(x) := prev[key(x)] + weight(x)] else prev
  }

  /** The unit weight: tallying it counts. */
  function One<T>(x: T): real {
    1.0
  }

  /** Reference reading of a range of slots: the total weight of the elements whose key is in [lo, hi). */
  function WeightBetween<T>(s: seq<T>, key: T -> int, weight: T -> real, lo: int, hi: int): real {
    if |s| == 0 then 0.0
    else
      var x := s[|s| - 1];
      WeightBetween(s[..|s| - 1], key, weight, lo, hi) + (if lo <= key(x) < hi then weight(x) else 0.0)
  }

  /** The number of elements whose key is in [lo, hi). */
  function CountBetween<T>(s: seq<T>, key: T -> int, lo: int, hi: int): nat {
    if |s| == 0 then 0
    else CountBetween(s[..|s| - 1], key, lo, hi) + (if lo <= key(s[|s| - 1]) < hi then 1 else 0)
  }

  /** Tallying the unit weight counts: every slot holds the number of elements keyed to it. */
  lemma CountingTally<T>(s: seq<T>, key: T -> int, m: nat)
    ensures forall j :: 0 <= j < m ==> Tally(s, key, One, m)[j] == CountBetween(s, key, j, j + 1) as real
  {
    forall j | 0 <= j < m
      ensures Tally(s, key, One, m)[j] == CountBetween(s, key, j, j + 1) as real
    {
      TallySlot(s, key, One, m, j);
      UnitWeight(s, key, One, j, j + 1);
    }
  }

  /** Every slot of the tally holds the total weight of exactly the elements keyed to it. */
  lemma {:induction false} TallySlot<T>(s: seq<T>, key: T -> int, weight: T -> real, m: nat, j: int)
    requires 0 <= j < m
    ensures Tally(s, key, weight, m)[j] == WeightBetween(s, key, weight, j, j + 1)
  {
    if |s| > 0 {
      TallySlot(s[..|s| - 1], key, weight, m, j);
    }
  }

  /** Conservation: the slots add up to the weight of every element keyed into range. */
  lemma {:induction false} TallyTotal<T>(s: seq<T>, key: T -> int, weight: T -> real, m: nat)
    ensures Sum(Tally(s, key, weight, m)) == WeightBetween(s, key, weight, 0, m)
  {
    if |s| == 0 {
      SumZeros(m);
    } else {
      TallyTotal(s[..|s| - 1], key, weight, m);
      var prev := Tally(s[..|s| - 1], key, weight, m);
      var x := s[|s| - 1];
      if 0 <= key(x) < m {
        SumUpdate(prev, key(x), weight(x));
      }
    }
  }

  /** With unit weights the weight of a key range is its element count. */
  lemma {:induction false} UnitWeight<T>(s: seq<T>, key: T -> int, weight: T -> real, lo: int, hi: int)
    requires forall x :: weight(x) == 1.0
    ensures WeightBetween(s, key, weight, lo, hi) == CountBetween(s, key, lo, hi) as real
  {
    if |s| > 0 {
      UnitWeight(s[..|s| - 1], key, weight, lo, hi);
    }
  }

  /** When every key is in range, every element is counted. */
  lemma {:induction false} CountBetweenAll<T>(s: seq<T>, key: T -> int, lo: int, hi: int)
    requires forall i :: 0 <= i < |s| ==> lo <= key(s[i]) < hi
    ensures CountBetween(s, key, lo, hi) == |s|
  {
    if |s| > 0 {
      CountBetweenAll(s[..|s| - 1], key, lo, hi);
    }
  }

  /** A key range with no elements carries no weight. */
  lemma {:induction false} EmptyRangeWeight<T>(s: seq<T>, key: T -> int, weight: T -> real, lo: int, hi: int)
    requires CountBetween(s, key, lo, hi) == 0
    ensures WeightBetween(s, key, weight, lo, hi) == 0.0
  {
    if |s| > 0 {
      EmptyRangeWeight(s[..|s| - 1], key, weight, lo, hi);
    }
  }

  /** A key range counts zero exactly when no element is keyed into it. */
  lemma {:induction false} CountBetweenZero<T>(s: seq<T>, key: T -> int, lo: int, hi: int)
    ensures CountBetween(s, key, lo, hi) == 0 <==> forall i :: 0 <= i < |s| ==> !(lo <= key(s[i]) < hi)
  {
    if |s| > 0 {
      CountBetweenZero(s[..|s| - 1], key, lo, hi);
      assert forall i :: 0 <= i < |s| - 1 ==> s[..|s| - 1][i] == s[i];
    }
  }

  /** The weights of the elements keyed to slot j, in their original order. */
  function Select<T>(s: seq<T>, key: T -> int, weight: T -> real, j: int): (r: seq<real>)
    ensures |r| == CountBetween(s, key, j, j + 1)
    ensures Sum(r) == WeightBetween(s, key, weight, j, j + 1)
  {
    if |s| == 0 then []
    else
      var prev := Select(s[..|s| - 1], key, weight, j);
      var x := s[|s| - 1];
      if key(x) == j then
        assert (prev + [weight(x)])[..|prev|] == prev;
        prev + [weight(x)]
      else prev
  }
}

=== FILE: sorting.dfy ===
/**
 * Sorting by a real-valued key. Both `ndarray.sort()` (timestamps) and the
 * `np.argsort` reordering of (timestamp, value) pairs are modelled by one
 * stable insertion sort; which of several equal-key elements comes first never
 * changes a bin's count, sum or mean.
 */
module Sorting {
  import opened Sequences

  /** The key that sorts reals by their own value. */
  function RealKey(x: real): real {
    x
  }

  ghost predicate SortedBy<T>(s: seq<T>, key: T -> real) {
    forall i, j :: 0 <= i < j < |s| ==> key(s[i]) <= key(s[j])
  }

  function Insert<T>(x: T, s: seq<T>, key: T -> real): (r: seq<T>)
    ensures multiset(r) == multiset(s) + multiset{x}
    ensures |r| == |s| + 1
  {
    if |s| == 0 then [x]
    else if key(x) <= key(s[0]) then [x] + s
    else
      assert s == [s[0]] + s[1..];
      [s[0]] + Insert(x, s[1..], key)
  }

  lemma {:induction false} InsertSorted<T>(x: T, s: seq<T>, key: T -> real)
    requires SortedBy(s, key)
    ensures SortedBy(Insert(x, s, key), key)
  {
    if |s| > 0 && key(x) > key(s[0]) {
      var rest := Insert(x, s[1..], key);
      InsertSorted(x, s[1..], key);
      forall k | 0 <= k < |rest|
        ensures key(s[0]) <= key(rest[k])
      {
        assert rest[k] in multiset(rest);
        if rest[k] != x {
          assert rest[k] in multiset(s[1..]);
          var i :| 0 <= i < |s[1..]| && s[1..][i] == rest[k];
          assert s[i + 1] == rest[k];
        }
      }
      var r := [s[0]] + rest;
      forall i, j | 0 <= i < j < |r|
        ensures key(r[i]) <= key(r[j])
      {
        if i > 0 {
          assert r[i] == rest[i - 1] && r[j] == rest[j - 1];
        } else {
          assert r[j] == rest[j - 1];
        }
      }
    }
  }

  /** A permutation of `s` in ascending key order. */
  function Sort<T>(s: seq<T>, key: T -> real): (r: seq<T>)
    ensures SortedBy(r, key)
    ensures multiset(r) == multiset(s)
    ensures |r| == |s|
  {
    if |s| == 0 then []
    else
      assert s == [s[0]] + s[1..];
      var rest := Sort(s[1..], key);
      InsertSorted(s[0], rest, key);
      Insert(s[0], rest, key)
  }

  /** After sorting, the first element has the least key and the last the greatest. */
  lemma SortedEnds<T>(s: seq<T>, key: T -> real)
    requires |s| > 0
    ensures forall i :: 0 <= i < |s| ==> key(Sort(s, key)[0]) <= key(s[i]) <= key(Sort(s, key)[|s| - 1])
  {
    var r := Sort(s, key);
    forall i | 0 <= i < |s|
      ensures key(r[0]) <= key(s[i]) <= key(r[|r| - 1])
    {
      ElementOfSorted(r, key, s[i], multiset(s));
    }
  }

  lemma ElementOfSorted<T>(r: seq<T>, key: T -> real, y: T, m: multiset<T>)
    requires SortedBy(r, key) && multiset(r) == m && y in m
    ensures |r| > 0 && key(r[0]) <= key(y) <= key(r[|r| - 1])
  {
    assert y in multiset(r);
    var k :| 0 <= k < |r| && r[k] == y;
    if k > 0 { assert key(r[0]) <= key(r[k]); }
    if k < |r| - 1 { assert key(r[k]) <= key(r[|r| - 1]); }
  }

  /** The elements of a sorted sequence lie between its first and last keys. */
  lemma SortedWithin<T>(r: seq<T>, key: T -> real)
    requires |r| > 0 && SortedBy(r, key)
    ensures forall i :: 0 <= i < |r| ==> key(r[0]) <= key(r[i]) <= key(r[|r| - 1])
  {
  }

  lemma {:induction false} WeightConcat<T>(a: seq<T>, b: seq<T>, key: T -> int, weight: T -> real, lo: int, hi: int)
    ensures WeightBetween(a + b, key, weight, lo, hi) == WeightBetween(a, key, weight, lo, hi) + WeightBetween(b, key, weight, lo, hi)
  {
    if |b| > 0 {
      assert (a + b)[..|a + b| - 1] == a + b[..|b| - 1];
      WeightConcat(a, b[..|b| - 1], key, weight, lo, hi);
    } else {
      assert a + b == a;
    }
  }

  /** Removing the matching element from both sides of a permutation leaves a permutation. */
  lemma RemoveMatching<T>(a: seq<T>, b: seq<T>, i: int)
    requires multiset(a) == multiset(b) && |a| > 0
    requires 0 <= i < |b| && b[i] == a[|a| - 1]
    ensures multiset(b[..i] + b[i + 1..]) == multiset(a[..|a| - 1])
  {
    var x, pre, post, init := a[|a| - 1], b[..i], b[i + 1..], a[..|a| - 1];
    assert b == pre + [x] + post;
    assert a == init + [x];
    assert multiset(pre + post) == multiset(pre) + multiset(post);
    assert multiset(pre + post) == multiset(b) - multiset{x};
    assert multiset(init) == multiset(a) - multiset{x};
  }

  /** The weight of a key range depends only on which elements there are, not on their order. */
  lemma {:induction false} WeightPermutation<T>(a: seq<T>, b: seq<T>, key: T -> int, weight: T -> real, lo: int, hi: int)
    requires multiset(a) == multiset(b)
    ensures WeightBetween(a, key, weight, lo, hi) == WeightBetween(b, key, weight, lo, hi)
    decreases |a|
  {
    if |a| > 0 {
      var x := a[|a| - 1];
      assert x in multiset(a);
      var i :| 0 <= i < |b| && b[i] == x;
      RemoveMatching(a, b, i);
      WeightPermutation(a[..|a| - 1], b[..i] + b[i + 1..], key, weight, lo, hi);
      WeightConcat(b[..i], [x] + b[i + 1..], key, weight, lo, hi);
      WeightConcat([x], b[i + 1..], key, weight, lo, hi);
      WeightConcat(b[..i], b[i + 1..], key, weight, lo, hi);
      assert b[..i] + ([x] + b[i + 1..]) == b;
    }
  }

  lemma {:induction false} CountConcat<T>(a: seq<T>, b: seq<T>, key: T -> int, lo: int, hi: int)
    ensures CountBetween(a + b, key, lo, hi) == CountBetween(a, key, lo, hi) + CountBetween(b, key, lo, hi)
  {
    if |b| > 0 {
      assert (a + b)[..|a + b| - 1] == a + b[..|b| - 1];
      CountConcat(a, b[..|b| - 1], key, lo, hi);
    } else {
      assert a + b == a;
    }
  }

  /** The count of a key range depends only on which elements there are. */
  lemma {:induction false} CountPermutation<T>(a: seq<T>, b: seq<T>, key: T -> int, lo: int, hi: int)
    requires multiset(a) == multiset(b)
    ensures CountBetween(a, key, lo, hi) == CountBetween(b, key, lo, hi)
    decreases |a|
  {
    if |a| > 0 {
      var x := a[|a| - 1];
      assert x in multiset(a);
      var i :| 0 <= i < |b| && b[i] == x;
      RemoveMatching(a, b, i);
      CountPermutation(a[..|a| - 1], b[..i] + b[i + 1..], key, lo, hi);
      CountConcat(b[..i], [x] + b[i + 1..], key, lo, hi);
      CountConcat([x], b[i + 1..], key, lo, hi);
      CountConcat(b[..i], b[i + 1..], key, lo, hi);
      assert b[..i] + ([x] + b[i + 1..]) == b;
    }
  }

  /** A tally depends only on which elements there are, not on their order. */
  lemma TallyPermutation<T>(a: seq<T>, b: seq<T>, key: T -> int, weight: T -> real, m: nat)
    requires multiset(a) == multiset(b)
    ensures Tally(a, key, weight, m) == Tally(b, key, weight, m)
  {
    forall j | 0 <= j < m
      ensures Tally(a, key, weight, m)[j] == Tally(b, key, weight, m)[j]
    {
      TallySlot(a, key, weight, m, j);
      TallySlot(b, key, weight, m, j);
      WeightPermutation(a, b, key, weight, j, j + 1);
    }
  }
}

=== FILE: statistics.dfy ===
/**
 * numpy's descriptive statistics on non-empty arrays: mean, max, min, median,
 * and the NaN-ignoring variants used for RTT series (which first drop the
 * undefined bins).
 */
module Statistics {
  import opened Floats
  import opened Sequences
  import opened Sorting

  /** `np.mean`: the sum divided by the length. */
  function Mean(s: seq<real>): real
    requires |s| > 0
  {
    Sum(s) / |s| as real
  }

  /** `np.max` */
  function Max(s: seq<real>): (m: real)
    requires |s| > 0
    ensures m in s
    ensures forall i :: 0 <= i < |s| ==> s[i] <= m
  {
    if |s| == 1 then s[0]
    else
      var rest := Max(s[..|s| - 1]);
      assert forall i :: 0 <= i < |s| - 1 ==> s[..|s| - 1][i] == s[i];
      if s[|s| - 1] > rest then s[|s| - 1] else rest
  }

  /** `np.min` */
  function Min(s: seq<real>): (m: real)
    requires |s| > 0
    ensures m in s
    ensures forall i :: 0 <= i < |s| ==> m <= s[i]
  {
    if |s| == 1 then s[0]
    else
      var rest := Min(s[..|s| - 1]);
      assert forall i :: 0 <= i < |s| - 1 ==> s[..|s| - 1][i] == s[i];
      if s[|s| - 1] < rest then s[|s| - 1] else rest
  }

  /** The mean lies between the least and the greatest element. */
  lemma MeanWithin(s: seq<real>)
    requires |s| > 0
    ensures Min(s) <= Mean(s) <= Max(s)
  {
    MeanBetween(s, Min(s), Max(s));
  }

  /** Elements within [lo, hi] have their mean within [lo, hi]. */
  lemma MeanBetween(s: seq<real>, lo: real, hi: real)
    requires |s| > 0
    requires forall i :: 0 <= i < |s| ==> lo <= s[i] <= hi
    ensures lo <= Mean(s) <= hi
  {
    SumBounds(s, lo, hi);
    QuotientWithin(Sum(s), |s| as real, lo, hi);
  }

  lemma QuotientWithin(total: real, n: real, lo: real, hi: real)
    requires n > 0.0 && n * lo <= total <= n * hi
    ensures lo <= total / n <= hi
  {
    assert (total / n) * n == total;
  }

  /** Dividing every element by a positive constant divides the mean by it. */
  lemma MeanScaled(a: seq<real>, b: seq<real>, c: real)
    requires |a| == |b| > 0 && c > 0.0
    requires forall i :: 0 <= i < |a| ==> b[i] == a[i] / c
    ensures Mean(b) * c == Mean(a)
  {
    SumScaled(a, b, 1.0 / c);
    assert Sum(b) == Sum(a) / c;
  }

  /**
   * `np.median`: the middle element of the sorted values, or the average of
   * the two middle elements when the length is even.
   */
  function Median(s: seq<real>): (m: real)
    requires |s| > 0
    ensures Min(s) <= m <= Max(s)
  {
    var r := Sort(s, RealKey);
    var n := |r|;
    SortedFirstLast(s, RealKey);
    assert KeysOf(s, RealKey) == s;
    SortedWithin(r, RealKey);
    if n % 2 == 1 then r[n / 2] else (r[n / 2 - 1] + r[n / 2]) / 2.0
  }

  /** The keys of the elements of `s`, in order. */
  function KeysOf<T>(s: seq<T>, key: T -> real): (k: seq<real>)
    ensures |k| == |s|
    ensures forall i :: 0 <= i < |s| ==> k[i] == key(s[i])
  {
    seq(|s|, i requires 0 <= i < |s| => key(s[i]))
  }

  /** Sorting puts an element with the least key first and one with the greatest key last. */
  lemma SortedFirstLast<T>(s: seq<T>, key: T -> real)
    requires |s| > 0
    ensures key(Sort(s, key)[0]) == Min(KeysOf(s, key))
    ensures key(Sort(s, key)[|s| - 1]) == Max(KeysOf(s, key))
  {
    var r := Sort(s, key);
    OrderedFirst(s, r, key);
    OrderedLast(s, r, key);
  }

  lemma OrderedFirst<T>(s: seq<T>, r: seq<T>, key: T -> real)
    requires |s| > 0 && multiset(r) == multiset(s) && SortedBy(r, key)
    ensures |r| == |s| && key(r[0]) == Min(KeysOf(s, key))
  {
    assert |r| == |multiset(r)| == |s|;
    var ks := KeysOf(s, key);
    assert r[0] in multiset(s) by {
      assert r[0] in multiset(r);
    }
    var i :| 0 <= i < |s| && s[i] == r[0];
    forall k | 0 <= k < |ks|
      ensures ks[i] <= ks[k]
    {
      ElementOfSorted(r, key, s[k], multiset(s));
    }
    LeastIsMin(ks, i);
  }

  lemma OrderedLast<T>(s: seq<T>, r: seq<T>, key: T -> real)
    requires |s| > 0 && multiset(r) == multiset(s) && SortedBy(r, key)
    ensures |r| == |s| && key(r[|r| - 1]) == Max(KeysOf(s, key))
  {
    assert |r| == |multiset(r)| == |s|;
    var ks := KeysOf(s, key);
    assert r[|r| - 1] in multiset(s) by {
      assert r[|r| - 1] in multiset(r);
    }
    var j :| 0 <= j < |s| && s[j] == r[|r| - 1];
    forall k | 0 <= k < |ks|
      ensures ks[k] <= ks[j]
    {
      ElementOfSorted(r, key, s[k], multiset(s));
    }
    GreatestIsMax(ks, j);
  }

  lemma LeastIsMin(s: seq<real>, i: int)
    requires 0 <= i < |s| && forall k :: 0 <= k < |s| ==> s[i] <= s[k]
    ensures s[i] == Min(s)
  {
  }

  lemma GreatestIsMax(s: seq<real>, i: int)
    requires 0 <= i < |s| && forall k :: 0 <= k < |s| ==> s[k] <= s[i]
    ensures s[i] == Max(s)
  {
  }

  /** The finite values of a series in order, as `a[~np.isnan(a)]` selects them. */
  function Finite(xs: seq<Float>): (r: seq<real>)
    requires forall i :: 0 <= i < |xs| ==> !xs[i].Inf?
    ensures |r| <= |xs|
    ensures forall i :: 0 <= i < |xs| && xs[i].Num? ==> xs[i].r in r
    ensures forall k :: 0 <= k < |r| ==> Num(r[k]) in xs
    ensures |r| == 0 <==> forall i :: 0 <= i < |xs| ==> xs[i].NaN?
    ensures |xs| == 1 ==> r == (if xs[0].Num? then [xs[0].r] else [])
  {
    if |xs| == 0 then []
    else
      var rest := Finite(xs[..|xs| - 1]);
      assert forall i :: 0 <= i < |xs| - 1 ==> xs[..|xs| - 1][i] == xs[i];
      assert forall x :: x in xs[..|xs| - 1] ==> x in xs;
      match xs[|xs| - 1]
      case Num(v) => rest + [v]
      case NaN => rest
  }

  /** The selection goes value by value: it keeps the order and the repetitions of the finite values. */
  lemma {:induction false} FiniteAppend(a: seq<Float>, b: seq<Float>)
    requires forall i :: 0 <= i < |a| ==> !a[i].Inf?
    requires forall i :: 0 <= i < |b| ==> !b[i].Inf?
    ensures Finite(a + b) == Finite(a) + Finite(b)
    decreases |b|
  {
    if |b| == 0 {
      assert a + b == a;
    } else {
      var ab, b' := a + b, b[..|b| - 1];
      assert ab[..|ab| - 1] == a + b';
      FiniteAppend(a, b');
      FiniteLast(ab);
      FiniteLast(b);
    }
  }

  /** One step of `Finite`: the last value is kept exactly when it is a number. */
  lemma FiniteLast(xs: seq<Float>)
    requires |xs| > 0 && forall i :: 0 <= i < |xs| ==> !xs[i].Inf?
    ensures Finite(xs) == Finite(xs[..|xs| - 1]) + (if xs[|xs| - 1].Num? then [xs[|xs| - 1].r] else [])
  {
  }
}

=== FILE: text.dfy ===
/**
 * The Python string operations the program applies to tshark's output, to
 * file names and to plot labels: `strip`, `split`, `replace(pat, "")`,
 * `lower`, `endswith`, and the decimal rendering of an int in an f-string.
 */
module Text {

  /** `str.isspace()` for one character. */
  predicate IsSpace(c: char) {
    || c == ' ' || c == '\t' || c == '\n' || c == '\r' || c == '\U{0b}' || c == '\U{0c}'
    || c == '\U{1c}' || c == '\U{1d}' || c == '\U{1e}' || c == '\U{1f}'
    || c == '\U{85}' || c == '\U{a0}' || c == '\U{1680}'
    || ('\U{2000}' <= c <= '\U{200a}')
    || c == '\U{2028}' || c == '\U{2029}' || c == '\U{202f}' || c == '\U{205f}' || c == '\U{3000}'
  }

  /** The characters of `strip('"\'')`. */
  predicate IsQuote(c: char) {
    c == '"' || c == '\''
  }

  /** Number of leading characters that `drop` holds for. */
  function LeadLen(s: string, drop: char -> bool): (n: nat)
    ensures n <= |s|
    ensures forall k :: 0 <= k < n ==> drop(s[k])
    ensures n < |s| ==> !drop(s[n])
  {
    if |s| == 0 || !drop(s[0]) then 0 else 1 + LeadLen(s[1..], drop)
  }

  /** Number of trailing characters that `drop` holds for. */
  function TrailLen(s: string, drop: char -> bool): (n: nat)
    ensures n <= |s|
    ensures forall k :: |s| - n <= k < |s| ==> drop(s[k])
    ensures n < |s| ==> !drop(s[|s| - 1 - n])
  {
    if |s| == 0 || !drop(s[|s| - 1]) then 0 else 1 + TrailLen(s[..|s| - 1], drop)
  }

  /** The slice `s[i..j]` that `strip` keeps. */
  function StripBounds(s: string, drop: char -> bool): (b: (nat, nat))
    ensures b.0 <= b.1 <= |s|
    ensures forall k :: 0 <= k < b.0 ==> drop(s[k])
    ensures forall k :: b.1 <= k < |s| ==> drop(s[k])
    ensures b.0 < b.1 ==> !drop(s[b.0]) && !drop(s[b.1 - 1])
  {
    var i := LeadLen(s, drop);
    if i == |s| then (i, i) else (i, |s| - TrailLen(s, drop))
  }

  /**
   * `r` sits in `s` at position `i` with only characters `drop` holds for
   * around it: what is left after trimming both ends of `s`.
   */
  predicate TrimmedAt(s: string, r: string, i: int, drop: char -> bool) {
    && OccursAt(s, r, i)
    && (forall k :: 0 <= k < i ==> drop(s[k]))
    && (forall k :: i + |r| <= k < |s| ==> drop(s[k]))
  }

  /**
   * `s.strip(chars)`: drops the leading and trailing characters that `drop`
   * holds for. The result is one contiguous slice of `s`, and with its end
   * characters kept it is the longest such slice.
   */
  function Strip(s: string, drop: char -> bool): (r: string)
    ensures |r| <= |s|
    ensures exists i :: TrimmedAt(s, r, i, drop)
    ensures r == [] <==> forall k :: 0 <= k < |s| ==> drop(s[k])
    ensures r != [] ==> !drop(r[0]) && !drop(r[|r| - 1])
  {
    var b := StripBounds(s, drop);
    assert TrimmedAt(s, s[b.0..b.1], b.0, drop);
    s[b.0..b.1]
  }

  /** Stripping keeps every character `drop` does not hold for, and adds none. */
  lemma StripKeeps(s: string, drop: char -> bool)
    ensures forall c :: c in s && !drop(c) ==> c in Strip(s, drop)
    ensures forall c :: c in Strip(s, drop) ==> c in s
  {
    var i :| TrimmedAt(s, Strip(s, drop), i, drop);
    TrimmedKeeps(s, Strip(s, drop), i, drop);
  }

  /** A trimmed slice holds every kept character of the text, and only characters of the text. */
  lemma TrimmedKeeps(s: string, r: string, i: int, drop: char -> bool)
    requires TrimmedAt(s, r, i, drop)
    ensures forall c :: c in s && !drop(c) ==> c in r
    ensures forall c :: c in r ==> c in s
  {
    forall k | 0 <= k < |s| && !drop(s[k])
      ensures s[k] in r
    {
      assert s[k] == r[k - i];
    }
    forall k | 0 <= k < |r|
      ensures r[k] in s
    {
      assert r[k] == s[i + k];
    }
  }

  /**
   * The slice `Strip` keeps is the only one with the trimmed characters
   * around it and kept characters at its ends (or nothing, when every
   * character is trimmed).
   */
  lemma StripUnique(s: string, r: string, i: int, drop: char -> bool)
    requires TrimmedAt(s, r, i, drop)
    requires r != [] ==> !drop(r[0]) && !drop(r[|r| - 1])
    requires r == [] ==> forall k :: 0 <= k < |s| ==> drop(s[k])
    ensures Strip(s, drop) == r
  {
    var q := Strip(s, drop);
    var j :| TrimmedAt(s, q, j, drop);
    if r != [] {
      assert s[i] == r[0] && s[i + |r| - 1] == r[|r| - 1];
      assert q != [];
      assert s[j] == q[0] && s[j + |q| - 1] == q[|q| - 1];
      assert i == j;
      assert i + |r| == j + |q|;
    }
  }

  /** Trimming a trimmed slice again leaves a slice of the original, trimmed by either test. */
  lemma TrimmedTwice(s: string, t: string, i: int, r: string, j: int, d1: char -> bool, d2: char -> bool, d: char -> bool)
    requires TrimmedAt(s, t, i, d1) && TrimmedAt(t, r, j, d2)
    requires forall c :: d1(c) || d2(c) ==> d(c)
    ensures TrimmedAt(s, r, i + j, d)
  {
    assert forall k :: 0 <= k < |t| ==> t[k] == s[i + k];
    assert forall k :: 0 <= k < |r| ==> r[k] == t[j + k];
    assert s[i + j..i + j + |r|] == r;
    forall k | 0 <= k < i + j
      ensures d(s[k])
    {
      if k >= i {
        assert d2(t[k - i]);
      }
    }
    forall k | i + j + |r| <= k < |s|
      ensures d(s[k])
    {
      if k < i + |t| {
        assert d2(t[k - i]);
      }
    }
  }

  /** Stripping twice is stripping once. */
  lemma StripIdempotent(s: string, drop: char -> bool)
    ensures Strip(Strip(s, drop), drop) == Strip(s, drop)
  {
    var r := Strip(s, drop);
    if r != [] {
      assert LeadLen(r, drop) == 0;
      assert TrailLen(r, drop) == 0;
    }
  }

  /** Text whose end characters are kept is left as it is. */
  lemma StripKeepsEnds(s: string, drop: char -> bool)
    requires s != [] ==> !drop(s[0]) && !drop(s[|s| - 1])
    ensures Strip(s, drop) == s
  {
    if s != [] {
      assert LeadLen(s, drop) == 0;
      assert TrailLen(s, drop) == 0;
    }
  }

  /** `pat` occurs in `s` at position `k`. */
  predicate OccursAt(s: string, pat: string, k: int) {
    0 <= k && k + |pat| <= |s| && s[k..k + |pat|] == pat
  }

  /** `pat in s` for a non-empty pattern. */
  predicate Contains(s: string, pat: string) {
    exists k | 0 <= k <= |s| :: OccursAt(s, pat, k)
  }

  function Join(parts: seq<string>, sep: string): string
    requires |parts| > 0
  {
    if |parts| == 1 then parts[0] else parts[0] + sep + Join(parts[1..], sep)
  }

  /**
   * `s.split(sep)`: the pieces between the occurrences of `sep`, found left
   * to right without overlap.
   */
  function Split(s: string, sep: string): (parts: seq<string>)
    requires |sep| > 0
    ensures |parts| > 0
    ensures Join(parts, sep) == s
    ensures parts[0] <= s
    ensures forall i :: 0 <= i < |parts| ==> !Contains(parts[i], sep)
    decreases |s|
  {
    if |s| < |sep| then
      assert forall k :: !OccursAt(s, sep, k);
      [s]
    else if s[..|sep|] == sep then
      var rest := Split(s[|sep|..], sep);
      assert !Contains([], sep) by { assert forall k :: !OccursAt([], sep, k); }
      assert s == [] + sep + s[|sep|..];
      [[]] + rest
    else
      var rest := Split(s[1..], sep);
      var first := [s[0]] + rest[0];
      assert first <= s;
      assert !Contains(first, sep) by {
        forall k | OccursAt(first, sep, k)
          ensures false
        {
          if k > 0 {
            assert first[k..k + |sep|] == rest[0][k - 1..k - 1 + |sep|];
            assert OccursAt(rest[0], sep, k - 1);
          }
        }
      }
      assert s == [s[0]] + s[1..];
      JoinConsFirst(rest, sep, s[0]);
      [first] + rest[1..]
  }

  lemma JoinConsFirst(parts: seq<string>, sep: string, c: char)
    requires |parts| > 0
    ensures Join([[c] + parts[0]] + parts[1..], sep) == [c] + Join(parts, sep)
  {
    var q := [[c] + parts[0]] + parts[1..];
    if |parts| > 1 {
      assert q[1..] == parts[1..];
    }
  }

  /** A separator present in the text splits it into at least two pieces. */
  lemma SplitAtLeastTwo(s: string, sep: string)
    requires |sep| > 0 && Contains(s, sep)
    ensures |Split(s, sep)| >= 2
  {
    var parts := Split(s, sep);
    if |parts| == 1 {
      assert false;
    }
  }

  /** Splitting the join of pieces free of a one-character separator gives the pieces back. */
  lemma {:induction false} SplitJoin(ps: seq<string>, c: char)
    requires |ps| > 0
    requires forall i :: 0 <= i < |ps| ==> c !in ps[i]
    ensures Split(Join(ps, [c]), [c]) == ps
    decreases |Join(ps, [c])|
  {
    var s := Join(ps, [c]);
    if ps[0] == [] {
      if |ps| > 1 {
        assert s == [c] + Join(ps[1..], [c]);
        assert s[..1] == [c] && s[1..] == Join(ps[1..], [c]);
        SplitJoin(ps[1..], c);
        assert ps == [[]] + ps[1..];
      }
    } else {
      var x := ps[0][0];
      var t := ps[0][1..];
      var qs := [t] + ps[1..];
      assert qs[1..] == ps[1..];
      assert ps[0] == [x] + t;
      assert ps == [[x] + qs[0]] + qs[1..];
      JoinConsFirst(qs, [c], x);
      assert s == [x] + Join(qs, [c]);
      assert x != c by {
        assert x in ps[0];
      }
      assert forall i :: 0 <= i < |qs| ==> c !in qs[i] by {
        assert forall ch :: ch in t ==> ch in ps[0];
      }
      assert s[1..] == Join(qs, [c]);
      if |s| >= 1 {
        assert s[..1] != [c];
      }
      SplitJoin(qs, c);
    }
  }

  function Concat(parts: seq<string>): string {
    if |parts| == 0 then [] else parts[0] + Concat(parts[1..])
  }

  /**
   * `s.replace(pat, "")`: Python joins the split pieces with nothing in
   * between, so every occurrence found removes exactly `|pat|` characters.
   */
  function RemoveAll(s: string, pat: string): (r: string)
    requires |pat| > 0
    ensures |r| + (|Split(s, pat)| - 1) * |pat| == |s|
    ensures !Contains(s, pat) ==> r == s
  {
    JoinLength(Split(s, pat), pat);
    SplitOnePiece(s, pat);
    Concat(Split(s, pat))
  }

  /** A join is as long as its pieces plus one separator between each two. */
  lemma {:induction false} JoinLength(parts: seq<string>, sep: string)
    requires |parts| > 0
    ensures |Join(parts, sep)| == |Concat(parts)| + (|parts| - 1) * |sep|
  {
    if |parts| > 1 {
      JoinLength(parts[1..], sep);
      assert (|parts| - 1) * |sep| == (|parts| - 2) * |sep| + |sep|;
    } else {
      assert Concat(parts) == parts[0] + Concat(parts[1..]);
    }
  }

  /** Text without the separator splits into itself alone. */
  lemma SplitOnePiece(s: string, sep: string)
    requires |sep| > 0
    ensures !Contains(s, sep) ==> Split(s, sep) == [s]
  {
    var parts := Split(s, sep);
    if |parts| > 1 {
      var k := |parts[0]|;
      assert s == parts[0] + sep + Join(parts[1..], sep);
      assert s[k..k + |sep|] == sep;
      assert OccursAt(s, sep, k);
    }
  }

  /** `s.endswith(suffix)` */
  predicate EndsWith(s: string, suffix: string) {
    |suffix| <= |s| && s[|s| - |suffix|..] == suffix
  }

  /** `c.lower()` for ASCII letters; every other character is left as it is. */
  function LowerChar(c: char): char {
    if 'A' <= c <= 'Z' then (c as int - 'A' as int + 'a' as int) as char else c
  }

  /** `s.lower()` */
  function Lower(s: string): (r: string)
    ensures |r| == |s|
    ensures forall k :: 0 <= k < |s| ==> r[k] == LowerChar(s[k])
  {
    seq(|s|, k requires 0 <= k < |s| => LowerChar(s[k]))
  }

  predicate IsDigit(c: char) {
    '0' <= c <= '9'
  }

  /** The decimal digits of `n`, most significant first, without leading zeros. */
  function Digits(n: nat): (s: string)
    ensures |s| > 0
    ensures forall k :: 0 <= k < |s| ==> IsDigit(s[k])
    ensures |s| > 1 ==> s[0] != '0'
  {
    var d := ('0' as int + n % 10) as char;
    if n < 10 then [d] else Digits(n / 10) + [d]
  }

  /** The number a string of decimal digits denotes. */
  function DigitsValue(s: string): nat
    requires forall k :: 0 <= k < |s| ==> IsDigit(s[k])
  {
    if |s| == 0 then 0
    else
      assert IsDigit(s[|s| - 1]);
      10 * DigitsValue(s[..|s| - 1]) + (s[|s| - 1] as int - '0' as int)
  }

  /** `str(n)` for an int: an optional minus sign, then the digits. */
  function IntToString(n: int): string {
    if n < 0 then "-" + Digits(-n) else Digits(n)
  }

  /** Reading the digits back gives the number. */
  lemma {:induction false} DigitsRoundTrip(n: nat)
    ensures DigitsValue(Digits(n)) == n
  {
    if n >= 10 {
      var s := Digits(n);
      assert s[..|s| - 1] == Digits(n / 10);
      DigitsRoundTrip(n / 10);
    }
  }

  /** Distinct numbers are written differently. */
  lemma IntToStringInjective(a: int, b: int)
    requires IntToString(a) == IntToString(b)
    ensures a == b
  {
    if a < 0 && b < 0 {
      assert Digits(-a) == IntToString(a)[1..];
      DigitsRoundTrip(-a);
      DigitsRoundTrip(-b);
    } else if a >= 0 && b >= 0 {
      DigitsRoundTrip(a);
      DigitsRoundTrip(b);
    }
  }
}

=== FILE: utils.dfy ===
/**
 * `pcap_analyzer/utils.py`: which directory entries are captures, the
 * display name of a capture, the duration of every file, and where a plot
 * is written. Listing a directory and creating one are left to the caller:
 * the entries of the directory are a parameter.
 */
module Utils {
  import opened Wrappers
  import opened Text
  import Paths
  import opened Metrics

  /** The capture extension, compared without regard to case. */
  const Extension: string := ".pcapng"

  /** `filename.lower().endswith('.pcapng')` (line 26 and line 38). */
  predicate IsCapture(name: string) {
    EndsWith(Lower(name), Extension)
  }

  /** The entries of a directory that are captures, in listing order. */
  function Captures(entries: seq<string>): (r: seq<string>)
    ensures |r| <= |entries|
    ensures forall k :: 0 <= k < |r| ==> IsCapture(r[k]) && r[k] in entries
    ensures forall i :: 0 <= i < |entries| && IsCapture(entries[i]) ==> entries[i] in r
    ensures |entries| == 1 ==> r == (if IsCapture(entries[0]) then entries else [])
  {
    if |entries| == 0 then []
    else
      var rest := Captures(entries[1..]);
      assert forall i :: 1 <= i < |entries| ==> entries[i] == entries[1..][i - 1];
      if IsCapture(entries[0]) then [entries[0]] + rest else rest
  }

  /** The filter goes entry by entry: it keeps the listing order and every repeated name. */
  lemma {:induction false} CapturesAppend(a: seq<string>, b: seq<string>)
    ensures Captures(a + b) == Captures(a) + Captures(b)
  {
    if |a| == 0 {
      assert a + b == b;
    } else {
      assert (a + b)[1..] == a[1..] + b;
      CapturesAppend(a[1..], b);
    }
  }

  /**
   * `find_pcapng_files` (lines 19-28): `None` when the directory does not
   * exist, otherwise every capture among its entries joined to the directory.
   */
  function FindCaptures(isDirectory: bool, directory: string, entries: seq<string>): (r: Option<seq<string>>)
    ensures r.None? <==> !isDirectory
    ensures r.Some? ==> |r.value| == |Captures(entries)|
    ensures r.Some? ==> forall k :: 0 <= k < |r.value| ==> r.value[k] == Paths.Join(directory, Captures(entries)[k])
  {
    if !isDirectory then None
    else
      var c := Captures(entries);
      Some(seq(|c|, k requires 0 <= k < |c| => Paths.Join(directory, c[k])))
  }

  /** A directory entry is found exactly when its name is a capture's. */
  lemma FoundIff(directory: string, entries: seq<string>, name: string)
    requires forall i :: 0 <= i < |entries| ==> '/' !in entries[i]
    requires name in entries
    ensures Paths.Join(directory, name) in FindCaptures(true, directory, entries).value <==> IsCapture(name)
  {
    var found := FindCaptures(true, directory, entries).value;
    var c := Captures(entries);
    if IsCapture(name) {
      var k :| 0 <= k < |c| && c[k] == name;
      assert found[k] == Paths.Join(directory, name);
    }
    if Paths.Join(directory, name) in found {
      var k :| 0 <= k < |found| && found[k] == Paths.Join(directory, name);
      Paths.BasenameOfJoin(directory, name);
      Paths.BasenameOfJoin(directory, c[k]);
      assert c[k] == name;
    }
  }

  // ---------------------------------------------------------------------------
  // Display names

  /**
   * `clean_filename` (lines 30-41): the base name, without its last seven
   * characters when it ends with the extension in any case.
   */
  function CleanFilename(filename: string): (r: string)
    ensures '/' !in r
    ensures IsCapture(Paths.Basename(filename)) ==> |r| + |Extension| == |Paths.Basename(filename)|
    ensures r <= Paths.Basename(filename)
    ensures !IsCapture(Paths.Basename(filename)) ==> r == Paths.Basename(filename)
  {
    var base := Paths.Basename(filename);
    if IsCapture(base) then
      var r := base[..|base| - |Extension|];
      PrefixKeepsOut(base, r);
      r
    else base
  }

  /** A prefix of text without '/' has none either. */
  lemma PrefixKeepsOut(base: string, r: string)
    requires '/' !in base && r <= base
    ensures '/' !in r
  {
    forall k | 0 <= k < |r|
      ensures r[k] != '/'
    {
      assert r[k] == base[k];
    }
  }

  /**
   * A capture saved in any directory under a name that holds no '/' is
   * shown under that name, whatever the case of its extension.
   */
  lemma CleanCapture(directory: string, name: string, ext: string)
    requires '/' !in name && '/' !in ext
    requires Lower(ext) == Extension
    ensures CleanFilename(Paths.Join(directory, name + ext)) == name
  {
    var file := name + ext;
    assert '/' !in file by {
      assert forall c :: c in file ==> c in name || c in ext;
    }
    Paths.BasenameOfJoin(directory, file);
    CaptureWithExtension(name, ext);
  }

  /** A name followed by any spelling of the extension is a capture whose stem is the name. */
  lemma CaptureWithExtension(name: string, ext: string)
    requires Lower(ext) == Extension
    ensures IsCapture(name + ext)
    ensures (name + ext)[..|name + ext| - |Extension|] == name
  {
    var file := name + ext;
    assert |ext| == |Extension|;
    assert Lower(file)[|file| - |Extension|..] == Lower(ext) by {
      forall k | 0 <= k < |ext|
        ensures Lower(file)[|name| + k] == Lower(ext)[k]
      {
        assert file[|name| + k] == ext[k];
      }
    }
    assert file[..|name|] == name;
  }

  /** Any other file is shown under its base name. */
  lemma CleanOther(directory: string, name: string)
    requires '/' !in name && !IsCapture(name)
    ensures CleanFilename(Paths.Join(directory, name)) == name
  {
    Paths.BasenameOfJoin(directory, name);
  }

  // ---------------------------------------------------------------------------
  // Durations

  /** File i offers the pair (its name, the last offset of metric m) when that metric has data. */
  predicate Offers(results: seq<Entry<FileResults>>, i: int, m: Metric, c: (string, real)) {
    0 <= i < |results| && HasData(results[i].val, m) && c == (results[i].name, LastOffset(results[i].val, m))
  }

  /** For one metric, from file i on, each file with data and the last offset of its series (lines 48-51). */
  function OfferedFrom(results: seq<Entry<FileResults>>, m: Metric, i: nat): seq<(string, real)>
    requires i <= |results|
    decreases |results| - i
  {
    if i == |results| then []
    else if HasData(results[i].val, m) then [(results[i].name, LastOffset(results[i].val, m))] + OfferedFrom(results, m, i + 1)
    else OfferedFrom(results, m, i + 1)
  }

  lemma {:induction false} OfferedFromIff(results: seq<Entry<FileResults>>, m: Metric, i: nat)
    requires i <= |results|
    ensures forall c :: c in OfferedFrom(results, m, i) <==> exists j :: i <= j && Offers(results, j, m, c)
    decreases |results| - i
  {
    if i < |results| {
      OfferedFromIff(results, m, i + 1);
      forall c | c in OfferedFrom(results, m, i)
        ensures exists j :: i <= j && Offers(results, j, m, c)
      {
        if !(c in OfferedFrom(results, m, i + 1)) {
          assert Offers(results, i, m, c);
        }
      }
      forall c | (exists j :: i <= j && Offers(results, j, m, c))
        ensures c in OfferedFrom(results, m, i)
      {
        var j :| i <= j && Offers(results, j, m, c);
        if j > i {
          assert i + 1 <= j && Offers(results, j, m, c);
        }
      }
    }
  }

  /** Every (file, offset) pair the two loops consider, in the order they consider them. */
  function Candidates(results: seq<Entry<FileResults>>): seq<(string, real)> {
    OfferedFrom(results, PacketRate, 0) + OfferedFrom(results, Rtt, 0) + OfferedFrom(results, Throughput, 0)
  }

  /** A pair is a candidate exactly when some file offers it for some metric. */
  lemma CandidatesIff(results: seq<Entry<FileResults>>)
    ensures forall c :: c in Candidates(results) <==> exists i, m :: Offers(results, i, m, c)
  {
    OfferedFromIff(results, PacketRate, 0);
    OfferedFromIff(results, Rtt, 0);
    OfferedFromIff(results, Throughput, 0);
    forall c | (exists i, m :: Offers(results, i, m, c))
      ensures c in Candidates(results)
    {
      var i, m :| Offers(results, i, m, c);
      assert 0 <= i && Offers(results, i, m, c);
    }
  }

  /** Line 53: a file's entry is set when it is new or the offset is longer. */
  function Longer(d: map<string, real>, c: (string, real)): map<string, real> {
    if c.0 !in d || c.1 > d[c.0] then d[c.0 := c.1] else d
  }

  /** The map the loops build from the pairs, one pair at a time. */
  function Longest(cs: seq<(string, real)>): map<string, real> {
    if |cs| == 0 then map[] else Longer(Longest(cs[..|cs| - 1]), cs[|cs| - 1])
  }

  /**
   * The map holds a key exactly when some pair names it, and its value is
   * the greatest offset paired with that key.
   */
  lemma {:induction false} LongestIsMax(cs: seq<(string, real)>)
    ensures forall k :: 0 <= k < |cs| ==> cs[k].0 in Longest(cs) && cs[k].1 <= Longest(cs)[cs[k].0]
    ensures forall key :: key in Longest(cs) ==> exists k :: 0 <= k < |cs| && cs[k] == (key, Longest(cs)[key])
  {
    if |cs| > 0 {
      var init := cs[..|cs| - 1];
      LongestIsMax(init);
      var d := Longest(init);
      assert forall k :: 0 <= k < |init| ==> init[k] == cs[k];
      forall key | key in Longest(cs)
        ensures exists k :: 0 <= k < |cs| && cs[k] == (key, Longest(cs)[key])
      {
        if key == cs[|cs| - 1].0 && Longest(cs)[key] == cs[|cs| - 1].1 {
          assert cs[|cs| - 1] == (key, Longest(cs)[key]);
        } else {
          var k :| 0 <= k < |init| && init[k] == (key, d[key]);
          assert cs[k] == (key, Longest(cs)[key]);
        }
      }
    }
  }

  /**
   * `get_durations` (lines 43-56): a file has a duration exactly when one
   * of its metrics has a non-empty series; the duration is the longest
   * last offset among them, so it is at least each one and equal to one.
   */
  function GetDurations(results: seq<Entry<FileResults>>): (d: map<string, real>)
    ensures forall i, m :: 0 <= i < |results| && HasData(results[i].val, m) ==>
      results[i].name in d && LastOffset(results[i].val, m) <= d[results[i].name]
    ensures forall name :: name in d ==> exists i, m :: Offers(results, i, m, (name, d[name]))
  {
    var cs := Candidates(results);
    LongestIsMax(cs);
    CandidatesIff(results);
    DurationsBound(results, cs, Longest(cs));
    DurationsAttained(results, cs, Longest(cs));
    Longest(cs)
  }

  lemma DurationsBound(results: seq<Entry<FileResults>>, cs: seq<(string, real)>, d: map<string, real>)
    requires forall c :: (exists i, m :: Offers(results, i, m, c)) ==> c in cs
    requires forall k :: 0 <= k < |cs| ==> cs[k].0 in d && cs[k].1 <= d[cs[k].0]
    ensures forall i, m :: 0 <= i < |results| && HasData(results[i].val, m) ==>
      results[i].name in d && LastOffset(results[i].val, m) <= d[results[i].name]
  {
    forall i, m | 0 <= i < |results| && HasData(results[i].val, m)
      ensures results[i].name in d && LastOffset(results[i].val, m) <= d[results[i].name]
    {
      var c := (results[i].name, LastOffset(results[i].val, m));
      assert Offers(results, i, m, c);
      assert c in cs;
      var k :| 0 <= k < |cs| && cs[k] == c;
    }
  }

  lemma DurationsAttained(results: seq<Entry<FileResults>>, cs: seq<(string, real)>, d: map<string, real>)
    requires forall c :: c in cs ==> exists i, m :: Offers(results, i, m, c)
    requires forall key :: key in d ==> exists k :: 0 <= k < |cs| && cs[k] == (key, d[key])
    ensures forall name :: name in d ==> exists i, m :: Offers(results, i, m, (name, d[name]))
  {
    forall name | name in d
      ensures exists i, m :: Offers(results, i, m, (name, d[name]))
    {
      var k :| 0 <= k < |cs| && cs[k] == (name, d[name]);
      assert cs[k] in cs;
    }
  }

  /** A file whose every series is missing or empty has no duration. */
  lemma NoDataNoDuration(results: seq<Entry<FileResults>>, name: string)
    requires forall i, m :: 0 <= i < |results| && results[i].name == name ==> !HasData(results[i].val, m)
    ensures name !in GetDurations(results)
  {
  }

  // ---------------------------------------------------------------------------
  // Output

  /** `get_output_path` (lines 65-68): the prefix with ".png", inside the output directory. */
  function OutputPath(prefix: string, outputDirectory: string): (p: string)
    ensures EndsWith(p, ".png")
    ensures |prefix| > 0 && prefix[0] == '/' ==> p == prefix + ".png"
    ensures (|prefix| == 0 || prefix[0] != '/') ==>
      |outputDirectory| <= |p| && p[..|outputDirectory|] == outputDirectory
  {
    Paths.Join(outputDirectory, prefix + ".png")
  }

  /**
   * A relative prefix lands inside the output directory: the directory, one
   * '/' unless it is empty or already ends in one, then the file name.
   */
  lemma InOutputDirectory(prefix: string, outputDirectory: string)
    requires |prefix| == 0 || prefix[0] != '/'
    ensures var p, d := OutputPath(prefix, outputDirectory), outputDirectory;
      if |d| == 0 || d[|d| - 1] == '/' then p[|d|..] == prefix + ".png"
      else p[|d|..] == "/" + prefix + ".png"
  {
  }

  /** The file written is named after the prefix, in whatever directory. */
  lemma OutputName(prefix: string, outputDirectory: string)
    requires '/' !in prefix
    ensures Paths.Basename(OutputPath(prefix, outputDirectory)) == prefix + ".png"
  {
    assert '/' !in prefix + ".png" by {
      assert forall c :: c in prefix + ".png" ==> c in prefix || c in ".png";
    }
    Paths.BasenameOfJoin(outputDirectory, prefix + ".png");
  }
}

=== FILE: wrappers.dfy ===
/** The optional value used wherever the program returns None or a value. */
module Wrappers {

  datatype Option<+T> = None | Some(value: T) {

    /** The wrapped value, or `default` when there is none. */
    function GetOr(default: T): T {
      match this
      case Some(v) => v
      case None => default
    }
  }

  /** How a call ends: it returns a value, or an exception escapes it and ends the program. */
  datatype Completion<+T> = Returned(value: T) | Raised(exception: string)
}
